=== FILE: README.md ===
# discointelligence in Dafny

A verified model of the core of *discointelligence*, a shared party arena.
Players steer bubbles with an on-screen joystick. A server simulates the
bubbles and keeps the registry of who is connected. A big-screen "server
view" and a stats dashboard split the arena into eight genre zones and turn
zone occupancy into music prompts.

The model covers four parts:

- **One physics tick** (`physics.dfy`): friction, the speed cap, the Euler
  step and the wall bounce for each body, then pairwise circle collisions
  in key order.
- **The session registry** (`server.dfy`): every socket handler as a
  guarded transition `Server.Step(state, conn, event)`. It returns the new
  state and the messages emitted, in order.
- **The genre configuration file** (`gamestate.dfy`): load with fallback,
  and save while keeping the other settings.
- **The pure helpers of the three pages:**
  - genre zones and percentages (`zones.dfy`);
  - the dashboard (`statsview.dfy`);
  - the server view's registry copy, drag and genre form (`serverview.dfy`);
  - colours (`colors.dfy`);
  - the music gate, the fallback prompts and the ticker (`music.dfy`);
  - the player page's joystick, trail and name check (`client.dfy`).

Shared building blocks:

- `common.dfy`: `Option`, sums, `Abs`, `Max`, `Min`.
- `geometry.dfy`: 2-D vectors and facts about the square root.
- `assoc.dfy`: insertion-ordered association lists, the model of a
  JavaScript object used as a dictionary.
- `text.dfy`: `trim`, ASCII case mapping, `\s` removal, decimal digits and
  `padStart`.

Coordinates and weights are `real`. `Math.sqrt` is a function parameter
`sqrt` that every lemma needing it constrains by `Geometry.IsSqrt`:

- `sqrt(x)` is non-negative for `x >= 0`;
- `sqrt(x)` squared is `x` for `x >= 0`.

`Math.random()`, `Date.now()`, the socket id and whether the socket is
connected are event parameters.

## Model

| member | source | states |
|---|---|---|
| Physics.CheckCollision | physics.js:21-24 | for a true square root, two bodies collide exactly when the squared distance between their centres is below 60² |
| Physics.CheckCollisionMeans | physics.js:21-24 | two bodies collide exactly when the squared distance between their centres is below 60² |
| Physics.ResolveCollision | physics.js:27-71 | the resolver keeps each body's identity, the sum of the two positions (so the midpoint) and the sum of the two velocities |
| Physics.ResolveCoincident | physics.js:30-33 | when the centres coincide, neither body changes |
| Physics.ResolveSeparates | physics.js:36-49 | overlapping, non-coincident bodies end exactly 60 (two radii) apart |
| Physics.SeparationDistance | physics.js:36-48 | moving both centres by half the overlap along the unit normal gives a centre offset of squared length 60² |
| Physics.OverlapPositions | physics.js:40-49 | when overlapping, the first centre moves by −s and the second by +s, where s is half the overlap along the normal |
| Physics.ResolveApartKeepsPositions | physics.js:40-49 | bodies at least 60 apart keep their positions |
| Physics.ResolveKeepsSeparating | physics.js:56-59 | when the bodies are not approaching (normal relative velocity ≥ 0), both velocities are unchanged |
| Physics.ResolveReflects | physics.js:56-70 | after an approaching collision, the normal relative velocity is −0.7 times its value before |
| Physics.ResolveApproaching | physics.js:62-70 | an approaching pair gets an equal and opposite impulse j (−j and +j), which turns the normal relative velocity into −0.7 times itself |
| Physics.ImpulseAlgebra | physics.js:56-64 | against the unit normal and against the raw offset, the relative velocity has the same sign, and the impulse gives restitution 0.7 |
| Physics.FrictionScales | physics.js:85-95 | friction multiplies the velocity by 0.95, and bots by a further 0.9; it never increases speed |
| Physics.ClampSpeedBounds | physics.js:97-102 | after the cap the speed is at most 15, never above the speed before, unchanged when it was at most 15, exactly 15 otherwise; the result is a positive multiple k ≤ 1 of the input |
| Physics.CapRescales | physics.js:99-102 | a speed above 15 is rescaled by 15/speed, a factor in (0, 1), to length exactly 15 |
| Physics.ClampSpeed | physics.js:97-102 | for a true square root, the capped velocity has speed at most 15 and no more than before |
| Physics.BounceAxis | physics.js:108-124 | on one axis, with room for a ball (extent ≥ 60), the centre ends in [30, extent − 30]; the velocity never grows; away from both walls nothing changes; a near-wall hit leaves velocity 0.8·abs(v) ≥ 0; a far-wall hit from inside the near wall puts the centre at extent − 30 with velocity exactly −0.8·abs(v), and in an arena narrower than 60 a near-wall hit ends there with −0.8·(0.8·abs(v)) |
| Physics.IntegrateBody | physics.js:78-125 | the per-body phase keeps the body's identity and, when the arena is at least 60 wide (high), puts the centre within [30, W − 30] ([30, H − 30]) |
| Physics.IntegrateBodySpeed | physics.js:85-124 | at the end of the per-body phase the speed is at most 15 and no more than it was |
| Physics.IntegrateAwayFromWalls | physics.js:104-124 | a body that touches no wall is moved by exactly its damped, capped velocity |
| Physics.IntegrateAll | physics.js:75-125 | the per-body phase applies to every body in key order and keeps the keys |
| Physics.IntegrateAllBounds | physics.js:78-125 | after the per-body phase, every body has speed ≤ 15 and lies inside the walls when the arena has room |
| Physics.ResolverConserving | physics.js:27-71 | the resolver changes only positions and velocities and keeps both sums of the pair |
| Physics.ResolvePair | physics.js:130-135 | one pair step changes at most bodies i and j; with no contact nothing changes, otherwise the pair becomes the resolver's result |
| Physics.ResolvePairConserves | physics.js:130-135 | one pair step keeps the sum of all velocities and the sum of all positions |
| Physics.CollideFrom | physics.js:128-137 | the pairwise pass keeps every key and every body's identity |
| Physics.CollideRowSame | physics.js:129-136 | the inner loop keeps every key and identity |
| Physics.CollideRowStep | physics.js:129-136 | one turn of the inner loop is a pair step followed by the rest of the row |
| Physics.CollideFromStep | physics.js:128-137 | one turn of the outer loop is a row followed by the rest of the pass |
| Physics.CollideRowMomentum | physics.js:129-136 | the inner loop keeps the total velocity (momentum with equal masses) |
| Physics.CollideFromMomentum | physics.js:128-137 | the pairwise pass keeps the total velocity |
| Physics.CollideRowCentroid | physics.js:129-136 | the inner loop keeps the sum of positions |
| Physics.CollideFromCentroid | physics.js:128-137 | the pairwise pass keeps the sum of positions (the centroid) |
| Physics.CollideRowNoContact | physics.js:129-136 | a row with no touching pair changes nothing |
| Physics.CollideFromNoContact | physics.js:128-137 | a pass over bodies none of which touch changes nothing |
| Physics.UpdatePhysics | physics.js:74-138 | a tick never adds or removes bodies: same keys in the same order, same identities |
| Physics.UpdatePhysicsConserves | physics.js:127-137 | the collision pass keeps the total velocity and the sum of positions that the per-body phase produced |
| Physics.UpdatePhysicsNoOverlap | physics.js:127-137 | when no two bodies touch after the per-body phase, the tick is just that phase |
| Server.InitialState | server.js:34-44 | start-up state: no bodies, counter 0, eight genres, and the registry invariant holds |
| Server.SpawnInside | server.js:72-75 | a spawn draw in [0, 1) puts a new body in [100, W − 100) × [100, H − 100) |
| Server.BotIdInjective | server.js:183 | different (time, suffix) pairs give different bot ids |
| Server.BotIdLayout | server.js:183 | a bot id is `bot-`, the decimal time, `-`, the decimal suffix |
| Server.ModifyBody | server.js:97-98 | updating the body under one id keeps the keys and every other entry, and changes nothing when the id is absent |
| Server.OnConnect | server.js:57-94 | a viewer changes no state; a controller increments the counter and stores `Player n` (shape `circle`, zero velocity, spawn position, not a bot) under its own id, appended when new, leaving other ids, and is sent exactly `init`, then `players` to every other connection, then `players` and `genresUpdate` to itself; a viewer is sent exactly `players` and `genresUpdate` |
| Server.OnSetField | server.js:97-116 | `setName`/`setShape` change only the caller's own body, by the given field update, and broadcast the registry; they are a no-op without a body |
| Server.OnMoveInput | server.js:119-126 | `moveInput` adds 1.2·input to the caller's velocity only; the position and all other bodies stay; nothing is emitted |
| Server.OnUpdateBounds | server.js:129-145 | from a viewer: sets the bounds and clamps each coordinate of every centre into [30, W − 30] and [30, H − 30], so a centre already inside stays put, one outside moves to the nearer edge, and a coordinate becomes 30 when the extent is below 60; velocities and identities are kept; from anyone else: no-op |
| Server.UpdateBoundsKeepsInside | server.js:136-140 | a body already inside the new walls is not moved by `updateBounds` |
| Server.NormalizeGenreFixed | server.js:156 | a name is left unchanged by normalisation exactly when it is upper case and trimmed; normalising twice is normalising once |
| Server.NormalizeGenresCommute | server.js:156 | upper-casing then trimming equals trimming then upper-casing |
| Server.OnUpdateGenres | server.js:154-165 | only a viewer sending an array of exactly eight entries changes the genres, to the upper-cased, trimmed entries in order; it saves them and broadcasts them; anything else is a no-op |
| Server.UpdateGenresStored | server.js:154-165 | the stored genres have no lower-case ASCII letter, are trimmed, and, when the file root can be written, are what a later load reads back |
| Server.OnUpdatePlayerPosition | server.js:168-178 | on an existing id: sets that body's position and zeroes its velocity; on an unknown id: no-op |
| Server.UnguardedEvents | server.js:148-178 | `updatePlayerPosition` and `promptUpdate` have the same effect whoever sends them; `promptUpdate` relays the text to everyone and changes nothing |
| Server.ViewOnlyEvents | server.js:129-231 | `updateBounds`, `updateGenres`, `addBot`, `removeBot` and `clearBots` from a non-viewer change nothing and emit nothing |
| Server.OnAddBot | server.js:181-203 | from a viewer: increments the counter and stores a fresh `isBot` body `Bubble n` under the new bot id, leaving other ids |
| Server.BotIds | server.js:209 | the ids of exactly the bots in the registry |
| Server.OnRemoveBot | server.js:206-218 | with no bots, or from a non-viewer, nothing changes |
| Server.RemoveBotLast | server.js:206-218 | from a viewer with some bot: removes exactly the bot latest in key order, keeps every other entry in order, and emits `playerDisconnected` then `players` |
| Server.OnClearBots | server.js:221-231 | from a viewer: removes every bot and no non-bot, emitting one `playerDisconnected` per bot in key order, then `players` |
| Server.ClearBotsOrder | server.js:221-231 | from a viewer, the bodies left are exactly the non-bots, in their old key order; the `playerDisconnected` messages name exactly the bots, one each, in key order, and are followed by one `players` |
| Server.OnDisconnect | server.js:234-244 | removes only the caller's entry, and announces it only when there was one |
| Server.RunPhysicsLoop | server.js:47-51 | one physics tick over the registry, then the snapshot to everyone; ids and identities are kept |
| Server.Step | server.js:57-244 | the event dispatch: only `updateBounds` changes the bounds, only `updateGenres` the genres and configuration file, and only `connection` and `addBot` the player counter, by at most one |
| Server.StepValid | server.js:57-244 | every transition keeps the registry invariant: unique keys, each body stored under its own id, distinct player numbers no larger than the counter, and eight genres |
| Server.ConnectValid | server.js:57-94 | connecting keeps the invariant |
| Server.SetFieldValid | server.js:97-116 | renaming or reshaping keeps the invariant |
| Server.MoveInputValid | server.js:119-126 | `moveInput` keeps the invariant |
| Server.UpdateBoundsValid | server.js:129-145 | `updateBounds` keeps the invariant |
| Server.UpdatePlayerPositionValid | server.js:168-178 | `updatePlayerPosition` keeps the invariant |
| Server.AddBotValid | server.js:181-203 | `addBot` keeps the invariant |
| Server.RemoveBotValid | server.js:206-218 | `removeBot` keeps the invariant |
| Server.ClearBotsValid | server.js:221-231 | `clearBots` keeps the invariant |
| Server.RunPhysicsLoopValid | server.js:47-51 | a physics tick keeps the invariant |
| Server.PutKeepsValid | server.js:66-78 | storing a body with a fresh player number under its own id keeps the invariant |
| Server.RemoveKeepsValid | server.js:237 | deleting any id keeps the invariant |
| GameState.LoadGenres | gameState.js:7-21 | always eight names: the stored `genres` array when the file holds an object whose `genres` is an array of exactly eight strings, otherwise the defaults |
| GameState.LoadStored | gameState.js:7-21 | a file whose object holds a `genres` array of strings loads as exactly that list when it has eight entries, and as the defaults otherwise |
| GameState.LoadMalformed | gameState.js:7-21 | a parsed object with no `genres`, a `genres` that is not an array, not of length eight, or holds a non-string, loads as the defaults |
| GameState.SaveGenres | gameState.js:24-45 | a save into a missing, unparsable or object file leaves an object whose `genres` is the given list; a file whose root is not an object is left as it was |
| GameState.SaveThenLoad | gameState.js:24-45 | after a save, a load gives back an eight-entry list and the defaults otherwise; every other key keeps its value; a missing or unparsable file becomes an object holding only `genres` |
| GameState.SaveToPrimitive | gameState.js:24-45 | a file whose JSON root is not an object is left as it was |
| GameState.StrsRoundTrip | gameState.js:11-13 | a list of strings written as a JSON array reads back as the same list |
| GameState.AsStrings | gameState.js:11-13 | an array reads as strings exactly when every item is a string, and then writing them back gives the array |
| GameState.GetRandomColor | gameState.js:48-50 | the colour is a `#rrggbb` string |
| Zones.GetPlayerGenre | public/js/stats-view.js:88-101 | the zone is −1 or in 0..7 |
| Zones.GetPlayerGenreMeaning | public/js/stats-view.js:88-101 | for a positive canvas the zone is in range exactly when 0 ≤ x < W and 0 ≤ y < H; it is below 4 exactly when y < H/2; and it is `row * 4 + col` with x in column `col` and y in row `row` |
| Zones.BandMeaning | public/js/stats-view.js:91-95 | `Math.floor(v / (extent / n))` is the band holding v, and lies in 0..n−1 exactly when 0 ≤ v < extent |
| Zones.TallyMeaning | public/js/stats-view.js:114-126 | the loop skips the viewer's own id; each count is the number of other in-range bodies in that zone; the total is the number of in-range bodies and the sum of the counts |
| Zones.PercentagesSum | public/js/stats-view.js:129-130 | with no body in range every percentage is 0; otherwise each lies in [0, 100] and they sum to 100 |
| Zones.PercentagesScale | public/js/stats-view.js:148-150 | the percentages sum to the counts' sum over the total, times 100 |
| Zones.ZoneStatsSum | public/js/stats-view.js:114-151 | the zone percentages of a snapshot are all 0 when no body is in range, otherwise each lies in [0, 100] and they sum to 100 |
| Zones.ZoneStats | public/js/stats-view.js:114-151 | eight percentages; zone z gets 100 × (bodies in range in zone z) / (bodies in range), or 0 when none is in range; each lies in [0, 100] |
| StatsView.PlayerCountMeaning | public/js/stats-view.js:58-64 | the count shown is the number of ids other than the dashboard's own socket id |
| StatsView.GenreKeys | public/js/stats-view.js:15-16 | one key per name, in order, each the name lower-cased with all white space removed |
| StatsView.GenreKeyProperties | public/js/stats-view.js:16 | a key holds no white space and no upper-case ASCII letter, keeps every other character of the name in lower case, and is its own key |
| StatsView.GenreKeyOrder | public/js/stats-view.js:16 | the key is the name's non-space characters, lower-cased, in their original order, each once |
| StatsView.UptimeParts | public/js/stats-view.js:38-41 | minutes and seconds are `floor(ms / 60000)` and `floor((ms mod 60000) / 1000)`, seconds in 0..59 |
| StatsView.FormatUptime | public/js/stats-view.js:38-44 | the uptime text is digits around one `:` that has exactly two digits after it and at least two before |
| StatsView.FormatUptimeReadsBack | public/js/stats-view.js:38-44 | the uptime text is at least two digits, `:`, two digits, and reads back as the minutes and seconds |
| StatsView.PadKeepsValue | public/js/stats-view.js:43 | zero-padding a digit string keeps it all digits and keeps its value |
| StatsView.PushPoint | public/js/stats-view.js:283-284 | `shift` then `push`: a non-empty dataset keeps its length, loses its oldest point and ends with the new one |
| StatsView.HistoryWindow | public/js/stats-view.js:280-286 | pushing a run of points keeps the newest `|data|` points of the old data followed by the run |
| StatsView.InitialHistory | public/js/stats-view.js:155-218 | eight datasets of 180 points each |
| StatsView.UpdateHistoryChart | public/js/stats-view.js:280-286 | each dataset gets its own zone's new point |
| StatsView.HistoryKeepsShape | public/js/stats-view.js:280-286 | datasets of 180 points stay at 180, end with the new percentage and keep the newest 179 old points |
| StatsView.OnSnapshot | public/js/stats-view.js:58-80 | a `players` or `physicsUpdate` snapshot sets the count of other ids and the eight percentages, zone z getting 100 × (bodies in range in zone z) / (bodies in range) on the page's canvas, each in [0, 100], summing to 100 when any body is in range and all 0 otherwise, and appends them to the history; nothing else changes |
| StatsView.OnGenresUpdate | public/js/stats-view.js:14-16 | the display names become the new names and the keys are derived from them, one per name |
| StatsView.OnBoundsUpdate | public/js/stats-view.js:108-112 | only the canvas size changes |
| ServerView.Others | public/js/server-view.js:1159-1164 | the snapshot entries whose id is not the view's own |
| ServerView.OthersIsRemove | public/js/server-view.js:1159-1164 | filtering out the own id is deleting it, and nothing when the view has no id |
| ServerView.GetOthers | public/js/server-view.js:1159-1164 | the own id reads as absent and every other id as in the snapshot |
| ServerView.UpdateStats | public/js/server-view.js:487-513 | only the current percentages change: zone z gets 100 × (local bodies in range in zone z) / (local bodies in range), or 0 when none is in range |
| ServerView.UpdateStatsSum | public/js/server-view.js:487-513 | the percentages are all 0 when no body is in range, otherwise each lies in [0, 100] and they sum to 100 |
| ServerView.OnPlayers | public/js/server-view.js:1157-1169 | the local registry becomes the snapshot less the view's own id, in snapshot order, and the stats are recomputed |
| ServerView.OnPhysicsUpdate | public/js/server-view.js:1171-1189 | like `players`, except that the body being dragged keeps its local entry |
| ServerView.OnPlayerDisconnected | public/js/server-view.js:1191-1194 | exactly the given id is deleted locally |
| ServerView.OnGenresUpdate | public/js/server-view.js:1197-1199 | only the genre names change |
| ServerView.HistoryTick | public/js/server-view.js:565-570 | every dataset shifts out its oldest point and appends its zone's current percentage |
| ServerView.Pick | public/js/server-view.js:1605-1619 | the index picked is the first whose centre is closer than the radius to the pointer, by the given square root; none only when no centre is |
| ServerView.PickMeaning | public/js/server-view.js:1605-1619 | the body picked is the first in key order whose centre is within `circleRadius` of the pointer; none is picked when no body is that close |
| ServerView.MouseDown | public/js/server-view.js:1599-1620 | a press on a body starts dragging it, with an offset such that body + offset = pointer; elsewhere nothing changes |
| ServerView.DragTarget | public/js/server-view.js:1630-1635 | the dragged centre is the pointer less the offset, each coordinate clamped into [30, W − 30] and [30, H − 30]: kept when inside, moved to the nearer edge when outside, and 30 when the extent is below 60 |
| ServerView.DragMove | public/js/server-view.js:1622-1637 | while dragging, only the dragged body's position changes; otherwise nothing does |
| ServerView.MouseUp | public/js/server-view.js:1660-1670 | release ends the drag and sends `updatePlayerPosition` with the dragged body's local position exactly when a body was being dragged and is still present |
| ServerView.DragThenRelease | public/js/server-view.js:1622-1670 | drag then release puts the server's copy of the body inside the clamped canvas with zero velocity |
| ServerView.FieldValue | public/js/server-view.js:1221-1222 | a field reads as empty exactly when it is all white space |
| ServerView.CollectMeaning | public/js/server-view.js:1220-1227 | the form is complete exactly when every field is non-empty, and then the values are the fields' values in order |
| ServerView.ApplyGenres | public/js/server-view.js:1216-1235 | when it sends, there were eight fields and it sends eight values, each the upper-cased, trimmed field in order |
| ServerView.ApplyGenresMeaning | public/js/server-view.js:1216-1235 | the view sends only when all eight fields are non-empty after trimming; it sends the upper-cased, trimmed values in input order |
| ServerView.SentNameFixed | public/js/server-view.js:1221 | the server's normalisation leaves a value from the form unchanged |
| ServerView.ApplyGenresAccepted | public/js/server-view.js:1216-1235 | what the view sends becomes the server's genre list exactly |
| ServerView.StoredAsSent | server.js:154-165 | eight names that are already upper case and trimmed are stored exactly as sent |
| Colors.HexBody | public/js/server-view.js:792 | the pattern matches exactly six hex digits, optionally after `#`, and yields those six digits |
| Colors.HexToRgb | public/js/server-view.js:791-798 | a non-matching string gives magenta (1, 0, 1); every result has components in [0, 1] |
| Colors.HexCharValue | public/js/server-view.js:794-796 | reading a written digit gives its value; writing a read digit gives it in lower case |
| Colors.ByteHex | public/js/server-view.js:1038-1040 | `toString(16).padStart(2, '0')` writes a byte as exactly its two hex digits |
| Colors.ComponentByte | public/js/server-view.js:1038-1040 | a component in [0, 1] rounds to a byte and is written as that byte's two digits |
| Colors.RgbToHex | public/js/server-view.js:1037-1042 | the text is `#` followed by at least six characters |
| Colors.RgbToHexShape | public/js/server-view.js:1037-1042 | for components in [0, 1] the result is `#` and six lower-case hex digits |
| Colors.HexRoundTrip | public/js/server-view.js:791-798 | `rgbToHex(hexToRgb(h))` is `#` and the six digits of h in lower case |
| Colors.RgbRoundTrip | public/js/server-view.js:1037-1042 | a colour whose components are whole multiples of 1/255 survives writing and reading back |
| Colors.LerpColor | public/js/server-view.js:1045-1051 | at t = 0 the result is the first colour and at t = 1 the second |
| Colors.LerpEnds | public/js/server-view.js:1045-1051 | `lerpColor` at t = 0 is c1 and at t = 1 is c2; for t in [0, 1] each component lies between the two ends, and stays in [0, 1] when both ends are |
| Music.MaxChange | public/js/server-view.js:439-443 | the loop's result is the largest absolute change, or 0 |
| Music.UpdateMusicFromGenres | public/js/server-view.js:434-447 | when nothing is sent the state is unchanged; when prompts are sent the weights are remembered and nothing else changes, and there is at least one prompt |
| Music.MusicGateMeaning | public/js/server-view.js:434-447 | no session: nothing happens; previous weights with every change below 5: nothing happens; otherwise the weights are remembered and the fallback prompts are sent |
| Music.MusicGateSettles | public/js/server-view.js:438-447 | calling again with the same percentages does nothing |
| Music.WeightedPrompts | public/js/server-view.js:415-425 | no prompt exactly when no genre is above 5 percent |
| Music.WeightedPromptsIndex | public/js/server-view.js:415-425 | the prompts are one per genre above 5 percent, in genre order, with weight pct/100 and the lower-cased genre's text |
| Music.LyriaPrompts | public/js/server-view.js:374-430 | at least one prompt |
| Music.LyriaPromptsMeaning | public/js/server-view.js:374-430 | with no genre above 5 percent: the single ambient prompt of weight 1.0; otherwise the weighted prompts, each of weight above 0.05 |
| Music.JoinShape | public/js/server-view.js:341-343 | `join` starts with the first part, ends with the last and adds one separator per neighbouring pair |
| Music.TickerText | public/js/server-view.js:335-345 | there is a text exactly when there is a prompt |
| Music.TickerMeaning | public/js/server-view.js:335-345 | one prompt shows its text; several show every prompt's label, in prompt order, each at its computed offset, with exactly ` + ` between neighbours and nothing before the first or after the last |
| Music.JoinParts | public/js/server-view.js:341-343 | `join` places every part, in order, after the earlier parts and one separator each, with exactly the separator between neighbours and nothing after the last |
| Music.WeightLabelPercent | public/js/server-view.js:342 | a label is the text, ` (`, the weight rounded to a whole percentage, `%)` |
| Music.TickerEvent | public/js/server-view.js:362-364 | the ticker text is sent only when connected and there are prompts |
| Music.TickerReachesDashboards | public/js/server-view.js:362-364 | the server relays the ticker text to every connection unchanged |
| Client.OnJoystick | public/js/client.js:164-187 | a press activates the stick; a drag moves only an active stick; a release deactivates it and zeroes stick and direction |
| Client.UpdateJoystick | public/js/client.js:132-155 | only the stick and direction change; for a true square root the stick is within 75 of the centre, and is the raw offset when that is within 75 |
| Client.StickOffsetBound | public/js/client.js:140-147 | the stick offset is a multiple k in (0, 1] of the raw offset, so it points the same way; it is the raw offset when that is within 75, and of length exactly 75 otherwise |
| Client.DirectionBound | public/js/client.js:153-154 | the direction (offset / 75) has length at most 1 |
| Client.OnJoystickSteady | public/js/client.js:132-187 | every joystick event keeps the direction equal to offset / 75 with the offset within 75 |
| Client.DirectionZero | public/js/client.js:137-154 | the direction is zero exactly when the pointer is at the centre |
| Client.SendMovementInput | public/js/client.js:200-207 | `moveInput` is sent exactly when connected and the stick is active or the direction is non-zero, carrying the direction |
| Client.ReleaseSilences | public/js/client.js:157-207 | after a release, and after a drag without a press, nothing is sent |
| Client.MoveInputBound | public/js/client.js:200-207 | the input sent changes the player's velocity on the server by at most 1.2 in length |
| Client.PushTrail | public/js/client.js:236-239 | the newest point is last, a trail of at most 8 points stays at most 8, and the older points are a suffix of the old trail |
| Client.TrailWindow | public/js/client.js:229-239 | the trail after any run of frames is the newest at most 8 positions, in order |
| Client.StartGame | public/js/client.js:47-62 | a name that is empty after trimming is rejected; otherwise play starts with the trimmed name, and a socket is opened only when none exists |
| Client.ConnectEvents | public/js/client.js:88-92 | on connect, nothing is sent exactly when there is no name |
| Client.StartedNameReachesServer | public/js/client.js:83-92 | the trimmed name from the form becomes the player's name on the server |
| Text.Trim | public/js/client.js:48 | `trim` removes exactly the leading and trailing white space |
| Text.TrimEmpty | public/js/client.js:48-49 | the trimmed string is empty exactly when the input is all white space |
| Text.TrimIdempotent | server.js:156 | trimming twice is trimming once |
| Text.ToUpperProperties | server.js:156 | upper-casing leaves no lower-case ASCII letter and is idempotent |
| Text.TrimToUpper | server.js:156 | trimming commutes with upper-casing |
| Text.RemoveSpaces | public/js/stats-view.js:16 | after `replace(/\s+/g, '')` no white space is left, every other character of the input is still there, and nothing is added |
| Text.RemoveSpacesIndex | public/js/stats-view.js:16 | the result is the input's non-space characters, each once, in their original order |
| Text.DecimalRoundTrip | public/js/stats-view.js:43 | the decimal digits of n read back as n |
| Text.PadStart2 | public/js/stats-view.js:43 | `padStart(2, '0')` puts zeros in front of a string shorter than 2 and leaves the rest |
| Assoc.Get | server.js:98 | a key reads as absent exactly when it is not a key; a value read is stored under that key |
| Assoc.Put | server.js:66-78 | assigning a present key keeps the key order; a new key goes last |
| Assoc.PutGetOthers | server.js:66-78 | after assignment the key reads as the new value and every other key as before |
| Assoc.PutUnique | server.js:66-78 | assignment never duplicates a key |
| Assoc.Remove | server.js:237 | `delete` keeps exactly the entries under other keys |
| Assoc.RemoveAt | server.js:212 | deleting the key at index i cuts out exactly that entry |
| Assoc.FilterLast | server.js:209-211 | the last entry the filter keeps is the matching entry at the highest index |
| Assoc.FilterIndex | server.js:209-225 | filtering keeps exactly the matching entries, each once, in their original order |
| Assoc.MapValues | server.js:136-140 | rewriting every value keeps keys and order |

## Left out

- Socket.IO transport, Express routes, `setInterval` timing and the
  `console` output are not modelled. Emits are a log in each transition's
  result.
- Reading and writing `config.json` and `JSON.parse`/`JSON.stringify` are
  not modelled. The file is given as absent, unparsable or a parsed JSON
  value.
- The Lyria and Gemini sessions are foreign services and are not modelled.
  The prompt builder is modelled on its fallback path only; a model-written
  prompt and a failing session call are out of scope.
- WebGL, canvas drawing, the DOM, Chart.js, the colour animation and the
  hover cursor are presentational and are not modelled.
- IEEE floating point is not modelled. All arithmetic is on `real`, so
  rounding and NaN do not arise.
- `Math.sqrt` is a parameter with the square-root property. `atan2`, `cos`
  and `sin` in the joystick clamp are modelled as the equal rescale by
  75 / distance.
- Physics.IntegrateBody: a body without a velocity (physics.js:81-83) is
  not modelled, because every creation path in server.js sets one.
- Physics: no speed cap or wall containment is claimed after the pairwise
  pass, because the source does not guarantee either.
- GameState.LoadGenres: an eight-entry `genres` array with an entry that
  is not a string falls back to the defaults. The source returns it as it
  is; the model's genres are strings throughout.
- Server.OnUpdatePlayerPosition: an id naming an `Object.prototype`
  member is treated as absent. In the source, `players[id]` follows the
  prototype chain: `constructor` finds `Object`, which is truthy, so the
  handler writes `position` and `velocity` onto it and broadcasts
  `players`; `__proto__` writes onto `Object.prototype` itself. Object
  prototypes are not modelled, and the registry holds only own entries.
- GameState.GetRandomColor: the contract says only that the result is a
  `#rrggbb` colour. The source always returns white.
- Server.OnUpdateGenres: the `String(g)` conversion of non-string entries
  is not modelled; the payload is an array of strings or not an array.
- Server.OnRemoveBot: its own contract covers only the no-op cases. The
  removal itself is stated by Server.RemoveBotLast.
- Text: case mapping covers ASCII letters only. White space is the
  JavaScript white space and line terminator set.
- Music.UpdateMusicFromGenres: it takes exactly eight percentages, which is
  what every caller in the source passes.
- ServerView.OnPhysicsUpdate: when the dragged id is in the snapshot but
  not in the local registry, the source stores `undefined` under it. The
  model returns no view for that case.
- ServerView: `circleRadius` is a parameter; its slider is out of scope.
  `mouseleave` only clears the drag, which is MouseUp's state part without
  the message.
- StatsView: the page never reads its derived keys. It assigns them
  (stats-view.js:10 and 16), but every label comes from the display names.
  StatsView.InitialDashboard keeps the page's initial keys as written.
  Those differ from the keys derived from the initial names in one place:
  `drumandbass`, where deriving from `DRUM & BASS` gives `drum&bass`.
- Server.Step: socket payloads are typed. A name or shape is a string,
  and `moveInput`, `updateBounds` and `updatePlayerPosition` carry numbers.
  The source stores any JSON value as a name or shape (server.js:99 and
  110). It throws on a missing or non-object payload to the other three
  (server.js:122, 131 and 169), and a non-numeric field gives NaN. None of
  these cases is modelled.
- StatsView.UptimeParts: the elapsed time is a `nat`, and so is the
  argument of StatsView.FormatUptime. In the source,
  `Date.now() - startTime` (stats-view.js:39) goes negative when the clock
  is set back, and the page then shows `-1:-1`. Negative elapsed times are
  not modelled.
- GameState.LoadGenres: a JSON object is a list of fields that may repeat
  a key, and lookups (also in GameState.SaveGenres) read the first
  `genres` field. `JSON.parse` keeps the last duplicate, so for a
  `config.json` with two `genres` keys the model reads a different one.
- Client: the socket's connected flag is a parameter. The effects of
  `moveInput` and `setName` are stated through the handlers
  Server.OnMoveInput and Server.OnSetField, to which Server.Step
  dispatches.

=== FILE: assoc.dfy ===
/**
  Insertion-ordered association lists: the model of a JavaScript object used
  as a dictionary (`players[id] = …`, `delete players[id]`, `Object.keys`).
  Assigning to a key that is already present keeps its position; a new key
  goes to the end. JavaScript lists integer-like keys first, in ascending
  order, so this holds only for keys that are not integer-like. The keys
  used here are of that kind: socket ids, `bot-…` ids and `genres`.
*/
module Assoc {
  import opened Common

  /** `Object.keys`: the keys in insertion order. */
  function Keys<K, V>(s: seq<(K, V)>): (r: seq<K>)
    ensures |r| == |s|
    ensures forall i :: 0 <= i < |s| ==> r[i] == s[i].0
  {
    seq(|s|, i requires 0 <= i < |s| => s[i].0)
  }

  /** No key occurs twice, as in a JavaScript object. */
  ghost predicate UniqueKeys<K, V>(s: seq<(K, V)>)
  {
    forall i, j :: 0 <= i < j < |s| ==> s[i].0 != s[j].0
  }

  /** `obj[k]`: the value stored under `k`, if any. */
  function Get<K(==,!new), V(!new)>(s: seq<(K, V)>, k: K): (r: Option<V>)
    ensures r.None? <==> k !in Keys(s)
    ensures r.Some? ==> (k, r.value) in s
  {
    if |s| == 0 then None
    else if s[0].0 == k then Some(s[0].1)
    else
      assert Keys(s) == [s[0].0] + Keys(s[1..]);
      Get(s[1..], k)
  }

  /** In a list without repeated keys, the entry at index `i` is what `Get` finds. */
  lemma {:induction false} GetAt<K(!new), V(!new)>(s: seq<(K, V)>, i: int)
    requires UniqueKeys(s)
    requires 0 <= i < |s|
    ensures Get(s, s[i].0) == Some(s[i].1)
  {
    if i > 0 {
      assert s[0].0 != s[i].0;
      GetAt(s[1..], i - 1);
    }
  }

  /** `obj[k] = v`: replaces the value in place when `k` is present, else appends. */
  function Put<K(==,!new), V(!new)>(s: seq<(K, V)>, k: K, v: V): (r: seq<(K, V)>)
    ensures k in Keys(s) ==> Keys(r) == Keys(s)
    ensures k !in Keys(s) ==> Keys(r) == Keys(s) + [k]
  {
    if |s| == 0 then [(k, v)]
    else
      KeysCons(s[0], s[1..]);
      assert [s[0]] + s[1..] == s;
      if s[0].0 == k then
        KeysCons((k, v), s[1..]);
        [(k, v)] + s[1..]
      else
        var rest := Put(s[1..], k, v);
        KeysCons(s[0], rest);
        [s[0]] + rest
  }

  lemma KeysCons<K, V>(e: (K, V), s: seq<(K, V)>)
    ensures Keys([e] + s) == [e.0] + Keys(s)
  {
  }

  /** After `obj[k] = v`, reading `k` gives `v` and every other key reads as before. */
  lemma {:induction false} PutGet<K(!new), V(!new)>(s: seq<(K, V)>, k: K, v: V, k': K)
    ensures Get(Put(s, k, v), k) == Some(v)
    ensures k' != k ==> Get(Put(s, k, v), k') == Get(s, k')
  {
    if |s| > 0 && s[0].0 != k {
      PutGet(s[1..], k, v, k');
    }
  }

  /** After `obj[k] = v`, every key other than `k` reads as before. */
  lemma PutGetOthers<K(!new), V(!new)>(s: seq<(K, V)>, k: K, v: V)
    ensures Get(Put(s, k, v), k) == Some(v)
    ensures forall k' :: k' != k ==> Get(Put(s, k, v), k') == Get(s, k')
  {
    PutGet(s, k, v, k);
    forall k' | k' != k
      ensures Get(Put(s, k, v), k') == Get(s, k')
    {
      PutGet(s, k, v, k');
    }
  }

  /**
    In a list without repeated keys, the entries after `obj[k] = v` are the
    new pair and the old entries under other keys.
  */
  lemma {:induction false} PutMembers<K(!new), V(!new)>(s: seq<(K, V)>, k: K, v: V)
    requires UniqueKeys(s)
    ensures forall e :: e in Put(s, k, v) <==> e == (k, v) || (e in s && e.0 != k)
  {
    if |s| > 0 {
      if s[0].0 == k {
        forall e | e in s[1..] ensures e.0 != k {
          var i :| 0 <= i < |s[1..]| && s[1..][i] == e;
          assert s[i + 1] == e;
        }
        assert forall e :: e in s <==> e == s[0] || e in s[1..];
      } else {
        PutMembers(s[1..], k, v);
        assert forall e :: e in s <==> e == s[0] || e in s[1..];
      }
    }
  }

  /** Assignment never creates a duplicate key. */
  lemma PutUnique<K(!new), V(!new)>(s: seq<(K, V)>, k: K, v: V)
    requires UniqueKeys(s)
    ensures UniqueKeys(Put(s, k, v))
  {
    var r := Put(s, k, v);
    assert Keys(r) == Keys(s) || Keys(r) == Keys(s) + [k];
    forall i, j | 0 <= i < j < |r|
      ensures r[i].0 != r[j].0
    {
      assert Keys(r)[i] == r[i].0 && Keys(r)[j] == r[j].0;
    }
  }

  /** `delete obj[k]`. */
  function Remove<K(==,!new), V(!new)>(s: seq<(K, V)>, k: K): (r: seq<(K, V)>)
    ensures forall e :: e in r <==> e in s && e.0 != k
  {
    if |s| == 0 then []
    else
      var rest := Remove(s[1..], k);
      assert forall e :: e in s <==> e == s[0] || e in s[1..];
      if s[0].0 == k then rest else [s[0]] + rest
  }

  /** After `delete obj[k]` the key `k` is gone. */
  lemma RemoveGone<K(!new), V(!new)>(s: seq<(K, V)>, k: K)
    ensures k !in Keys(Remove(s, k))
  {
    var r := Remove(s, k);
    forall i | 0 <= i < |r| ensures Keys(r)[i] != k {
      assert r[i] in r;
    }
  }

  /** Deleting a key that is absent changes nothing. */
  lemma {:induction false} RemoveAbsent<K(!new), V(!new)>(s: seq<(K, V)>, k: K)
    requires k !in Keys(s)
    ensures Remove(s, k) == s
  {
    if |s| > 0 {
      assert Keys(s)[0] == s[0].0;
      assert Keys(s[1..]) == Keys(s)[1..];
      RemoveAbsent(s[1..], k);
    }
  }

  /** Deleting never creates a duplicate key. */
  lemma {:induction false} RemoveUnique<K(!new), V(!new)>(s: seq<(K, V)>, k: K)
    requires UniqueKeys(s)
    ensures UniqueKeys(Remove(s, k))
  {
    if |s| > 0 {
      RemoveUnique(s[1..], k);
      var rest := Remove(s[1..], k);
      if s[0].0 != k {
        forall e | e in rest ensures e.0 != s[0].0 {
          var i :| 0 <= i < |s[1..]| && s[1..][i] == e;
          assert s[i + 1] == e;
        }
      }
    }
  }

  /** In a list without repeated keys, deleting a present key removes one entry, an absent key none. */
  lemma {:induction false} RemoveLength<K(!new), V(!new)>(s: seq<(K, V)>, k: K)
    requires UniqueKeys(s)
    ensures k in Keys(s) ==> |Remove(s, k)| == |s| - 1
    ensures k !in Keys(s) ==> |Remove(s, k)| == |s|
  {
    if |s| > 0 {
      assert Keys(s) == [s[0].0] + Keys(s[1..]);
      RemoveLength(s[1..], k);
      if s[0].0 == k {
        assert k !in Keys(s[1..]);
        RemoveAbsent(s[1..], k);
      }
    }
  }

  /** In a list without repeated keys, deleting the key at index `i` cuts out exactly that entry. */
  lemma {:induction false} RemoveAt<K(!new), V(!new)>(s: seq<(K, V)>, i: int)
    requires UniqueKeys(s)
    requires 0 <= i < |s|
    ensures Remove(s, s[i].0) == s[..i] + s[i + 1..]
  {
    if i == 0 {
      RemoveHead(s);
    } else {
      assert s[0].0 != s[i].0;
      assert s[1..][i - 1] == s[i];
      RemoveAt(s[1..], i - 1);
      CutAfterHead(s, i);
    }
  }

  /** In a list without repeated keys, deleting the first key drops the first entry. */
  lemma RemoveHead<K(!new), V(!new)>(s: seq<(K, V)>)
    requires UniqueKeys(s)
    requires 0 < |s|
    ensures Remove(s, s[0].0) == s[1..]
  {
    var k := s[0].0;
    assert k !in Keys(s[1..]) by {
      forall j | 0 <= j < |s[1..]| ensures Keys(s[1..])[j] != k {
        assert s[1..][j] == s[j + 1];
      }
    }
    RemoveAbsent(s[1..], k);
  }

  lemma CutAfterHead<T>(s: seq<T>, i: int)
    requires 0 < i < |s|
    ensures s[..i] + s[i + 1..] == [s[0]] + (s[1..][..i - 1] + s[1..][i..])
  {
  }

  /** The entries whose value satisfies `keep`, in their original order. */
  function Filter<K(==,!new), V(!new)>(s: seq<(K, V)>, keep: V -> bool): (r: seq<(K, V)>)
    ensures forall e :: e in r <==> e in s && keep(e.1)
  {
    if |s| == 0 then []
    else
      var rest := Filter(s[1..], keep);
      assert forall e :: e in s <==> e == s[0] || e in s[1..];
      if keep(s[0].1) then [s[0]] + rest else rest
  }

  /** `keep` applied to an entry's value. */
  function OnValue<K, V>(keep: V -> bool): ((K, V)) -> bool
  {
    (e: (K, V)) => keep(e.1)
  }

  /** `idx` lists, in increasing order, exactly the indices of the entries whose value `keep` accepts. */
  ghost predicate Selects<K, V>(s: seq<(K, V)>, keep: V -> bool, idx: seq<nat>)
  {
    Kept(s, OnValue(keep), idx)
  }

  /**
    `Filter` keeps order and multiplicity: its result is the entries at
    the selected indices, in increasing index order.
  */
  lemma {:induction false} FilterIndex<K(!new), V(!new)>(s: seq<(K, V)>, keep: V -> bool) returns (idx: seq<nat>)
    ensures Selects(s, keep, idx)
    ensures |idx| == |Filter(s, keep)|
    ensures forall j :: 0 <= j < |idx| ==> Filter(s, keep)[j] == s[idx[j]]
  {
    if |s| == 0 {
      idx := [];
    } else {
      var rest := FilterIndex(s[1..], keep);
      var f := Filter(s[1..], keep);
      assert Filter(s, keep) == if OnValue(keep)(s[0]) then [s[0]] + f else f;
      idx := KeptCons(s, OnValue(keep), f, rest);
    }
  }

  /** Filtering never creates a duplicate key. */
  lemma {:induction false} FilterUnique<K(!new), V(!new)>(s: seq<(K, V)>, keep: V -> bool)
    requires UniqueKeys(s)
    ensures UniqueKeys(Filter(s, keep))
  {
    if |s| > 0 {
      FilterUnique(s[1..], keep);
      var rest := Filter(s[1..], keep);
      forall e | e in rest ensures e.0 != s[0].0 {
        var i :| 0 <= i < |s[1..]| && s[1..][i] == e;
        assert s[i + 1] == e;
      }
    }
  }

  /**
    When some value satisfies `keep`, the last entry `Filter` keeps is the
    entry at the highest index whose value satisfies `keep`.
  */
  lemma {:induction false} FilterLast<K(!new), V(!new)>(s: seq<(K, V)>, keep: V -> bool) returns (i: int)
    requires Filter(s, keep) != []
    ensures 0 <= i < |s| && keep(s[i].1)
    ensures Filter(s, keep)[|Filter(s, keep)| - 1] == s[i]
    ensures forall j :: i < j < |s| ==> !keep(s[j].1)
  {
    var rest := Filter(s[1..], keep);
    if rest != [] {
      var i' := FilterLast(s[1..], keep);
      i := i' + 1;
      assert s[1..][i'] == s[i];
      forall j | i < j < |s| ensures !keep(s[j].1) {
        assert s[1..][j - 1] == s[j];
      }
    } else {
      i := 0;
      forall j | 0 < j < |s| ensures !keep(s[j].1) {
        assert s[1..][j - 1] == s[j];
        assert s[j] !in rest;
      }
    }
  }

  /** Replaces every value by `f` of it, keeping keys and order. */
  function MapValues<K, V>(s: seq<(K, V)>, f: V -> V): (r: seq<(K, V)>)
    ensures |r| == |s|
    ensures Keys(r) == Keys(s)
    ensures forall i :: 0 <= i < |s| ==> r[i].1 == f(s[i].1)
  {
    seq(|s|, i requires 0 <= i < |s| => (s[i].0, f(s[i].1)))
  }
}

=== FILE: client.dfy ===
/**
  The player page: the on-screen joystick, the periodic `moveInput` it
  sends, the motion trail behind the player's own shape and the name check
  before joining.
*/
module Client {
  import opened Common
  import opened Geometry
  import opened Text
  import opened Assoc
  import Server

  /** Radius of the joystick base, in pixels. */
  const JoystickRadius: real := 125.0
  /** How far the stick may move from the centre of the base. */
  const StickRadius: real := 75.0
  /** Points kept in the motion trail. */
  const TrailLength: nat := 8

  /**
    The joystick: whether a press is in progress, the stick's offset from
    the centre of the base, and the direction sent to the server.
  */
  datatype Joystick = Joystick(active: bool, stick: Vec, direction: Vec)

  /** `resetJoystick`: stick centred, direction zero, not active. */
  const Released: Joystick := Joystick(false, Zero, Zero)

  /**
    A pointer event on the joystick. `pointer` is the pointer position and
    `center` the centre of the base's bounding box.
  */
  datatype JoystickEvent =
    | Press(pointer: Vec, center: Vec)
    | Drag(pointer: Vec, center: Vec)
    | Release

  /**
    The stick offset for a raw offset `delta`: longer offsets are pulled
    back onto the circle of radius 75 along the same ray. The source goes
    through `atan2`, `cos` and `sin`; `cos(atan2(y, x)) * 75` is `x * 75 / |delta|`.
  */
  function StickOffset(delta: Vec, sqrt: real -> real): Vec
  {
    var distance := sqrt(NormSq(delta));
    if distance > StickRadius then Scale(StickRadius / distance, delta) else delta
  }

  /** The direction sent to the server: the stick offset over the stick radius. */
  function Direction(stick: Vec): Vec
  {
    Vec(stick.x / StickRadius, stick.y / StickRadius)
  }

  /** `updateJoystick`: moves the stick towards the pointer and recomputes the direction. */
  function UpdateJoystick(j: Joystick, pointer: Vec, center: Vec, sqrt: real -> real): (r: Joystick)
    ensures r.active == j.active
    ensures IsSqrt(sqrt) ==> NormSq(r.stick) <= Sq(StickRadius)
    ensures IsSqrt(sqrt) && NormSq(Sub(pointer, center)) <= Sq(StickRadius) ==> r.stick == Sub(pointer, center)
  {
    var stick := StickOffset(Sub(pointer, center), sqrt);
    assert IsSqrt(sqrt) ==>
      && NormSq(stick) <= Sq(StickRadius)
      && (NormSq(Sub(pointer, center)) <= Sq(StickRadius) ==> stick == Sub(pointer, center))
    by {
      if IsSqrt(sqrt) {
        var _ := StickOffsetBound(Sub(pointer, center), sqrt);
      }
    }
    j.(stick := stick, direction := Direction(stick))
  }

  /** `startJoystick`, `moveJoystick` and `endJoystick`. */
  function OnJoystick(j: Joystick, e: JoystickEvent, sqrt: real -> real): (r: Joystick)
    ensures e.Press? ==> r.active
    ensures e.Drag? ==> r.active == j.active
    ensures e.Drag? && !j.active ==> r == j
    ensures e.Release? ==> !r.active && r.direction == Zero && r.stick == Zero
  {
    match e
    case Press(pointer, center) => UpdateJoystick(j.(active := true), pointer, center, sqrt)
    case Drag(pointer, center) => if j.active then UpdateJoystick(j, pointer, center, sqrt) else j
    case Release => Released
  }

  /**
    The stick is always the raw offset scaled by some `k` in `(0, 1]`: it
    points the same way. It is the raw offset itself when that lies within
    the stick radius, and lies on the circle of radius 75 otherwise.
  */
  lemma StickOffsetBound(delta: Vec, sqrt: real -> real) returns (k: real)
    requires IsSqrt(sqrt)
    ensures 0.0 < k <= 1.0
    ensures StickOffset(delta, sqrt) == Scale(k, delta)
    ensures NormSq(delta) <= Sq(StickRadius) ==> StickOffset(delta, sqrt) == delta
    ensures NormSq(delta) > Sq(StickRadius) ==> NormSq(StickOffset(delta, sqrt)) == Sq(StickRadius)
    ensures NormSq(StickOffset(delta, sqrt)) <= Sq(StickRadius)
  {
    var n := NormSq(delta);
    var d := sqrt(n);
    SqrtSpec(sqrt, n);
    SqrtCompare(sqrt, n, StickRadius);
    if d > StickRadius {
      k := StickRadius / d;
      assert k * d == StickRadius;
      QuotientBelowOne(k, d, StickRadius);
      NormSqScale(k, delta);
      SquareProduct(k, d);
      assert NormSq(Scale(k, delta)) == Sq(StickRadius);
    } else {
      k := 1.0;
      assert Scale(1.0, delta) == delta;
    }
  }

  lemma QuotientBelowOne(k: real, d: real, c: real)
    requires k * d == c
    requires d > c > 0.0
    ensures 0.0 < k < 1.0
  {
    PositiveFactor(k, d);
    assert (1.0 - k) * d == d - c;
    PositiveFactor(1.0 - k, d);
  }

  lemma PositiveFactor(a: real, b: real)
    requires b > 0.0 && a * b > 0.0
    ensures a > 0.0
  {
  }

  lemma SquareProduct(a: real, b: real)
    ensures Sq(a) * Sq(b) == Sq(a * b)
  {
  }

  /** A stick within the radius gives a direction of length at most 1. */
  lemma DirectionBound(stick: Vec)
    requires NormSq(stick) <= Sq(StickRadius)
    ensures NormSq(Direction(stick)) <= 1.0
  {
    var u := 1.0 / StickRadius;
    assert Direction(stick) == Scale(u, stick);
    NormSqScale(u, stick);
  }

  /** The joystick the page can be in: stick within the radius, direction derived from it. */
  ghost predicate Steady(j: Joystick)
  {
    && NormSq(j.stick) <= Sq(StickRadius)
    && j.direction == Direction(j.stick)
    && NormSq(j.direction) <= 1.0
  }

  /** Every joystick event keeps the joystick steady; in particular the direction never exceeds length 1. */
  lemma OnJoystickSteady(j: Joystick, e: JoystickEvent, sqrt: real -> real)
    requires IsSqrt(sqrt)
    requires Steady(j)
    ensures Steady(OnJoystick(j, e, sqrt))
  {
    match e
    case Press(pointer, center) =>
      var _ := StickOffsetBound(Sub(pointer, center), sqrt);
      DirectionBound(StickOffset(Sub(pointer, center), sqrt));
    case Drag(pointer, center) =>
      var _ := StickOffsetBound(Sub(pointer, center), sqrt);
      DirectionBound(StickOffset(Sub(pointer, center), sqrt));
    case Release =>
      assert Direction(Zero) == Zero;
  }

  /** The direction is zero exactly when the pointer is at the centre of the base. */
  lemma DirectionZero(pointer: Vec, center: Vec, sqrt: real -> real)
    requires IsSqrt(sqrt)
    ensures UpdateJoystick(Released, pointer, center, sqrt).direction == Zero <==> pointer == center
  {
    var delta := Sub(pointer, center);
    var k := StickOffsetBound(delta, sqrt);
    ScaledZero(k, delta);
    assert Direction(Scale(k, delta)) == Zero <==> Scale(k, delta) == Zero;
  }

  /** A vector scaled by a positive factor is zero only when it was zero. */
  lemma ScaledZero(k: real, a: Vec)
    requires k > 0.0
    ensures Scale(k, a) == Zero <==> a == Zero
  {
    if Scale(k, a) == Zero {
      ZeroFactor(k, a.x);
      ZeroFactor(k, a.y);
    }
  }

  lemma ZeroFactor(k: real, x: real)
    requires k > 0.0 && k * x == 0.0
    ensures x == 0.0
  {
  }

  /**
    `sendMovementInput`: while the socket is connected and the stick is
    pressed or the direction is non-zero, the direction goes out as `moveInput`.
  */
  function SendMovementInput(j: Joystick, connected: bool): (r: Option<Server.Event>)
    ensures r.Some? <==> connected && (j.active || j.direction != Zero)
    ensures r.Some? ==> r.value == Server.MoveInput(j.direction)
  {
    if connected && (j.active || j.direction != Zero) then Some(Server.MoveInput(j.direction)) else None
  }

  /** After the stick is released nothing more is sent until the next press. */
  lemma ReleaseSilences(j: Joystick, sqrt: real -> real, connected: bool, pointer: Vec, center: Vec)
    ensures SendMovementInput(OnJoystick(j, Release, sqrt), connected) == None
    ensures SendMovementInput(OnJoystick(Released, Drag(pointer, center), sqrt), connected) == None
  {
  }

  /**
    What one `moveInput` from a steady joystick does in the server's
    handler for that event: the sender's velocity changes by a vector of
    length at most 1.2.
  */
  lemma MoveInputBound(s: Server.State, c: Server.Conn, j: Joystick, connected: bool)
    requires Steady(j)
    requires SendMovementInput(j, connected).Some?
    requires Get(s.players, c.id).Some?
    ensures SendMovementInput(j, connected).value == Server.MoveInput(j.direction)
    ensures Get(Server.OnMoveInput(s, c, j.direction).state.players, c.id).Some?
    ensures
      var after := Get(Server.OnMoveInput(s, c, j.direction).state.players, c.id).value;
      NormSq(Sub(after.velocity, Get(s.players, c.id).value.velocity)) <= Sq(Server.Acceleration)
  {
    MoveInputDelta(s, c, j.direction);
    AccelerationBound(j.direction);
  }

  /** The server's `moveInput` handler adds `1.2 * input` to the sender's velocity. */
  lemma MoveInputDelta(s: Server.State, c: Server.Conn, input: Vec)
    requires Get(s.players, c.id).Some?
    ensures Get(Server.OnMoveInput(s, c, input).state.players, c.id).Some?
    ensures Sub(Get(Server.OnMoveInput(s, c, input).state.players, c.id).value.velocity, Get(s.players, c.id).value.velocity)
      == Scale(Server.Acceleration, input)
  {
    var v := Get(s.players, c.id).value.velocity;
    var v' := Get(Server.OnMoveInput(s, c, input).state.players, c.id).value.velocity;
    assert v' == Add(v, Scale(Server.Acceleration, input));
    AddSub(v, Scale(Server.Acceleration, input));
  }

  lemma AddSub(v: Vec, w: Vec)
    ensures Sub(Add(v, w), v) == w
  {
  }

  lemma AccelerationBound(d: Vec)
    requires NormSq(d) <= 1.0
    ensures NormSq(Scale(Server.Acceleration, d)) <= Sq(Server.Acceleration)
  {
    NormSqScale(Server.Acceleration, d);
  }

  /** `drawShape` for the own player: appends the point and drops the oldest beyond eight. */
  function PushTrail(t: seq<Vec>, p: Vec): (r: seq<Vec>)
    ensures |r| >= 1 && r[|r| - 1] == p
    ensures |t| <= TrailLength ==> |r| <= TrailLength
    ensures |r| <= |t| + 1 && r[..|r| - 1] == t[|t| + 1 - |r|..]
  {
    if |t| + 1 > TrailLength then
      DropOldest(t, p);
      SnocParts(t[1..], p);
      (t + [p])[1..]
    else
      SnocParts(t, p);
      assert t[0..] == t;
      t + [p]
  }

  /** Dropping the first of `t + [p]` is dropping the first of `t`, then appending `p`. */
  lemma DropOldest(t: seq<Vec>, p: Vec)
    requires |t| > 0
    ensures (t + [p])[1..] == t[1..] + [p]
  {
  }

  /** `u + [p]` is `u` followed by `p`. */
  lemma SnocParts(u: seq<Vec>, p: Vec)
    ensures |u + [p]| == |u| + 1
    ensures (u + [p])[..|u|] == u && (u + [p])[|u|] == p
  {
  }

  /** The trail after the points `ps` were drawn, starting from an empty trail. */
  function Trail(ps: seq<Vec>): seq<Vec>
  {
    if |ps| == 0 then [] else PushTrail(Trail(ps[..|ps| - 1]), ps[|ps| - 1])
  }

  /** The last eight elements of `ps`, or all of them when there are fewer. */
  function Window(ps: seq<Vec>): seq<Vec>
  {
    if |ps| <= TrailLength then ps else ps[|ps| - TrailLength..]
  }

  /** The trail holds the last eight points drawn (all of them when fewer), newest last. */
  lemma {:induction false} TrailWindow(ps: seq<Vec>)
    ensures Trail(ps) == Window(ps)
    ensures |Trail(ps)| <= TrailLength
  {
    if |ps| > 0 {
      var init := ps[..|ps| - 1];
      TrailWindow(init);
      PushWindow(init, ps[|ps| - 1]);
      LastSplit(ps);
    }
    WindowLength(ps);
  }

  /** A non-empty sequence is its prefix followed by its last element. */
  lemma LastSplit(ps: seq<Vec>)
    requires |ps| > 0
    ensures ps[..|ps| - 1] + [ps[|ps| - 1]] == ps
  {
  }

  /** The window never holds more than eight points. */
  lemma WindowLength(ps: seq<Vec>)
    ensures |Window(ps)| <= TrailLength
  {
  }

  /** Pushing a point onto the window of `xs` gives the window of `xs` followed by that point. */
  lemma PushWindow(xs: seq<Vec>, p: Vec)
    ensures PushTrail(Window(xs), p) == Window(xs + [p])
  {
    var ys := xs + [p];
    if |xs| < TrailLength {
    } else if |xs| == TrailLength {
      assert (xs + [p])[1..] == ys[|ys| - TrailLength..];
    } else {
      assert (xs[|xs| - TrailLength..] + [p])[1..] == ys[|ys| - TrailLength..];
    }
  }

  /** The outcome of pressing Start: rejected, or the name to play under and whether a socket is opened. */
  datatype Start = Rejected | Started(name: string, connects: bool)

  /**
    `startGame`: a name that is empty after trimming is refused; otherwise
    the trimmed name is kept and a socket is opened if there is none yet.
  */
  function StartGame(input: string, hasSocket: bool): (r: Start)
    ensures r.Rejected? <==> AllSpace(input)
    ensures r.Started? ==> r.name != [] && exists i :: TrimmedAt(input, i, r.name)
    ensures r.Started? ==> Trim(r.name) == r.name
    ensures r.Started? ==> r.connects == !hasSocket
  {
    var name := Trim(input);
    if |name| == 0 then
      TrimEmpty(input);
      Rejected
    else
      TrimEmpty(input);
      TrimIdempotent(input);
      Started(name, !hasSocket)
  }

  /** The socket's `connect` handler: announces the stored name and shape, if a name is set. */
  function ConnectEvents(name: string, shape: string): (r: seq<Server.Event>)
    ensures name == [] <==> r == []
  {
    if name != [] then [Server.SetName(name), Server.SetShape(shape)] else []
  }

  /**
    A game that was started announces its trimmed name on connecting, and
    the server's `setName` handler stores exactly that name on the player's
    record.
  */
  lemma StartedNameReachesServer(input: string, hasSocket: bool, shape: string, s: Server.State, c: Server.Conn)
    requires StartGame(input, hasSocket).Started?
    requires Get(s.players, c.id).Some?
    ensures
      var name := StartGame(input, hasSocket).name;
      && ConnectEvents(name, shape)[0] == Server.SetName(Trim(input))
      && Get(Server.OnSetField(s, c, Server.Rename(name)).state.players, c.id).value.name == Trim(input)
  {
    var name := Trim(input);
    var o := Server.OnSetField(s, c, Server.Rename(name));
    assert Get(o.state.players, c.id).value.name == name;
  }
}

=== FILE: colors.dfy ===
/**
  The colour helpers of the server view (server-view.js): reading a
  `#rrggbb` string into components in `[0, 1]`, writing components back as
  a lower-case hex string, and linear interpolation between two colours.
*/
module Colors {
  import opened Common
  import opened Text
  import Geometry

  /** A colour with components nominally in `[0, 1]`. */
  datatype Rgb = Rgb(r: real, g: real, b: real)

  /** What an unreadable colour string becomes. */
  const Magenta: Rgb := Rgb(1.0, 0.0, 1.0)

  predicate InUnit(c: Rgb)
  {
    0.0 <= c.r <= 1.0 && 0.0 <= c.g <= 1.0 && 0.0 <= c.b <= 1.0
  }

  predicate AllHex(s: string)
  {
    forall k :: 0 <= k < |s| ==> IsHexDigit(s[k])
  }

  function HexValue(c: char): (r: nat)
    requires IsHexDigit(c)
    ensures r < 16
  {
    if '0' <= c <= '9' then c as int - '0' as int
    else if 'a' <= c <= 'f' then c as int - 'a' as int + 10
    else c as int - 'A' as int + 10
  }

  /** The lower-case digit `toString(16)` writes for `d`. */
  function HexChar(d: nat): char
    requires d < 16
  {
    if d < 10 then DigitChar(d) else ('a' as int + d - 10) as char
  }

  /** Writing a digit's value gives the digit in lower case; reading a written digit gives its value. */
  lemma HexCharValue(c: char, d: nat)
    requires IsHexDigit(c) && d < 16
    ensures HexChar(HexValue(c)) == LowerChar(c)
    ensures IsHexDigit(HexChar(d)) && HexValue(HexChar(d)) == d
  {
  }

  /**
    The six digits matched by `/^#?([a-f\d]{2})([a-f\d]{2})([a-f\d]{2})$/i`,
    or `None` when the string does not match.
  */
  function HexBody(hex: string): (r: Option<string>)
    ensures r.Some? ==> |r.value| == 6 && AllHex(r.value)
    ensures r.Some? ==> hex == r.value || hex == "#" + r.value
    ensures (|hex| == 6 && AllHex(hex)) || (|hex| == 7 && hex[0] == '#' && AllHex(hex[1..])) ==> r.Some?
  {
    if |hex| == 6 && AllHex(hex) then Some(hex)
    else if |hex| == 7 && hex[0] == '#' && AllHex(hex[1..]) then Some(hex[1..])
    else None
  }

  /** `parseInt(d[i..i + 2], 16)` */
  function ByteAt(d: string, i: nat): (r: nat)
    requires i + 2 <= |d| && IsHexDigit(d[i]) && IsHexDigit(d[i + 1])
    ensures r < 256
  {
    16 * HexValue(d[i]) + HexValue(d[i + 1])
  }

  /** `hexToRgb`: each pair of digits over 255; magenta when the string does not match. */
  function HexToRgb(hex: string): (r: Rgb)
    ensures HexBody(hex).None? ==> r == Magenta
    ensures InUnit(r)
  {
    match HexBody(hex)
    case None => Magenta
    case Some(d) => Rgb(ByteAt(d, 0) as real / 255.0, ByteAt(d, 2) as real / 255.0, ByteAt(d, 4) as real / 255.0)
  }

  /** `Math.round`: the nearest integer, halves rounded up. */
  function Round(x: real): (r: int)
    ensures r as real <= x + 0.5 < r as real + 1.0
  {
    (x + 0.5).Floor
  }

  /** `n.toString(16)` for a natural number: lower-case hex digits, most significant first. */
  function HexDigits(n: nat): (r: string)
    ensures |r| >= 1 && AllHex(r)
    ensures n < 16 <==> |r| == 1
  {
    if n < 16 then [HexChar(n)] else HexDigits(n / 16) + [HexChar(n % 16)]
  }

  /** `n.toString(16)` for any integer. */
  function HexString(n: int): string
  {
    if n < 0 then "-" + HexDigits(-n) else HexDigits(n)
  }

  /** `Math.round(c * 255).toString(16).padStart(2, '0')` */
  function ComponentHex(c: real): string
  {
    PadStart2(HexString(Round(c * 255.0)))
  }

  /** `rgbToHex` */
  function RgbToHex(c: Rgb): (r: string)
    ensures |r| >= 7 && r[0] == '#'
  {
    "#" + ComponentHex(c.r) + ComponentHex(c.g) + ComponentHex(c.b)
  }

  /** A byte is written as exactly two lower-case digits. */
  lemma ByteHex(n: nat)
    requires n < 256
    ensures PadStart2(HexDigits(n)) == [HexChar(n / 16), HexChar(n % 16)]
  {
    if n >= 16 {
      assert HexDigits(n / 16) == [HexChar(n / 16)];
    }
  }

  /** `Math.round` of a whole number is that number. */
  lemma RoundWhole(n: int)
    ensures Round(n as real) == n
  {
  }

  /** A component that rounds to the byte `n` is written as the two digits of `n`. */
  lemma ComponentHexOf(c: real, n: nat)
    requires n < 256 && Round(c * 255.0) == n
    ensures ComponentHex(c) == [HexChar(n / 16), HexChar(n % 16)]
  {
    assert HexString(n) == HexDigits(n);
    ByteHex(n);
  }

  /** A byte over 255 rounds back to the byte once multiplied by 255. */
  lemma ByteScaled(n: nat)
    ensures Round((n as real / 255.0) * 255.0) == n
  {
    assert (n as real / 255.0) * 255.0 == n as real;
    RoundWhole(n);
  }

  /** A component in `[0, 1]` rounds to a byte. */
  lemma ComponentByte(c: real) returns (n: nat)
    requires 0.0 <= c <= 1.0
    ensures n < 256 && Round(c * 255.0) == n
    ensures ComponentHex(c) == [HexChar(n / 16), HexChar(n % 16)]
  {
    n := Round(c * 255.0);
    ComponentHexOf(c, n);
  }

  /** A character `toString(16)` may write: a digit or a lower-case `a`-`f`. */
  predicate LowerHex(ch: char)
  {
    IsHexDigit(ch) && !('A' <= ch <= 'Z')
  }

  /**
    For components in `[0, 1]` the result is a `#rrggbb` string of
    lower-case digits.
  */
  lemma RgbToHexShape(c: Rgb)
    requires InUnit(c)
    ensures |RgbToHex(c)| == 7 && RgbToHex(c)[0] == '#'
    ensures forall k :: 1 <= k < 7 ==> LowerHex(RgbToHex(c)[k])
  {
    var r := ComponentByte(c.r);
    var g := ComponentByte(c.g);
    var b := ComponentByte(c.b);
    TwoLower(r);
    TwoLower(g);
    TwoLower(b);
    Assemble(ComponentHex(c.r), ComponentHex(c.g), ComponentHex(c.b));
  }

  /** The two digits of a byte are lower-case hex digits. */
  lemma TwoLower(n: nat)
    requires n < 256
    ensures LowerHex(HexChar(n / 16)) && LowerHex(HexChar(n % 16))
  {
  }

  /** `#` followed by three pairs of lower-case hex digits. */
  lemma Assemble(x: string, y: string, z: string)
    requires |x| == 2 && |y| == 2 && |z| == 2
    requires LowerHex(x[0]) && LowerHex(x[1]) && LowerHex(y[0]) && LowerHex(y[1]) && LowerHex(z[0]) && LowerHex(z[1])
    ensures |"#" + x + y + z| == 7 && ("#" + x + y + z)[0] == '#'
    ensures forall k :: 1 <= k < 7 ==> LowerHex(("#" + x + y + z)[k])
  {
    var s := "#" + x + y + z;
    assert s == ['#', x[0], x[1], y[0], y[1], z[0], z[1]];
  }

  /** The two digits of a byte, read back. */
  lemma ByteDigits(hi: nat, lo: nat)
    requires hi < 16 && lo < 16
    ensures (16 * hi + lo) / 16 == hi && (16 * hi + lo) % 16 == lo
  {
  }

  /** Writing back a component read from two digits gives the digits in lower case. */
  lemma ComponentRoundTrip(d: string, i: nat, v: real)
    requires i + 2 <= |d| && IsHexDigit(d[i]) && IsHexDigit(d[i + 1])
    requires v == ByteAt(d, i) as real / 255.0
    ensures ComponentHex(v) == ToLower(d[i..i + 2])
  {
    var n := ByteAt(d, i);
    ByteWritten(n, v);
    PairDigits(d, i, n);
    LowerTwo(d, i);
  }

  /** A byte scaled to `[0, 1]` is written as its two digits. */
  lemma ByteWritten(n: nat, v: real)
    requires n < 256 && v == n as real / 255.0
    ensures ComponentHex(v) == [HexChar(n / 16), HexChar(n % 16)]
  {
    ByteScaled(n);
    ComponentHexOf(v, n);
  }

  /** The two digits of the byte read from a pair are the pair in lower case. */
  lemma PairDigits(d: string, i: nat, n: nat)
    requires i + 2 <= |d| && IsHexDigit(d[i]) && IsHexDigit(d[i + 1])
    requires n == ByteAt(d, i)
    ensures [HexChar(n / 16), HexChar(n % 16)] == [LowerChar(d[i]), LowerChar(d[i + 1])]
  {
    ByteDigits(HexValue(d[i]), HexValue(d[i + 1]));
    HexCharValue(d[i], 0);
    HexCharValue(d[i + 1], 0);
  }

  lemma LowerTwo(d: string, i: nat)
    requires i + 2 <= |d|
    ensures ToLower(d[i..i + 2]) == [LowerChar(d[i]), LowerChar(d[i + 1])]
  {
  }

  /**
    Reading a colour string and writing it back gives `#` and its six
    digits in lower case.
  */
  lemma {:induction false} HexRoundTrip(hex: string)
    requires HexBody(hex).Some?
    ensures RgbToHex(HexToRgb(hex)) == "#" + ToLower(HexBody(hex).value)
  {
    var d := HexBody(hex).value;
    var c := HexToRgb(hex);
    ReadBody(hex, d);
    var x, y, z := ToLower(d[0..2]), ToLower(d[2..4]), ToLower(d[4..6]);
    ComponentRoundTrip(d, 0, c.r);
    ComponentRoundTrip(d, 2, c.g);
    ComponentRoundTrip(d, 4, c.b);
    WriteColour(c, x, y, z);
    LowerPairs(d);
  }

  /** `hexToRgb` of a matching string reads the three pairs of its body. */
  lemma ReadBody(hex: string, d: string)
    requires HexBody(hex) == Some(d)
    ensures HexToRgb(hex) == Rgb(ByteAt(d, 0) as real / 255.0, ByteAt(d, 2) as real / 255.0, ByteAt(d, 4) as real / 255.0)
  {
  }

  /** `rgbToHex` joins the three written components. */
  lemma WriteColour(c: Rgb, x: string, y: string, z: string)
    requires ComponentHex(c.r) == x && ComponentHex(c.g) == y && ComponentHex(c.b) == z
    ensures RgbToHex(c) == "#" + x + y + z
  {
  }

  /** Lower-casing six characters pair by pair. */
  lemma LowerPairs(d: string)
    requires |d| == 6
    ensures "#" + ToLower(d) == "#" + ToLower(d[0..2]) + ToLower(d[2..4]) + ToLower(d[4..6])
  {
    assert ToLower(d) == ToLower(d[0..2]) + ToLower(d[2..4]) + ToLower(d[4..6]);
  }

  /**
    Writing a colour whose components are whole multiples of 1/255 and
    reading it back gives the same colour.
  */
  lemma {:induction false} RgbRoundTrip(c: Rgb, r: nat, g: nat, b: nat)
    requires r < 256 && g < 256 && b < 256
    requires c == Rgb(r as real / 255.0, g as real / 255.0, b as real / 255.0)
    ensures HexToRgb(RgbToHex(c)) == c
  {
    var x := ByteReadBack(r, c.r);
    var y := ByteReadBack(g, c.g);
    var z := ByteReadBack(b, c.b);
    WriteColour(c, x, y, z);
    ReadPairs(x, y, z);
    ReadColour("#" + x + y + z, x + y + z, r, g, b);
  }

  /** A string whose body reads as the bytes `r`, `g`, `b` is the colour of those bytes over 255. */
  lemma ReadColour(h: string, d: string, r: nat, g: nat, b: nat)
    requires HexBody(h) == Some(d)
    requires ByteAt(d, 0) == r && ByteAt(d, 2) == g && ByteAt(d, 4) == b
    ensures HexToRgb(h) == Rgb(r as real / 255.0, g as real / 255.0, b as real / 255.0)
  {
  }

  /** `#` and three pairs of hex digits match the colour pattern, pair by pair. */
  lemma ReadPairs(x: string, y: string, z: string)
    requires |x| == 2 && |y| == 2 && |z| == 2
    requires IsHexDigit(x[0]) && IsHexDigit(x[1]) && IsHexDigit(y[0]) && IsHexDigit(y[1])
    requires IsHexDigit(z[0]) && IsHexDigit(z[1])
    ensures HexBody("#" + x + y + z) == Some(x + y + z)
    ensures ByteAt(x + y + z, 0) == 16 * HexValue(x[0]) + HexValue(x[1])
    ensures ByteAt(x + y + z, 2) == 16 * HexValue(y[0]) + HexValue(y[1])
    ensures ByteAt(x + y + z, 4) == 16 * HexValue(z[0]) + HexValue(z[1])
  {
    var d := x + y + z;
    assert d == [x[0], x[1], y[0], y[1], z[0], z[1]];
    assert AllHex(d);
    var h := "#" + d;
    assert |h| == 7 && h[0] == '#' && h[1..] == d;
    assert HexBody(h) == Some(d);
    assert "#" + x + y + z == h;
    assert d[0] == x[0] && d[1] == x[1] && d[2] == y[0] && d[3] == y[1] && d[4] == z[0] && d[5] == z[1];
  }

  /** A byte scaled to `[0, 1]` is written as two digits that read back as the byte. */
  lemma ByteReadBack(n: nat, v: real) returns (s: string)
    requires n < 256 && v == n as real / 255.0
    ensures s == ComponentHex(v)
    ensures |s| == 2 && IsHexDigit(s[0]) && IsHexDigit(s[1]) && 16 * HexValue(s[0]) + HexValue(s[1]) == n
  {
    ByteWritten(n, v);
    s := [HexChar(n / 16), HexChar(n % 16)];
    HexCharValue('0', n / 16);
    HexCharValue('0', n % 16);
  }

  /** `lerpColor`: each component moved the fraction `t` of the way from `c1` to `c2`. */
  function LerpColor(c1: Rgb, c2: Rgb, t: real): (r: Rgb)
    ensures t == 0.0 ==> r == c1
    ensures t == 1.0 ==> r == c2
  {
    Rgb(c1.r + (c2.r - c1.r) * t, c1.g + (c2.g - c1.g) * t, c1.b + (c2.b - c1.b) * t)
  }

  /** At `t = 0` the result is `c1`, at `t = 1` it is `c2`, and in between each component lies between the two. */
  lemma LerpEnds(c1: Rgb, c2: Rgb, t: real)
    ensures LerpColor(c1, c2, 0.0) == c1
    ensures LerpColor(c1, c2, 1.0) == c2
    ensures 0.0 <= t <= 1.0 ==>
      && Between(c1.r, c2.r, LerpColor(c1, c2, t).r)
      && Between(c1.g, c2.g, LerpColor(c1, c2, t).g)
      && Between(c1.b, c2.b, LerpColor(c1, c2, t).b)
    ensures 0.0 <= t <= 1.0 && InUnit(c1) && InUnit(c2) ==> InUnit(LerpColor(c1, c2, t))
  {
    if 0.0 <= t <= 1.0 {
      var l := LerpColor(c1, c2, t);
      LerpBetween(c1.r, c2.r, t, l.r);
      LerpBetween(c1.g, c2.g, t, l.g);
      LerpBetween(c1.b, c2.b, t, l.b);
    }
  }

  /** `v` lies between `a` and `b`, in either order. */
  predicate Between(a: real, b: real, v: real)
  {
    (a <= v <= b) || (b <= v <= a)
  }

  lemma LerpBetween(a: real, b: real, t: real, v: real)
    requires 0.0 <= t <= 1.0
    requires v == a + (b - a) * t
    ensures Between(a, b, v)
    ensures 0.0 <= a <= 1.0 && 0.0 <= b <= 1.0 ==> 0.0 <= v <= 1.0
  {
    if a <= b {
      FractionOf(b - a, t, (b - a) * t);
    } else {
      var p := (a - b) * t;
      FractionOf(a - b, t, p);
      assert (b - a) * t == -p;
    }
  }

  /** A fraction `t` in [0, 1] of a non-negative `d` lies in [0, d]. */
  lemma FractionOf(d: real, t: real, p: real)
    requires 0.0 <= d && 0.0 <= t <= 1.0 && p == d * t
    ensures 0.0 <= p <= d
  {
    assert p + d * (1.0 - t) == d;
    if 0.0 < d && 0.0 < t {
      Geometry.ProductPos(d, t);
    }
    if 0.0 < d && t < 1.0 {
      Geometry.ProductPos(d, 1.0 - t);
    }
  }

}

=== FILE: common.dfy ===
/** Small shared definitions: an optional value, sums over sequences and order-keeping selection. */
module Common {

  /** A value that may be absent (JavaScript's `undefined` / `null` results). */
  datatype Option<+T> = None | Some(value: T)

  /** Sum of a sequence of reals, folded from the right end. */
  function SumReal(s: seq<real>): real
  {
    if |s| == 0 then 0.0 else SumReal(s[..|s| - 1]) + s[|s| - 1]
  }

  /** Sum of a sequence of naturals, folded from the right end. */
  function SumNat(s: seq<nat>): nat
  {
    if |s| == 0 then 0 else SumNat(s[..|s| - 1]) + s[|s| - 1]
  }

  function Abs(x: real): (r: real)
    ensures r >= 0.0 && (r == x || r == -x)
  {
    if x < 0.0 then -x else x
  }

  function Max(a: real, b: real): (r: real)
    ensures r >= a && r >= b && (r == a || r == b)
  {
    if a < b then b else a
  }

  function Min(a: real, b: real): (r: real)
    ensures r <= a && r <= b && (r == a || r == b)
  {
    if a < b then a else b
  }

  /**
    `idx` lists, in increasing order and each once, exactly the indices of
    `s` whose element `keep` accepts.
  */
  ghost predicate Kept<T>(s: seq<T>, keep: T -> bool, idx: seq<nat>)
  {
    && (forall j :: 0 <= j < |idx| ==> idx[j] < |s|)
    && (forall j, j' :: 0 <= j < j' < |idx| ==> idx[j] < idx[j'])
    && (forall i :: 0 <= i < |s| ==> (keep(s[i]) <==> i in idx))
  }

  /** The kept indices of `s[1..]`, moved up by one, with `0` in front when `s[0]` is kept. */
  lemma ShiftKept<T>(s: seq<T>, keep: T -> bool, rest: seq<nat>) returns (idx: seq<nat>)
    requires |s| > 0 && Kept(s[1..], keep, rest)
    ensures Kept(s, keep, idx)
    ensures |idx| == |rest| + (if keep(s[0]) then 1 else 0)
    ensures keep(s[0]) ==> idx[0] == 0
    ensures forall j :: 0 <= j < |rest| ==> idx[j + |idx| - |rest|] == rest[j] + 1
  {
    var shifted;
    shifted, idx := Shifted(rest, |s| - 1, keep(s[0]));
    forall i | 0 <= i < |s| ensures keep(s[i]) <==> i in idx {
      if i > 0 {
        assert s[1..][i - 1] == s[i];
        ShiftedIn(rest, shifted, i);
      }
    }
  }

  /**
    Increasing indices below `n`, each moved up by one (`shifted`), and
    then with `0` in front when `first` holds (`idx`): increasing indices
    below `n + 1`.
  */
  lemma Shifted(rest: seq<nat>, n: nat, first: bool) returns (shifted: seq<nat>, idx: seq<nat>)
    requires forall j :: 0 <= j < |rest| ==> rest[j] < n
    requires forall j, j' :: 0 <= j < j' < |rest| ==> rest[j] < rest[j']
    ensures |shifted| == |rest| && forall j :: 0 <= j < |rest| ==> shifted[j] == rest[j] + 1
    ensures idx == if first then [0] + shifted else shifted
    ensures |idx| == |rest| + (if first then 1 else 0)
    ensures forall j :: 0 <= j < |rest| ==> idx[j + |idx| - |rest|] == rest[j] + 1
    ensures forall j :: 0 <= j < |idx| ==> idx[j] < n + 1
    ensures forall j, j' :: 0 <= j < j' < |idx| ==> idx[j] < idx[j']
  {
    shifted := seq(|rest|, j requires 0 <= j < |rest| => rest[j] + 1);
    idx := if first then [0] + shifted else shifted;
    var d := |idx| - |rest|;
    forall j, j' | 0 <= j < j' < |idx| ensures idx[j] < idx[j'] {
      assert idx[j'] == rest[j' - d] + 1;
      if j >= d {
        assert idx[j] == rest[j - d] + 1;
      }
    }
  }

  /** A value is among the shifted indices exactly when its predecessor is among the originals. */
  lemma ShiftedIn(rest: seq<nat>, shifted: seq<nat>, i: int)
    requires |shifted| == |rest| && forall j :: 0 <= j < |rest| ==> shifted[j] == rest[j] + 1
    ensures i in shifted <==> i - 1 in rest
  {
    if i in shifted {
      var j :| 0 <= j < |shifted| && shifted[j] == i;
      assert rest[j] == i - 1;
    }
    if i - 1 in rest {
      var j :| 0 <= j < |rest| && rest[j] == i - 1;
      assert shifted[j] == i;
    }
  }

  /**
    One step of a selection: if `t` is `s[1..]` read at `rest`, then `t`,
    with `s[0]` in front when `s[0]` is kept, is `s` read at the kept indices.
  */
  lemma KeptCons<T>(s: seq<T>, keep: T -> bool, t: seq<T>, rest: seq<nat>) returns (idx: seq<nat>)
    requires |s| > 0 && Kept(s[1..], keep, rest)
    requires |t| == |rest| && forall j :: 0 <= j < |rest| ==> t[j] == s[1..][rest[j]]
    ensures Kept(s, keep, idx)
    ensures |idx| == |if keep(s[0]) then [s[0]] + t else t|
    ensures forall j :: 0 <= j < |idx| ==> (if keep(s[0]) then [s[0]] + t else t)[j] == s[idx[j]]
  {
    idx := ShiftKept(s, keep, rest);
    var f := if keep(s[0]) then [s[0]] + t else t;
    var d := |idx| - |rest|;
    forall j | 0 <= j < |idx| ensures f[j] == s[idx[j]] {
      if j >= d {
        assert idx[j] == rest[j - d] + 1;
        assert s[1..][rest[j - d]] == s[idx[j]];
      }
    }
  }

  /**
    Sliding a window one step and then over the rest of a run is sliding
    it over the whole run.
  */
  lemma SlideOnce<T>(data: seq<T>, vs: seq<T>)
    requires |data| > 0 && |vs| > 0
    ensures (data[1..] + [vs[0]]) + vs[1..] == (data + vs)[1..]
    ensures (data + vs)[1..][|vs| - 1..] == (data + vs)[|vs|..]
  {
  }
}

=== FILE: gamestate.dfy ===
/**
  The genre configuration kept in `config.json` (gameState.js): loading the
  eight zone genres with a fallback to the defaults, saving them while
  keeping every other setting, and the colour given to new bodies.
  The file system is a parameter: the model sees the file as absent, as
  text that does not parse, or as a parsed JSON value.
*/
module GameState {
  import opened Common
  import opened Assoc
  import opened Text

  /** A parsed JSON value; object members are kept in document order. */
  datatype Json =
    | Null
    | Bool(b: bool)
    | Num(n: real)
    | Str(s: string)
    | Arr(items: seq<Json>)
    | Obj(fields: seq<(string, Json)>)

  /** What reading `config.json` yields. */
  datatype ConfigFile = Missing | Unparsable | Parsed(root: Json)

  /** The number of genre zones. */
  const GenreCount: nat := 8

  const DefaultGenres: seq<string> :=
    ["TECHNO", "ELECTRO", "JAZZ", "HIP HOP", "CLASSICAL", "HOUSE", "AMBIENT", "DRUM & BASS"]

  /** A list of genre names as a JSON array of strings. */
  function Strs(g: seq<string>): (r: seq<Json>)
    ensures |r| == |g|
    ensures forall i :: 0 <= i < |g| ==> r[i] == Str(g[i])
  {
    seq(|g|, i requires 0 <= i < |g| => Str(g[i]))
  }

  /** The strings of a JSON array, when every item is one. */
  function AsStrings(items: seq<Json>): (r: Option<seq<string>>)
    ensures r.Some? <==> forall i :: 0 <= i < |items| ==> items[i].Str?
    ensures r.Some? ==> Strs(r.value) == items
  {
    if |items| == 0 then Some([])
    else match (items[0], AsStrings(items[1..]))
      case (Str(s), Some(rest)) =>
        assert Strs([s] + rest) == items;
        Some([s] + rest)
      case (Str(_), None) => None
      case _ => None
  }

  /** `config.genres` when it is an array of exactly eight strings. */
  function StoredGenres(f: ConfigFile): Option<seq<string>>
  {
    if f.Parsed? && f.root.Obj? then
      var member: Option<Json> := Get(f.root.fields, "genres");
      if member.Some? && member.value.Arr? && |member.value.items| == GenreCount
      then AsStrings(member.value.items)
      else None
    else None
  }

  /**
    `loadGenres`: the stored list when the file holds eight genre strings,
    the defaults otherwise (no file, unparsable text, a root that is not an
    object, a missing or malformed `genres` member).
  */
  function LoadGenres(f: ConfigFile): (r: seq<string>)
    ensures |r| == GenreCount
    ensures r == DefaultGenres
            || (f.Parsed? && f.root.Obj? && Get(f.root.fields, "genres") == Some(Arr(Strs(r))))
    ensures !f.Parsed? || !f.root.Obj? ==> r == DefaultGenres
  {
    match StoredGenres(f)
    case Some(g) => g
    case None => DefaultGenres
  }

  /**
    `saveGenres`: the file after the save. The existing object (or an empty
    one, when there is no file or it does not parse) gets its `genres`
    member set, in place when present. Assigning a member of a primitive
    root does nothing outside strict mode and is dropped by `JSON.stringify`
    on an array, so such files are written back unchanged; on a `null` root
    the assignment throws, the error is caught and nothing is written.
  */
  function SaveGenres(f: ConfigFile, g: seq<string>): (r: ConfigFile)
    ensures Writable(f) ==> r.Parsed? && r.root.Obj? && Get(r.root.fields, "genres") == Some(Arr(Strs(g)))
    ensures !Writable(f) ==> r == f
  {
    match f
    case Missing => Parsed(Obj([("genres", Arr(Strs(g)))]))
    case Unparsable => Parsed(Obj([("genres", Arr(Strs(g)))]))
    case Parsed(Obj(fields)) =>
      PutGet(fields, "genres", Arr(Strs(g)), "genres");
      Parsed(Obj(Put(fields, "genres", Arr(Strs(g)))))
    case Parsed(_) => f
  }

  /** A root that can hold a `genres` member: an object, or no usable file at all. */
  predicate Writable(f: ConfigFile)
  {
    !f.Parsed? || f.root.Obj?
  }

  /**
    Saving then loading gives back the saved list when it has eight entries
    and the defaults otherwise; every other member of the object keeps its
    value, and a file without a usable object becomes `{genres}` alone.
  */
  lemma SaveThenLoad(f: ConfigFile, g: seq<string>)
    requires Writable(f)
    ensures |g| == GenreCount ==> LoadGenres(SaveGenres(f, g)) == g
    ensures |g| != GenreCount ==> LoadGenres(SaveGenres(f, g)) == DefaultGenres
    ensures SaveGenres(f, g).Parsed? && SaveGenres(f, g).root.Obj?
    ensures f.Parsed? ==> forall k :: k != "genres" ==>
              Get(SaveGenres(f, g).root.fields, k) == Get(f.root.fields, k)
    ensures !f.Parsed? ==> SaveGenres(f, g).root.fields == [("genres", Arr(Strs(g)))]
  {
    var r := SaveGenres(f, g);
    var fields := r.root.fields;
    if f.Parsed? {
      PutGet(f.root.fields, "genres", Arr(Strs(g)), "genres");
      forall k | k != "genres"
        ensures Get(fields, k) == Get(f.root.fields, k)
      {
        PutGet(f.root.fields, "genres", Arr(Strs(g)), k);
      }
    }
    assert Get(fields, "genres") == Some(Arr(Strs(g)));
    StrsRoundTrip(g);
  }

  /** A file whose `genres` member is an array of eight strings loads as exactly those strings. */
  lemma LoadStored(f: ConfigFile, g: seq<string>)
    requires f.Parsed? && f.root.Obj? && Get(f.root.fields, "genres") == Some(Arr(Strs(g)))
    ensures |g| == GenreCount ==> LoadGenres(f) == g
    ensures |g| != GenreCount ==> LoadGenres(f) == DefaultGenres
  {
    StrsRoundTrip(g);
  }

  /**
    A missing `genres` member, one that is not an array, an array whose
    length is not eight, or one holding a non-string all load as the
    defaults.
  */
  lemma LoadMalformed(f: ConfigFile)
    requires f.Parsed? && f.root.Obj?
    requires
      var m := Get(f.root.fields, "genres");
      || m.None?
      || !m.value.Arr?
      || |m.value.items| != GenreCount
      || exists i :: 0 <= i < |m.value.items| && !m.value.items[i].Str?
    ensures LoadGenres(f) == DefaultGenres
  {
  }

  /** Reading back an array written from a list of strings gives that list. */
  lemma {:induction false} StrsRoundTrip(g: seq<string>)
    ensures AsStrings(Strs(g)) == Some(g)
  {
    if |g| > 0 {
      assert Strs(g)[1..] == Strs(g[1..]);
      StrsRoundTrip(g[1..]);
      assert [g[0]] + g[1..] == g;
    }
  }

  /** Saving to a file whose root is a primitive or `null` leaves it as it was. */
  lemma SaveToPrimitive(f: ConfigFile, g: seq<string>)
    requires !Writable(f)
    ensures SaveGenres(f, g) == f
    ensures LoadGenres(SaveGenres(f, g)) == DefaultGenres
  {
  }

  /** A CSS colour of the form `#rrggbb`. */
  predicate IsHexColor(s: string)
  {
    |s| == 7 && s[0] == '#' && forall k :: 1 <= k < 7 ==> IsHexDigit(s[k])
  }

  /** `getRandomColor`: every body is drawn white. */
  function GetRandomColor(): (r: string)
    ensures IsHexColor(r)
  {
    "#ffffff"
  }
}

=== FILE: geometry.dfy ===
/**
  Plane vectors over the reals, the square-root contract used in place of
  `Math.sqrt`, and the `Math.max(lo, Math.min(hi, v))` clamp shared by the
  physics module, the server's bounds update and the view's drag handler.
*/
module Geometry {
  import opened Common

  datatype Vec = Vec(x: real, y: real)

  const Zero: Vec := Vec(0.0, 0.0)

  function Add(a: Vec, b: Vec): Vec { Vec(a.x + b.x, a.y + b.y) }

  function Sub(a: Vec, b: Vec): Vec { Vec(a.x - b.x, a.y - b.y) }

  function Scale(k: real, a: Vec): Vec { Vec(k * a.x, k * a.y) }

  function Dot(a: Vec, b: Vec): real { a.x * b.x + a.y * b.y }

  /** The square of a real. */
  function Sq(a: real): real { a * a }

  /** Squared Euclidean length. */
  function NormSq(a: Vec): (r: real)
    ensures r >= 0.0
  {
    SquareNonNeg(a.x);
    SquareNonNeg(a.y);
    Sq(a.x) + Sq(a.y)
  }

  /** Squared distance between two points. */
  function DistSq(p: Vec, q: Vec): real { NormSq(Sub(q, p)) }

  /**
    What the model assumes of the host's square root: on every non-negative
    argument it returns the non-negative root. Functions that call
    `Math.sqrt` in the source take such a function as a parameter.
  */
  ghost predicate IsSqrt(sqrt: real -> real)
  {
    forall x: real {:trigger Sq(sqrt(x))} :: 0.0 <= x ==> 0.0 <= sqrt(x) && Sq(sqrt(x)) == x
  }

  /** The two facts `IsSqrt` gives about one argument. */
  lemma SqrtSpec(sqrt: real -> real, x: real)
    requires IsSqrt(sqrt)
    requires 0.0 <= x
    ensures 0.0 <= sqrt(x) && Sq(sqrt(x)) == x
  {
    assert Sq(sqrt(x)) == x;
  }

  lemma ProductPos(a: real, b: real)
    requires a > 0.0 && b > 0.0
    ensures a * b > 0.0
  {
  }

  lemma SquareNonNeg(a: real)
    ensures Sq(a) >= 0.0
  {
    if a > 0.0 {
      ProductPos(a, a);
    } else if a < 0.0 {
      ProductPos(-a, -a);
      assert (-a) * (-a) == a * a;
    }
  }

  /** Squaring is strictly monotone on the non-negative reals. */
  lemma SquareMonotone(a: real, b: real)
    requires 0.0 <= a < b
    ensures Sq(a) < Sq(b)
  {
    ProductMonotone(a, b);
  }

  lemma ProductMonotone(a: real, b: real)
    requires 0.0 <= a < b
    ensures a * a < b * b
  {
    var p := (b - a) * (b + a);
    ProductPos(b - a, b + a);
    assert b * b - a * a == p;
  }

  /** Two non-negative reals with equal squares are equal. */
  lemma SquareInjective(a: real, b: real)
    requires a >= 0.0 && b >= 0.0
    requires Sq(a) == Sq(b)
    ensures a == b
  {
    if a < b {
      SquareMonotone(a, b);
    } else if b < a {
      SquareMonotone(b, a);
    }
  }

  /** The root of a square is the non-negative base. */
  lemma SqrtOfSquare(sqrt: real -> real, r: real)
    requires IsSqrt(sqrt)
    requires r >= 0.0
    ensures sqrt(Sq(r)) == r
  {
    SquareNonNeg(r);
    SquareInjective(sqrt(Sq(r)), r);
  }

  /** The root of a squared norm is zero exactly for the zero vector. */
  lemma SqrtNormZero(sqrt: real -> real, a: Vec)
    requires IsSqrt(sqrt)
    ensures sqrt(NormSq(a)) == 0.0 <==> a == Zero
  {
    var n := NormSq(a);
    var s := sqrt(n);
    assert Sq(s) == n;
    if a == Zero {
      assert n == 0.0;
      SquareZero(s);
    } else if s == 0.0 {
      NormSqZero(a);
    }
  }

  /** Only the zero vector has squared norm zero. */
  lemma NormSqZero(a: Vec)
    requires NormSq(a) == 0.0
    ensures a == Zero
  {
    SquareNonNeg(a.x);
    SquareNonNeg(a.y);
    SquareZero(a.x);
    SquareZero(a.y);
  }

  /** A real whose square is zero is zero. */
  lemma SquareZero(a: real)
    requires Sq(a) == 0.0
    ensures a == 0.0
  {
    if a > 0.0 {
      SquareMonotone(0.0, a);
    } else if a < 0.0 {
      SquareMonotone(0.0, -a);
    }
  }

  /** A square root lies strictly above (below) `bound` exactly when its argument lies above (below) `bound` squared. */
  lemma SqrtCompare(sqrt: real -> real, x: real, bound: real)
    requires IsSqrt(sqrt)
    requires x >= 0.0 && bound >= 0.0
    ensures sqrt(x) > bound <==> x > Sq(bound)
    ensures sqrt(x) < bound <==> x < Sq(bound)
  {
    SqrtSpec(sqrt, x);
    var s := sqrt(x);
    if s < bound {
      SquareMonotone(s, bound);
    } else if bound < s {
      SquareMonotone(bound, s);
    }
  }

  /** Scaling a vector by `k` scales its squared length by `k*k`. */
  lemma NormSqScale(k: real, a: Vec)
    ensures NormSq(Scale(k, a)) == Sq(k) * NormSq(a)
  {
  }

  /** Vector sum of a sequence, folded from the right end. */
  function SumVec(s: seq<Vec>): Vec
  {
    if |s| == 0 then Zero else Add(SumVec(s[..|s| - 1]), s[|s| - 1])
  }

  /** Replacing one element changes the sum by the difference. */
  lemma {:induction false} SumVecUpdate(s: seq<Vec>, i: int, v: Vec)
    requires 0 <= i < |s|
    ensures SumVec(s[i := v]) == Add(Sub(SumVec(s), s[i]), v)
  {
    var t := s[i := v];
    if i == |s| - 1 {
      assert t[..|t| - 1] == s[..|s| - 1];
    } else {
      assert t[..|t| - 1] == s[..|s| - 1][i := v];
      SumVecUpdate(s[..|s| - 1], i, v);
    }
  }

  /**
    `Math.max(lo, Math.min(hi, v))`: inside `[lo, hi]` when that interval is
    non-empty, untouched when already inside, and `lo` when `hi < lo`.
  */
  function Clamp(lo: real, hi: real, v: real): (r: real)
    ensures lo <= hi ==> lo <= r <= hi
    ensures lo <= v <= hi ==> r == v
    ensures hi < lo ==> r == lo
    ensures lo <= hi && v < lo ==> r == lo
    ensures lo <= hi && hi < v ==> r == hi
  {
    Max(lo, Min(hi, v))
  }
}

=== FILE: music.dfy ===
/**
  How the server view drives the music (server-view.js): the gate that
  skips updates while the zone percentages move by less than five points,
  the weighted prompts built from the percentages when no language model
  is at hand, and the ticker text shown and sent for a list of prompts.
*/
module Music {
  import opened Common
  import opened Text
  import opened Zones
  import opened Colors
  import Server

  /** A change smaller than this in every zone does not update the music. */
  const ChangeThreshold: real := 5.0

  /** Zones at or below this percentage take no part in the prompt. */
  const MinimumShare: real := 5.0

  const AmbientText: string := "minimal ambient music with sparse atmospheric sounds"

  const GenreSuffix: string := " with deep rhythmic patterns and atmospheric elements"

  datatype Prompt = Prompt(text: string, weight: real)

  /** The prompt sent when no zone qualifies. */
  const Ambient: Prompt := Prompt(AmbientText, 1.0)

  // ---------------------------------------------------------------------
  // The change gate

  /** The loop over the first `n` zones keeping the largest `Math.abs(a[i] - b[i])`, starting from 0. */
  function MaxChange(a: seq<real>, b: seq<real>, n: nat): (r: real)
    requires n <= |a| && n <= |b|
    ensures r >= 0.0
    ensures forall i :: 0 <= i < n ==> Abs(a[i] - b[i]) <= r
    ensures r == 0.0 || exists i :: 0 <= i < n && r == Abs(a[i] - b[i])
  {
    if n == 0 then 0.0
    else
      var m := MaxChange(a, b, n - 1);
      var change := Abs(a[n - 1] - b[n - 1]);
      if change > m then change else m
  }

  /** What `updateMusicFromGenres` remembers between calls. */
  datatype MusicState = MusicState(session: bool, lastWeights: Option<seq<real>>)

  /** The previous weights, when there are any, are a full set of zone percentages. */
  predicate WellFormed(m: MusicState)
  {
    m.lastWeights.Some? ==> |m.lastWeights.value| == ZoneCount
  }

  /** Whether the music is updated for `percentages`. */
  predicate Passes(m: MusicState, percentages: seq<real>)
    requires WellFormed(m) && |percentages| == ZoneCount
  {
    m.session && (m.lastWeights.None? || MaxChange(percentages, m.lastWeights.value, ZoneCount) >= ChangeThreshold)
  }

  /**
    `updateMusicFromGenres`: without a session nothing happens; with
    previous weights and every zone within five points of them nothing
    happens either. Otherwise the percentages are remembered and the
    prompts built from them are sent (the result's second part).
  */
  function UpdateMusicFromGenres(m: MusicState, genres: seq<string>, percentages: seq<real>): (r: (MusicState, Option<seq<Prompt>>))
    requires WellFormed(m) && |percentages| == ZoneCount
    ensures WellFormed(r.0)
    ensures r.1.None? ==> r.0 == m
    ensures r.1.Some? ==> r.0 == m.(lastWeights := Some(percentages)) && |r.1.value| >= 1
  {
    if Passes(m, percentages) then (m.(lastWeights := Some(percentages)), Some(LyriaPrompts(genres, percentages)))
    else (m, None)
  }

  /**
    The gate in the source's terms: no session, or previous weights with
    every zone changed by less than five, means no update; otherwise the
    new weights are kept and the fallback prompts are sent.
  */
  lemma MusicGateMeaning(m: MusicState, genres: seq<string>, percentages: seq<real>)
    requires WellFormed(m) && |percentages| == ZoneCount
    ensures !m.session ==> UpdateMusicFromGenres(m, genres, percentages) == (m, None)
    ensures m.session && m.lastWeights.Some?
      && (forall i :: 0 <= i < ZoneCount ==> Abs(percentages[i] - m.lastWeights.value[i]) < ChangeThreshold)
      ==> UpdateMusicFromGenres(m, genres, percentages) == (m, None)
    ensures m.session
      && (m.lastWeights.None?
          || exists i :: 0 <= i < ZoneCount && Abs(percentages[i] - m.lastWeights.value[i]) >= ChangeThreshold)
      ==> UpdateMusicFromGenres(m, genres, percentages)
          == (m.(lastWeights := Some(percentages)), Some(LyriaPrompts(genres, percentages)))
  {
  }

  /** Sending the same percentages twice in a row updates the music at most once. */
  lemma MusicGateSettles(m: MusicState, genres: seq<string>, percentages: seq<real>)
    requires WellFormed(m) && |percentages| == ZoneCount
    ensures UpdateMusicFromGenres(UpdateMusicFromGenres(m, genres, percentages).0, genres, percentages).1.None?
  {
    var m' := UpdateMusicFromGenres(m, genres, percentages).0;
    if m'.session && m'.lastWeights.Some? {
      assert m'.lastWeights.value == percentages || m' == m;
      if m'.lastWeights.value == percentages {
        assert MaxChange(percentages, percentages, ZoneCount) == 0.0;
      }
    }
  }

  // ---------------------------------------------------------------------
  // Fallback prompts

  /** `percentages[i] > 5`; a missing entry is `undefined`, which does not compare greater. */
  predicate Qualifies(percentages: seq<real>, i: nat)
  {
    i < |percentages| && percentages[i] > MinimumShare
  }

  /** The prompt for one qualifying zone: the lower-cased genre, weighted by its share. */
  function GenrePrompt(genre: string, percentage: real): Prompt
  {
    Prompt(ToLower(genre) + GenreSuffix, percentage / 100.0)
  }

  /** The fallback loop over the first `n` genres. */
  function WeightedPrompts(genres: seq<string>, percentages: seq<real>, n: nat): (r: seq<Prompt>)
    requires n <= |genres|
    ensures |r| <= n
    ensures r == [] <==> forall i :: 0 <= i < n ==> !Qualifies(percentages, i)
  {
    if n == 0 then []
    else
      WeightedPrompts(genres, percentages, n - 1)
      + (if Qualifies(percentages, n - 1) then [GenrePrompt(genres[n - 1], percentages[n - 1])] else [])
  }

  /**
    `generateLyriaPrompt` without a language model: the ambient prompt when
    no zone is above five percent, otherwise one prompt per such zone.
  */
  function LyriaPrompts(genres: seq<string>, percentages: seq<real>): (r: seq<Prompt>)
    ensures |r| >= 1
  {
    if forall i :: 0 <= i < |genres| ==> !Qualifies(percentages, i) then [Ambient]
    else WeightedPrompts(genres, percentages, |genres|)
  }

  /**
    The fallback prompts are exactly the qualifying zones in genre order:
    `idx` lists them, strictly increasing, and prompt `j` is built from
    zone `idx[j]`.
  */
  lemma {:induction false} WeightedPromptsIndex(genres: seq<string>, percentages: seq<real>, n: nat) returns (idx: seq<nat>)
    requires n <= |genres|
    ensures PromptsAt(genres, percentages, n, WeightedPrompts(genres, percentages, n), idx)
  {
    if n == 0 {
      idx := [];
    } else {
      var prev := WeightedPromptsIndex(genres, percentages, n - 1);
      var before := WeightedPrompts(genres, percentages, n - 1);
      if Qualifies(percentages, n - 1) {
        var p := GenrePrompt(genres[n - 1], percentages[n - 1]);
        assert WeightedPrompts(genres, percentages, n) == before + [p];
        idx := prev + [n - 1];
        IndexSnoc(genres, percentages, n, before, prev);
      } else {
        assert WeightedPrompts(genres, percentages, n) == before;
        idx := prev;
        IndexSkip(genres, percentages, n, before, prev);
      }
    }
  }

  /** Prompt `j` of `w` is built from zone `idx[j]`; `idx` lists the qualifying zones below `n`, increasing. */
  ghost predicate PromptsAt(genres: seq<string>, percentages: seq<real>, n: nat, w: seq<Prompt>, idx: seq<nat>)
    requires n <= |genres|
  {
    && |idx| == |w|
    && (forall j :: 0 <= j < |idx| ==>
          && idx[j] < n && Qualifies(percentages, idx[j])
          && w[j] == GenrePrompt(genres[idx[j]], percentages[idx[j]]))
    && (forall j, k :: 0 <= j < k < |idx| ==> idx[j] < idx[k])
    && (forall i :: 0 <= i < n && Qualifies(percentages, i) ==> i in idx)
  }

  /** A qualifying zone `n - 1` adds its prompt and its index at the end. */
  lemma IndexSnoc(genres: seq<string>, percentages: seq<real>, n: nat, w: seq<Prompt>, idx: seq<nat>)
    requires 0 < n <= |genres| && Qualifies(percentages, n - 1)
    requires PromptsAt(genres, percentages, n - 1, w, idx)
    ensures PromptsAt(genres, percentages, n, w + [GenrePrompt(genres[n - 1], percentages[n - 1])], idx + [n - 1])
  {
    var w', idx' := w + [GenrePrompt(genres[n - 1], percentages[n - 1])], idx + [n - 1];
    forall i | 0 <= i < n && Qualifies(percentages, i) ensures i in idx' {
      if i < n - 1 {
        var j :| 0 <= j < |idx| && idx[j] == i;
        assert idx'[j] == i;
      }
    }
  }

  /** A zone `n - 1` that does not qualify adds nothing. */
  lemma IndexSkip(genres: seq<string>, percentages: seq<real>, n: nat, w: seq<Prompt>, idx: seq<nat>)
    requires 0 < n <= |genres| && !Qualifies(percentages, n - 1)
    requires PromptsAt(genres, percentages, n - 1, w, idx)
    ensures PromptsAt(genres, percentages, n, w, idx)
  {
  }

  /**
    Either every zone is at or below five percent and the one prompt is the
    ambient one, or the prompts are the qualifying zones' prompts, each
    weighted above 0.05.
  */
  lemma LyriaPromptsMeaning(genres: seq<string>, percentages: seq<real>)
    ensures (forall i :: 0 <= i < |genres| ==> !Qualifies(percentages, i)) ==> LyriaPrompts(genres, percentages) == [Ambient]
    ensures (exists i :: 0 <= i < |genres| && Qualifies(percentages, i)) ==>
      && LyriaPrompts(genres, percentages) == WeightedPrompts(genres, percentages, |genres|)
      && forall j :: 0 <= j < |LyriaPrompts(genres, percentages)| ==> LyriaPrompts(genres, percentages)[j].weight > 0.05
  {
    if exists i :: 0 <= i < |genres| && Qualifies(percentages, i) {
      var idx := WeightedPromptsIndex(genres, percentages, |genres|);
      var w := WeightedPrompts(genres, percentages, |genres|);
      assert LyriaPrompts(genres, percentages) == w;
      forall j | 0 <= j < |w| ensures w[j].weight > 0.05 {
        assert w[j] == GenrePrompt(genres[idx[j]], percentages[idx[j]]);
      }
    }
  }

  // ---------------------------------------------------------------------
  // The ticker

  /** `String(n)` for an integer. */
  function IntString(n: int): string
  {
    if n < 0 then "-" + Decimal(-n) else Decimal(n)
  }

  /** `${p.text} (${Math.round(p.weight * 100)}%)` */
  function WeightLabel(p: Prompt): string
  {
    p.text + " (" + IntString(Round(p.weight * 100.0)) + "%)"
  }

  /** `Array.prototype.join`: the parts with `sep` between neighbours. */
  function Join(parts: seq<string>, sep: string): string
  {
    if |parts| == 0 then ""
    else if |parts| == 1 then parts[0]
    else Join(parts[..|parts| - 1], sep) + sep + parts[|parts| - 1]
  }

  /** Total length of a list of strings. */
  function TotalLength(parts: seq<string>): nat
  {
    if |parts| == 0 then 0 else TotalLength(parts[..|parts| - 1]) + |parts[|parts| - 1]|
  }

  /**
    A join starts with the first part, ends with the last, and adds one
    separator between each pair of neighbours.
  */
  lemma {:induction false} JoinShape(parts: seq<string>, sep: string)
    requires |parts| >= 1
    ensures |Join(parts, sep)| == TotalLength(parts) + (|parts| - 1) * |sep|
    ensures parts[0] <= Join(parts, sep)
    ensures Join(parts, sep)[|Join(parts, sep)| - |parts[|parts| - 1]|..] == parts[|parts| - 1]
  {
    if |parts| > 1 {
      var init := parts[..|parts| - 1];
      JoinShape(init, sep);
      assert init[0] == parts[0];
      var j, last := Join(init, sep), parts[|parts| - 1];
      assert Join(parts, sep) == j + (sep + last);
      assert TotalLength(parts) == TotalLength(init) + |last|;
      assert |Join(parts, sep)| == |j| + |sep| + |last|;
      assert (|parts| - 1) * |sep| == (|init| - 1) * |sep| + |sep|;
    }
  }

  /** Where part `k` begins in a join: after the earlier parts and one separator each. */
  function PartStart(parts: seq<string>, sep: string, k: nat): nat
    requires k <= |parts|
  {
    TotalLength(parts[..k]) + k * |sep|
  }

  /** The next part begins after this part and one separator. */
  lemma PartStartStep(parts: seq<string>, sep: string, k: nat)
    requires k < |parts|
    ensures PartStart(parts, sep, k + 1) == PartStart(parts, sep, k) + |parts[k]| + |sep|
  {
    assert parts[..k + 1][..k] == parts[..k];
  }

  /** Part positions do not depend on the parts after them. */
  lemma PartStartPrefix(parts: seq<string>, sep: string, n: nat, k: nat)
    requires k <= n <= |parts|
    ensures PartStart(parts[..n], sep, k) == PartStart(parts, sep, k)
  {
    assert parts[..n][..k] == parts[..k];
  }

  /** A join ends with its last part: its length is where that part begins plus the part. */
  lemma {:induction false} JoinLength(parts: seq<string>, sep: string)
    requires |parts| >= 1
    ensures |Join(parts, sep)| == PartStart(parts, sep, |parts| - 1) + |parts[|parts| - 1]|
  {
    var n := |parts|;
    if n == 1 {
      assert parts[..0] == [];
    } else {
      var init := parts[..n - 1];
      JoinLength(init, sep);
      assert init[n - 2] == parts[n - 2];
      PartStartPrefix(parts, sep, n - 1, n - 2);
      PartStartStep(parts, sep, n - 2);
    }
  }

  /** A join of several parts is the join of all but the last, then the separator and the last part. */
  lemma JoinSnoc(parts: seq<string>, sep: string)
    requires |parts| >= 2
    ensures Join(parts, sep) == Join(parts[..|parts| - 1], sep) + (sep + parts[|parts| - 1])
  {
  }

  /** Part `k` of a join sits at `PartStart(parts, sep, k)`. */
  lemma {:induction false} JoinPartAt(parts: seq<string>, sep: string, k: nat)
    requires k < |parts|
    ensures PartStart(parts, sep, k) + |parts[k]| <= |Join(parts, sep)|
    ensures Join(parts, sep)[PartStart(parts, sep, k)..PartStart(parts, sep, k) + |parts[k]|] == parts[k]
  {
    var n := |parts|;
    if n == 1 {
      assert parts[..0] == [];
    } else {
      var init := parts[..n - 1];
      var j := Join(init, sep);
      var tail := sep + parts[n - 1];
      JoinSnoc(parts, sep);
      var a := PartStart(parts, sep, k);
      if k == n - 1 {
        JoinLength(init, sep);
        assert init[n - 2] == parts[n - 2];
        PartStartPrefix(parts, sep, n - 1, n - 2);
        PartStartStep(parts, sep, n - 2);
        assert a == |j| + |sep|;
        SuffixSlice(j, sep, parts[n - 1]);
      } else {
        JoinPartAt(init, sep, k);
        assert init[k] == parts[k];
        PartStartPrefix(parts, sep, n - 1, k);
        JoinPrefixSlice(j, tail, a, a + |parts[k]|);
      }
    }
  }

  /** Exactly `sep` follows every part but the last. */
  lemma {:induction false} JoinSepAt(parts: seq<string>, sep: string, k: nat)
    requires k + 1 < |parts|
    ensures PartStart(parts, sep, k) + |parts[k]| + |sep| <= |Join(parts, sep)|
    ensures Join(parts, sep)[PartStart(parts, sep, k) + |parts[k]|..PartStart(parts, sep, k) + |parts[k]| + |sep|] == sep
  {
    var n := |parts|;
    var init := parts[..n - 1];
    var j := Join(init, sep);
    var tail := sep + parts[n - 1];
    JoinSnoc(parts, sep);
    assert init[k] == parts[k];
    PartStartPrefix(parts, sep, n - 1, k);
    var a := PartStart(parts, sep, k) + |parts[k]|;
    if k == n - 2 {
      JoinLength(init, sep);
      assert a == |j|;
      HeadSlice(j, sep, parts[n - 1]);
    } else {
      JoinSepAt(init, sep, k);
      JoinPrefixSlice(j, tail, a, a + |sep|);
    }
  }

  /**
    `t` holds every part in order, each at its `PartStart`, with exactly
    `sep` after every part but the last, and nothing after the last part.
  */
  ghost predicate IsJoin(t: string, parts: seq<string>, sep: string)
    requires |parts| >= 1
  {
    && |t| == PartStart(parts, sep, |parts| - 1) + |parts[|parts| - 1]|
    && (forall k :: 0 <= k < |parts| ==>
          && PartStart(parts, sep, k) + |parts[k]| <= |t|
          && t[PartStart(parts, sep, k)..PartStart(parts, sep, k) + |parts[k]|] == parts[k])
    && (forall k :: 0 <= k < |parts| - 1 ==>
          && PartStart(parts, sep, k) + |parts[k]| + |sep| <= |t|
          && t[PartStart(parts, sep, k) + |parts[k]|..PartStart(parts, sep, k) + |parts[k]| + |sep|] == sep)
  }

  /** `Join` lays its parts out as `IsJoin` describes. */
  lemma JoinParts(parts: seq<string>, sep: string)
    requires |parts| >= 1
    ensures IsJoin(Join(parts, sep), parts, sep)
  {
    JoinLength(parts, sep);
    forall k | 0 <= k < |parts|
      ensures PartStart(parts, sep, k) + |parts[k]| <= |Join(parts, sep)|
      ensures Join(parts, sep)[PartStart(parts, sep, k)..PartStart(parts, sep, k) + |parts[k]|] == parts[k]
    {
      JoinPartAt(parts, sep, k);
    }
    forall k | 0 <= k < |parts| - 1
      ensures PartStart(parts, sep, k) + |parts[k]| + |sep| <= |Join(parts, sep)|
      ensures Join(parts, sep)[PartStart(parts, sep, k) + |parts[k]|..PartStart(parts, sep, k) + |parts[k]| + |sep|] == sep
    {
      JoinSepAt(parts, sep, k);
    }
  }

  /** A slice inside the first half of a concatenation is a slice of that half. */
  lemma JoinPrefixSlice(a: string, b: string, i: int, k: int)
    requires 0 <= i <= k <= |a|
    ensures (a + b)[i..k] == a[i..k]
  {
  }

  /** In `a + (b + c)`, `b` is found right after `a`. */
  lemma HeadSlice(a: string, b: string, c: string)
    ensures (a + (b + c))[|a|..|a| + |b|] == b
  {
  }

  /** In `a + (b + c)`, `c` is found right after `a` and `b`. */
  lemma SuffixSlice(a: string, b: string, c: string)
    ensures (a + (b + c))[|a| + |b|..|a| + |b| + |c|] == c
  {
  }

  /** The ticker's labels: each prompt's text with its weight percentage. */
  function Labels(prompts: seq<Prompt>): (r: seq<string>)
    ensures |r| == |prompts|
    ensures forall i :: 0 <= i < |prompts| ==> r[i] == WeightLabel(prompts[i])
  {
    seq(|prompts|, i requires 0 <= i < |prompts| => WeightLabel(prompts[i]))
  }

  /**
    `updatePromptTicker`: the lone prompt's text, or every prompt with its
    rounded weight percentage joined by ` + `; an empty list leaves the
    ticker as it is.
  */
  function TickerText(prompts: seq<Prompt>): (r: Option<string>)
    ensures r.None? <==> prompts == []
  {
    if |prompts| == 0 then None
    else if |prompts| == 1 then Some(prompts[0].text)
    else Some(Join(Labels(prompts), " + "))
  }

  /**
    The ticker for a single prompt is its text; for several it is every
    prompt's labelled text, in order, with ` + ` between neighbours and
    nothing else.
  */
  lemma TickerMeaning(prompts: seq<Prompt>)
    ensures |prompts| == 1 ==> TickerText(prompts) == Some(prompts[0].text)
    ensures |prompts| > 1 ==>
      && TickerText(prompts).Some?
      && IsJoin(TickerText(prompts).value, Labels(prompts), " + ")
  {
    if |prompts| > 1 {
      JoinParts(Labels(prompts), " + ");
    }
  }

  /** The label shows the weight as a whole percentage, within half a point. */
  lemma WeightLabelPercent(p: Prompt)
    requires p.weight >= 0.0
    ensures
      var n := Round(p.weight * 100.0);
      && n >= 0
      && WeightLabel(p) == p.text + " (" + Decimal(n) + "%)"
      && n as real - 0.5 <= p.weight * 100.0 < n as real + 0.5
  {
  }

  /**
    The ticker text goes to the server as `promptUpdate` when the socket is
    connected, and the server passes it on to every connection unchanged.
  */
  function TickerEvent(prompts: seq<Prompt>, connected: bool): (r: Option<Server.Event>)
    ensures r.Some? <==> connected && prompts != []
  {
    if connected && prompts != [] then Some(Server.PromptUpdate(TickerText(prompts).value)) else None
  }

  /** The dashboards receive the ticker text exactly as the view computed it. */
  lemma TickerReachesDashboards(s: Server.State, c: Server.Conn, prompts: seq<Prompt>)
    requires prompts != []
    ensures
      var e := TickerEvent(prompts, true).value;
      Server.Step(s, c, e) == Server.Outcome(s, [Server.Emit(Server.Everyone, Server.PromptBroadcast(TickerText(prompts).value))])
  {
  }
}

=== FILE: physics.dfy ===
/**
  One tick of the arena simulation (physics.js): per-body friction, speed
  cap, Euler step and wall bounce, then pairwise circle collisions in key
  order. Coordinates are reals; `Math.sqrt` is a parameter satisfying
  `IsSqrt`.
*/
module Physics {
  import opened Common
  import opened Geometry
  import opened Assoc

  const BallRadius: real := 30.0
  const Friction: real := 0.95
  const BotDamping: real := 0.9
  const BounceDamping: real := 0.8
  const CollisionElasticity: real := 0.7
  const MaxVelocity: real := 15.0
  const PhysicsTickRate: nat := 60

  /** Diameter: two bodies closer than this overlap. */
  const ContactDistance: real := BallRadius * 2.0

  /** The arena rectangle `{width, height}`. */
  datatype Bounds = Bounds(width: real, height: real)

  /**
    One registry entry's value: a player or a bot. Human players carry no
    `isBot` flag in the source, which reads as `false`.
  */
  datatype Body = Body(
    id: string,
    playerNumber: nat,
    name: string,
    shape: string,
    position: Vec,
    velocity: Vec,
    isBot: bool,
    color: string)

  /** The `players` object: ids to bodies, in insertion order. */
  type Entries = seq<(string, Body)>

  /** `b` differs from `a` at most in position and velocity. */
  predicate SameIdentity(a: Body, b: Body)
  {
    a.(position := b.position, velocity := b.velocity) == b
  }

  /** Vector from the first centre to the second. */
  function Offset(b1: Body, b2: Body): Vec { Sub(b2.position, b1.position) }

  /** Velocity of the second body relative to the first. */
  function RelativeVelocity(b1: Body, b2: Body): Vec { Sub(b2.velocity, b1.velocity) }

  // ---------------------------------------------------------------------
  // Pairwise collision

  /** `checkCollision`: the centres are closer than one diameter. */
  function CheckCollision(b1: Body, b2: Body, sqrt: real -> real): (r: bool)
    ensures IsSqrt(sqrt) ==> (r <==> DistSq(b1.position, b2.position) < Sq(ContactDistance))
  {
    var d := DistSq(b1.position, b2.position);
    assert IsSqrt(sqrt) ==> (sqrt(d) < ContactDistance <==> d < Sq(ContactDistance)) by {
      if IsSqrt(sqrt) {
        SqrtCompare(sqrt, d, ContactDistance);
      }
    }
    sqrt(d) < ContactDistance
  }

  /** Two bodies collide exactly when their squared distance is below the squared diameter. */
  lemma CheckCollisionMeans(b1: Body, b2: Body, sqrt: real -> real)
    requires IsSqrt(sqrt)
    ensures CheckCollision(b1, b2, sqrt) <==> DistSq(b1.position, b2.position) < Sq(ContactDistance)
  {
    SqrtCompare(sqrt, DistSq(b1.position, b2.position), ContactDistance);
  }

  /**
    `resolveCollision`: push the centres apart along the normal by half the
    overlap each, then, unless the bodies already separate, apply an equal
    and opposite impulse with restitution `CollisionElasticity`. Coincident
    centres are left alone.
  */
  function ResolveCollision(b1: Body, b2: Body, sqrt: real -> real): (r: (Body, Body))
    ensures SameIdentity(b1, r.0) && SameIdentity(b2, r.1)
    ensures Add(r.0.position, r.1.position) == Add(b1.position, b2.position)
    ensures Add(r.0.velocity, r.1.velocity) == Add(b1.velocity, b2.velocity)
  {
    var d := Offset(b1, b2);
    var dist := sqrt(NormSq(d));
    if dist == 0.0 then (b1, b2)
    else
      var n := Normal(d, dist);
      var overlap := ContactDistance - dist;
      var sep := Separation(d, dist);
      var p1 := if overlap > 0.0 then Sub(b1.position, sep) else b1.position;
      var p2 := if overlap > 0.0 then Add(b2.position, sep) else b2.position;
      var dv := RelativeVelocity(b1, b2);
      if Dot(dv, n) > 0.0 then (b1.(position := p1), b2.(position := p2))
      else
        var j := HalfImpulse(dv, n);
        (b1.(position := p1, velocity := Sub(b1.velocity, j)),
         b2.(position := p2, velocity := Add(b2.velocity, j)))
  }

  /** The collision normal: `d` divided by its length `dist`. */
  function Normal(d: Vec, dist: real): Vec
    requires dist != 0.0
  {
    Vec(d.x / dist, d.y / dist)
  }

  /** How far each centre moves: half the overlap along the normal (negative when apart). */
  function Separation(d: Vec, dist: real): Vec
    requires dist != 0.0
  {
    var n := Normal(d, dist);
    var overlap := ContactDistance - dist;
    Vec(n.x * overlap * 0.5, n.y * overlap * 0.5)
  }

  /** Half the impulse vector each body receives, from relative velocity `dv` along normal `n`. */
  function HalfImpulse(dv: Vec, n: Vec): Vec
  {
    var impulse := -(1.0 + CollisionElasticity) * Dot(dv, n);
    Vec(impulse * n.x * 0.5, impulse * n.y * 0.5)
  }

  /** Coincident centres: the resolver changes neither body. */
  lemma ResolveCoincident(b1: Body, b2: Body, sqrt: real -> real)
    requires IsSqrt(sqrt)
    requires b1.position == b2.position
    ensures ResolveCollision(b1, b2, sqrt) == (b1, b2)
  {
    assert Offset(b1, b2) == Zero;
    SqrtNormZero(sqrt, Offset(b1, b2));
  }

  /** Pushing apart along the unit normal by the overlap leaves the centres exactly one diameter apart. */
  lemma SeparationDistance(d: Vec, dist: real)
    requires dist > 0.0 && Sq(dist) == NormSq(d)
    ensures
      var sep := Separation(d, dist);
      NormSq(Vec(d.x + 2.0 * sep.x, d.y + 2.0 * sep.y)) == Sq(ContactDistance)
  {
    var k := ContactDistance / dist;
    var sep := Separation(d, dist);
    assert d.x + 2.0 * sep.x == k * d.x;
    assert d.y + 2.0 * sep.y == k * d.y;
    NormSqScale(k, d);
    assert Sq(k) * Sq(dist) == Sq(ContactDistance);
  }

  /** Overlapping, non-coincident bodies end exactly one diameter apart. */
  lemma ResolveSeparates(b1: Body, b2: Body, sqrt: real -> real)
    requires IsSqrt(sqrt)
    requires 0.0 < DistSq(b1.position, b2.position) < Sq(ContactDistance)
    ensures
      var r := ResolveCollision(b1, b2, sqrt);
      DistSq(r.0.position, r.1.position) == Sq(ContactDistance)
  {
    var d := Offset(b1, b2);
    var dist := sqrt(NormSq(d));
    SqrtSpec(sqrt, NormSq(d));
    SqrtCompare(sqrt, NormSq(d), ContactDistance);
    assert 0.0 < dist < ContactDistance && Sq(dist) == NormSq(d);
    var sep := Separation(d, dist);
    OverlapPositions(b1, b2, sqrt, dist);
    SeparationDistance(d, dist);
    var r := ResolveCollision(b1, b2, sqrt);
    assert Offset(r.0, r.1) == Vec(d.x + 2.0 * sep.x, d.y + 2.0 * sep.y);
  }

  /** Overlapping bodies are each pushed half the overlap along the normal. */
  lemma OverlapPositions(b1: Body, b2: Body, sqrt: real -> real, dist: real)
    requires dist == sqrt(NormSq(Offset(b1, b2))) && 0.0 < dist < ContactDistance
    ensures ResolveCollision(b1, b2, sqrt).0.position == Sub(b1.position, Separation(Offset(b1, b2), dist))
    ensures ResolveCollision(b1, b2, sqrt).1.position == Add(b2.position, Separation(Offset(b1, b2), dist))
  {
  }

  /** Bodies at least one diameter apart keep their positions. */
  lemma ResolveApartKeepsPositions(b1: Body, b2: Body, sqrt: real -> real)
    requires IsSqrt(sqrt)
    requires DistSq(b1.position, b2.position) >= Sq(ContactDistance)
    ensures
      var r := ResolveCollision(b1, b2, sqrt);
      r.0.position == b1.position && r.1.position == b2.position
  {
    SqrtCompare(sqrt, NormSq(Offset(b1, b2)), ContactDistance);
  }

  /** Bodies already separating, or sliding past, along the centre line keep their velocities. */
  lemma ResolveKeepsSeparating(b1: Body, b2: Body, sqrt: real -> real)
    requires IsSqrt(sqrt)
    requires Dot(RelativeVelocity(b1, b2), Offset(b1, b2)) >= 0.0
    ensures
      var r := ResolveCollision(b1, b2, sqrt);
      r.0.velocity == b1.velocity && r.1.velocity == b2.velocity
  {
    var d := Offset(b1, b2);
    var dist := sqrt(NormSq(d));
    var dv := RelativeVelocity(b1, b2);
    SqrtNormZero(sqrt, d);
    if dist != 0.0 {
      SqrtSpec(sqrt, NormSq(d));
      ImpulseAlgebra(d, dist, dv);
      var n := Normal(d, dist);
      if Dot(dv, n) <= 0.0 {
        HalfImpulseZero(dv, n);
      }
    }
  }

  /**
    Approaching bodies: the normal component of the relative velocity is
    reversed and scaled by the restitution coefficient.
  */
  lemma ResolveReflects(b1: Body, b2: Body, sqrt: real -> real)
    requires IsSqrt(sqrt)
    requires Dot(RelativeVelocity(b1, b2), Offset(b1, b2)) < 0.0
    ensures
      var r := ResolveCollision(b1, b2, sqrt);
      var d := Offset(b1, b2);
      Dot(RelativeVelocity(r.0, r.1), d) == -CollisionElasticity * Dot(RelativeVelocity(b1, b2), d)
  {
    var d := Offset(b1, b2);
    var dv := RelativeVelocity(b1, b2);
    var j := ResolveApproaching(b1, b2, sqrt);
    var r := ResolveCollision(b1, b2, sqrt);
    assert RelativeVelocity(r.0, r.1) == Add(dv, Scale(2.0, j));
  }

  /** Unfolds the resolver for approaching bodies: velocities change by the opposite half impulses `j`. */
  lemma ResolveApproaching(b1: Body, b2: Body, sqrt: real -> real) returns (j: Vec)
    requires IsSqrt(sqrt)
    requires Dot(RelativeVelocity(b1, b2), Offset(b1, b2)) < 0.0
    ensures
      var r := ResolveCollision(b1, b2, sqrt);
      && r.0.velocity == Sub(b1.velocity, j)
      && r.1.velocity == Add(b2.velocity, j)
      && Dot(Add(RelativeVelocity(b1, b2), Scale(2.0, j)), Offset(b1, b2))
         == -CollisionElasticity * Dot(RelativeVelocity(b1, b2), Offset(b1, b2))
  {
    var d := Offset(b1, b2);
    var dist := sqrt(NormSq(d));
    var dv := RelativeVelocity(b1, b2);
    DotNonZero(dv, d);
    SqrtNormZero(sqrt, d);
    ImpulseAlgebra(d, dist, dv);
    j := HalfImpulse(dv, Normal(d, dist));
  }

  /** The vector algebra behind the impulse, with `dist` the length of `d`. */
  lemma ImpulseAlgebra(d: Vec, dist: real, dv: Vec)
    requires dist > 0.0 && Sq(dist) == NormSq(d)
    ensures Dot(dv, Normal(d, dist)) > 0.0 <==> Dot(dv, d) > 0.0
    ensures Dot(dv, Normal(d, dist)) == 0.0 <==> Dot(dv, d) == 0.0
    ensures Dot(Add(dv, Scale(2.0, HalfImpulse(dv, Normal(d, dist)))), d) == -CollisionElasticity * Dot(dv, d)
  {
    var inv := 1.0 / dist;
    var n := Normal(d, dist);
    assert n == Scale(inv, d);
    var rv := Dot(dv, n);
    assert rv == inv * Dot(dv, d);
    assert rv * dist == Dot(dv, d);
    ProductSign(rv, dist);
    assert Dot(n, d) == dist by {
      assert Dot(n, d) == inv * NormSq(d);
      assert inv * Sq(dist) == dist;
    }
    ImpulseAlongNormal(dv, n, d);
  }

  /** Adding the full impulse along `n` changes the component along `d` by the impulse times `n . d`. */
  lemma ImpulseAlongNormal(dv: Vec, n: Vec, d: Vec)
    ensures Dot(Add(dv, Scale(2.0, HalfImpulse(dv, n))), d)
      == Dot(dv, d) + (-(1.0 + CollisionElasticity) * Dot(dv, n)) * Dot(n, d)
  {
  }

  lemma HalfImpulseZero(dv: Vec, n: Vec)
    requires Dot(dv, n) == 0.0
    ensures HalfImpulse(dv, n) == Zero
  {
  }

  lemma DotNonZero(a: Vec, b: Vec)
    requires Dot(a, b) != 0.0
    ensures b != Zero
  {
  }

  /** With `b > 0`, `a * b` has the sign of `a`. */
  lemma ProductSign(a: real, b: real)
    requires b > 0.0
    ensures a > 0.0 <==> a * b > 0.0
    ensures a == 0.0 <==> a * b == 0.0
  {
    if a > 0.0 {
      ProductPos(a, b);
    } else if a < 0.0 {
      ProductPos(-a, b);
    }
  }

  // ---------------------------------------------------------------------
  // Per-body phase

  /** Friction every tick, and the bots' extra damping after it. */
  function ApplyFriction(v: Vec, isBot: bool): Vec
  {
    var f := Scale(Friction, v);
    if isBot then Scale(BotDamping, f) else f
  }

  /** Friction scales a velocity by `0.95`, a bot's by `0.95 * 0.9`; it never speeds a body up. */
  lemma FrictionScales(v: Vec, isBot: bool)
    ensures ApplyFriction(v, isBot) == Scale(if isBot then Friction * BotDamping else Friction, v)
    ensures NormSq(ApplyFriction(v, isBot)) <= NormSq(v)
  {
    ScaleShrinks(if isBot then Friction * BotDamping else Friction, v);
  }

  /** Scaling by a factor in `[0, 1]` never lengthens a vector. */
  lemma ScaleShrinks(k: real, v: Vec)
    requires 0.0 <= k <= 1.0
    ensures NormSq(Scale(k, v)) <= NormSq(v)
  {
    NormSqScale(k, v);
    assert Sq(k) <= 1.0 by {
      if k < 1.0 { SquareMonotone(k, 1.0); }
    }
    var n := NormSq(v);
    assert (1.0 - Sq(k)) * n >= 0.0;
  }

  /**
    The speed cap: a velocity faster than `MaxVelocity` is divided by its
    speed and multiplied by the cap.
  */
  function ClampSpeed(v: Vec, sqrt: real -> real): (r: Vec)
    ensures IsSqrt(sqrt) ==> NormSq(r) <= Sq(MaxVelocity) && NormSq(r) <= NormSq(v)
  {
    var speed := sqrt(NormSq(v));
    if speed > MaxVelocity then
      assert IsSqrt(sqrt) ==>
        && NormSq(Vec(v.x / speed * MaxVelocity, v.y / speed * MaxVelocity)) == Sq(MaxVelocity)
        && Sq(MaxVelocity) < NormSq(v)
      by {
        if IsSqrt(sqrt) {
          SqrtSpec(sqrt, NormSq(v));
          CapRescales(v, speed);
        }
      }
      Vec(v.x / speed * MaxVelocity, v.y / speed * MaxVelocity)
    else
      assert IsSqrt(sqrt) ==> NormSq(v) <= Sq(MaxVelocity) by {
        if IsSqrt(sqrt) {
          SqrtCompare(sqrt, NormSq(v), MaxVelocity);
        }
      }
      v
  }

  /**
    After the cap the speed is at most `MaxVelocity` and never above the
    input's; a velocity within the cap is untouched, a faster one ends at
    exactly the cap, and the direction is kept.
  */
  lemma ClampSpeedBounds(v: Vec, sqrt: real -> real)
    requires IsSqrt(sqrt)
    ensures NormSq(ClampSpeed(v, sqrt)) <= Sq(MaxVelocity)
    ensures NormSq(ClampSpeed(v, sqrt)) <= NormSq(v)
    ensures NormSq(v) <= Sq(MaxVelocity) ==> ClampSpeed(v, sqrt) == v
    ensures NormSq(v) > Sq(MaxVelocity) ==> NormSq(ClampSpeed(v, sqrt)) == Sq(MaxVelocity)
    ensures exists k: real :: 0.0 < k <= 1.0 && ClampSpeed(v, sqrt) == Scale(k, v)
  {
    var speed := sqrt(NormSq(v));
    SqrtCompare(sqrt, NormSq(v), MaxVelocity);
    if speed > MaxVelocity {
      CapRescales(v, speed);
    } else {
      assert v == Scale(1.0, v);
    }
  }

  /** Dividing by the speed and multiplying by the cap is a shrink to exactly the cap. */
  lemma CapRescales(v: Vec, speed: real)
    requires speed > MaxVelocity && Sq(speed) == NormSq(v)
    ensures
      var r := Vec(v.x / speed * MaxVelocity, v.y / speed * MaxVelocity);
      && r == Scale(MaxVelocity / speed, v)
      && 0.0 < MaxVelocity / speed < 1.0
      && NormSq(r) == Sq(MaxVelocity)
      && NormSq(r) < NormSq(v)
  {
    var k := MaxVelocity / speed;
    NormSqScale(k, v);
    assert Sq(k) * Sq(speed) == Sq(MaxVelocity);
    SquareMonotone(MaxVelocity, speed);
  }

  /**
    One axis of the wall bounce, as two tests in sequence: below the near
    wall the centre is put one radius inside and the velocity made
    non-negative and damped; then, beyond the far wall, one radius inside
    that wall with a non-positive damped velocity. Returns the new
    coordinate and velocity component.
  */
  function BounceAxis(p: real, v: real, extent: real): (r: (real, real))
    ensures ContactDistance <= extent ==> BallRadius <= r.0 <= extent - BallRadius
    ensures Abs(r.1) <= Abs(v)
    ensures BallRadius <= p && p + BallRadius <= extent ==> r == (p, v)
    ensures p < BallRadius && ContactDistance <= extent ==> r == (BallRadius, Abs(v) * BounceDamping)
    ensures Max(p, BallRadius) + BallRadius > extent ==> r.0 == extent - BallRadius && r.1 <= 0.0
    ensures BallRadius <= p && p + BallRadius > extent ==> r == (extent - BallRadius, -Abs(v) * BounceDamping)
    ensures p < BallRadius && extent < ContactDistance ==>
              r == (extent - BallRadius, -(Abs(v) * BounceDamping) * BounceDamping)
  {
    var (p1, v1) := if p - BallRadius < 0.0 then (BallRadius, Abs(v) * BounceDamping) else (p, v);
    if p1 + BallRadius > extent then (extent - BallRadius, -Abs(v1) * BounceDamping)
    else (p1, v1)
  }

  /**
    The first loop of `updatePhysics` for one body: friction, speed cap,
    Euler step, wall bounce on each axis.
  */
  function IntegrateBody(b: Body, bounds: Bounds, sqrt: real -> real): (r: Body)
    ensures SameIdentity(b, r)
    ensures ContactDistance <= bounds.width ==> BallRadius <= r.position.x <= bounds.width - BallRadius
    ensures ContactDistance <= bounds.height ==> BallRadius <= r.position.y <= bounds.height - BallRadius
  {
    var v1 := ClampSpeed(ApplyFriction(b.velocity, b.isBot), sqrt);
    var p1 := Add(b.position, v1);
    var bX := BounceAxis(p1.x, v1.x, bounds.width);
    var bY := BounceAxis(p1.y, v1.y, bounds.height);
    b.(position := Vec(bX.0, bY.0), velocity := Vec(bX.1, bY.1))
  }

  /** After the per-body phase a body moves no faster than `MaxVelocity`, nor faster than before. */
  lemma IntegrateBodySpeed(b: Body, bounds: Bounds, sqrt: real -> real)
    requires IsSqrt(sqrt)
    ensures NormSq(IntegrateBody(b, bounds, sqrt).velocity) <= Sq(MaxVelocity)
    ensures NormSq(IntegrateBody(b, bounds, sqrt).velocity) <= NormSq(b.velocity)
  {
    var f := ApplyFriction(b.velocity, b.isBot);
    FrictionScales(b.velocity, b.isBot);
    var v1 := ClampSpeed(f, sqrt);
    ClampSpeedBounds(f, sqrt);
    var p1 := Add(b.position, v1);
    var bX := BounceAxis(p1.x, v1.x, bounds.width);
    var bY := BounceAxis(p1.y, v1.y, bounds.height);
    SquareAbsMonotone(bX.1, v1.x);
    SquareAbsMonotone(bY.1, v1.y);
    assert IntegrateBody(b, bounds, sqrt).velocity == Vec(bX.1, bY.1);
  }

  /** A smaller absolute value has a smaller square. */
  lemma SquareAbsMonotone(a: real, b: real)
    requires Abs(a) <= Abs(b)
    ensures Sq(a) <= Sq(b)
  {
    assert Sq(a) == Sq(Abs(a)) && Sq(b) == Sq(Abs(b));
    if Abs(a) < Abs(b) {
      SquareMonotone(Abs(a), Abs(b));
    }
  }

  /**
    Away from the walls the per-body phase is a plain Euler step: the body
    moves by its damped, capped velocity and keeps that velocity.
  */
  lemma IntegrateAwayFromWalls(b: Body, bounds: Bounds, sqrt: real -> real)
    requires IsSqrt(sqrt)
    requires
      var v1 := ClampSpeed(ApplyFriction(b.velocity, b.isBot), sqrt);
      var p1 := Add(b.position, v1);
      && BallRadius <= p1.x && p1.x + BallRadius <= bounds.width
      && BallRadius <= p1.y && p1.y + BallRadius <= bounds.height
    ensures
      var v1 := ClampSpeed(ApplyFriction(b.velocity, b.isBot), sqrt);
      IntegrateBody(b, bounds, sqrt) == b.(position := Add(b.position, v1), velocity := v1)
  {
  }

  /** The first loop of `updatePhysics` over every entry, keeping keys and order. */
  function IntegrateAll(s: Entries, bounds: Bounds, sqrt: real -> real): (r: Entries)
    ensures |r| == |s| && Keys(r) == Keys(s)
    ensures forall i :: 0 <= i < |s| ==> r[i].1 == IntegrateBody(s[i].1, bounds, sqrt)
  {
    seq(|s|, i requires 0 <= i < |s| => (s[i].0, IntegrateBody(s[i].1, bounds, sqrt)))
  }

  // ---------------------------------------------------------------------
  // Pairwise pass and the whole tick

  /** The velocities of the entries, in key order. */
  function Velocities(s: Entries): seq<Vec>
  {
    seq(|s|, i requires 0 <= i < |s| => s[i].1.velocity)
  }

  /** The positions of the entries, in key order. */
  function Positions(s: Entries): seq<Vec>
  {
    seq(|s|, i requires 0 <= i < |s| => s[i].1.position)
  }

  /** `s2` holds the same bodies as `s1` under the same keys, up to positions and velocities. */
  predicate SameBodies(s1: Entries, s2: Entries)
  {
    && |s2| == |s1|
    && (forall k :: 0 <= k < |s1| ==> s2[k].0 == s1[k].0)
    && (forall k :: 0 <= k < |s1| ==> SameIdentity(s1[k].1, s2[k].1))
  }

  /**
    What the pair loop needs of its resolver: it changes only positions and
    velocities, and keeps the pair's total velocity and the sum of its
    positions.
  */
  ghost predicate Conserving(resolve: (Body, Body) -> (Body, Body))
  {
    forall a: Body, b: Body ::
      && SameIdentity(a, resolve(a, b).0)
      && SameIdentity(b, resolve(a, b).1)
      && Add(resolve(a, b).0.velocity, resolve(a, b).1.velocity) == Add(a.velocity, b.velocity)
      && Add(resolve(a, b).0.position, resolve(a, b).1.position) == Add(a.position, b.position)
  }

  /** `checkCollision` with the host's square root. */
  function Detector(sqrt: real -> real): (Body, Body) -> bool
  {
    (a: Body, b: Body) => CheckCollision(a, b, sqrt)
  }

  /** `resolveCollision` with the host's square root. */
  function Resolver(sqrt: real -> real): (Body, Body) -> (Body, Body)
  {
    (a: Body, b: Body) => ResolveCollision(a, b, sqrt)
  }

  /** The resolver keeps identities, total velocity and the sum of positions. */
  lemma ResolverConserving(sqrt: real -> real)
    ensures Conserving(Resolver(sqrt))
  {
    forall a: Body, b: Body
      ensures
        var r := Resolver(sqrt)(a, b);
        && SameIdentity(a, r.0) && SameIdentity(b, r.1)
        && Add(r.0.velocity, r.1.velocity) == Add(a.velocity, b.velocity)
        && Add(r.0.position, r.1.position) == Add(a.position, b.position)
    {
      assert Resolver(sqrt)(a, b) == ResolveCollision(a, b, sqrt);
    }
  }

  /** One step of the inner loop: the bodies at `i` and `j` are resolved if they touch. */
  function ResolvePair(
    s: Entries, i: nat, j: nat,
    touch: (Body, Body) -> bool, resolve: (Body, Body) -> (Body, Body)): (r: Entries)
    requires Conserving(resolve)
    requires i < j < |s|
    ensures SameBodies(s, r)
    ensures forall k :: 0 <= k < |s| && k != i && k != j ==> r[k] == s[k]
    ensures !touch(s[i].1, s[j].1) ==> r == s
    ensures touch(s[i].1, s[j].1) ==> (r[i].1, r[j].1) == resolve(s[i].1, s[j].1)
  {
    if touch(s[i].1, s[j].1) then
      var pair := resolve(s[i].1, s[j].1);
      s[i := (s[i].0, pair.0)][j := (s[j].0, pair.1)]
    else s
  }

  /** Resolving a pair keeps the total velocity and the sum of positions of the registry. */
  lemma ResolvePairConserves(
    s: Entries, i: nat, j: nat,
    touch: (Body, Body) -> bool, resolve: (Body, Body) -> (Body, Body))
    requires Conserving(resolve)
    requires i < j < |s|
    ensures SumVec(Velocities(ResolvePair(s, i, j, touch, resolve))) == SumVec(Velocities(s))
    ensures SumVec(Positions(ResolvePair(s, i, j, touch, resolve))) == SumVec(Positions(s))
  {
    if touch(s[i].1, s[j].1) {
      var pair := resolve(s[i].1, s[j].1);
      var r := ResolvePair(s, i, j, touch, resolve);
      var vs := Velocities(s);
      assert Velocities(r) == vs[i := pair.0.velocity][j := pair.1.velocity];
      SumVecUpdate(vs, i, pair.0.velocity);
      SumVecUpdate(vs[i := pair.0.velocity], j, pair.1.velocity);
      var ps := Positions(s);
      assert Positions(r) == ps[i := pair.0.position][j := pair.1.position];
      SumVecUpdate(ps, i, pair.0.position);
      SumVecUpdate(ps[i := pair.0.position], j, pair.1.position);
    }
  }

  /** The inner loop `for (j = i + 1; j < n; j++)`, from a given `j`. */
  function CollideRow(
    s: Entries, i: nat, j: nat,
    touch: (Body, Body) -> bool, resolve: (Body, Body) -> (Body, Body)): (r: Entries)
    requires Conserving(resolve)
    requires i < j <= |s|
    ensures |r| == |s|
    decreases |s| - j
  {
    if j == |s| then s
    else CollideRow(ResolvePair(s, i, j, touch, resolve), i, j + 1, touch, resolve)
  }

  /** The outer loop `for (i = 0; i < n; i++)`, from a given `i`. */
  function CollideFrom(
    s: Entries, i: nat,
    touch: (Body, Body) -> bool, resolve: (Body, Body) -> (Body, Body)): (r: Entries)
    requires Conserving(resolve)
    requires i <= |s|
    ensures SameBodies(s, r)
    decreases |s| - i
  {
    if i == |s| then s
    else
      CollideRowSame(s, i, i + 1, touch, resolve);
      CollideFrom(CollideRow(s, i, i + 1, touch, resolve), i + 1, touch, resolve)
  }

  /** The inner loop changes only positions and velocities. */
  lemma {:induction false} CollideRowSame(
    s: Entries, i: nat, j: nat,
    touch: (Body, Body) -> bool, resolve: (Body, Body) -> (Body, Body))
    requires Conserving(resolve)
    requires i < j <= |s|
    ensures SameBodies(s, CollideRow(s, i, j, touch, resolve))
    decreases |s| - j
  {
    if j < |s| {
      var next := ResolvePair(s, i, j, touch, resolve);
      CollideRowSame(next, i, j + 1, touch, resolve);
    }
  }

  /** One unfolding of the inner loop. */
  lemma CollideRowStep(
    s: Entries, i: nat, j: nat,
    touch: (Body, Body) -> bool, resolve: (Body, Body) -> (Body, Body))
    requires Conserving(resolve)
    requires i < j < |s|
    ensures CollideRow(s, i, j, touch, resolve) == CollideRow(ResolvePair(s, i, j, touch, resolve), i, j + 1, touch, resolve)
  {
  }

  /** One unfolding of the outer loop. */
  lemma CollideFromStep(
    s: Entries, i: nat,
    touch: (Body, Body) -> bool, resolve: (Body, Body) -> (Body, Body))
    requires Conserving(resolve)
    requires i < |s|
    ensures CollideFrom(s, i, touch, resolve) == CollideFrom(CollideRow(s, i, i + 1, touch, resolve), i + 1, touch, resolve)
  {
  }

  /** The inner loop keeps the total velocity. */
  lemma {:induction false} CollideRowMomentum(
    s: Entries, i: nat, j: nat,
    touch: (Body, Body) -> bool, resolve: (Body, Body) -> (Body, Body))
    requires Conserving(resolve)
    requires i < j <= |s|
    ensures SumVec(Velocities(CollideRow(s, i, j, touch, resolve))) == SumVec(Velocities(s))
    decreases |s| - j
  {
    if j < |s| {
      var next := ResolvePair(s, i, j, touch, resolve);
      assert SumVec(Velocities(next)) == SumVec(Velocities(s)) by {
        ResolvePairConserves(s, i, j, touch, resolve);
      }
      CollideRowMomentum(next, i, j + 1, touch, resolve);
      assert CollideRow(s, i, j, touch, resolve) == CollideRow(next, i, j + 1, touch, resolve) by {
        CollideRowStep(s, i, j, touch, resolve);
      }
    }
  }

  /** The outer loop keeps the total velocity. */
  lemma {:induction false} CollideFromMomentum(
    s: Entries, i: nat,
    touch: (Body, Body) -> bool, resolve: (Body, Body) -> (Body, Body))
    requires Conserving(resolve)
    requires i <= |s|
    ensures SumVec(Velocities(CollideFrom(s, i, touch, resolve))) == SumVec(Velocities(s))
    decreases |s| - i
  {
    if i < |s| {
      var next := CollideRow(s, i, i + 1, touch, resolve);
      CollideRowMomentum(s, i, i + 1, touch, resolve);
      CollideFromMomentum(next, i + 1, touch, resolve);
      CollideFromStep(s, i, touch, resolve);
    }
  }

  /** The inner loop keeps the sum of positions. */
  lemma {:induction false} CollideRowCentroid(
    s: Entries, i: nat, j: nat,
    touch: (Body, Body) -> bool, resolve: (Body, Body) -> (Body, Body))
    requires Conserving(resolve)
    requires i < j <= |s|
    ensures SumVec(Positions(CollideRow(s, i, j, touch, resolve))) == SumVec(Positions(s))
    decreases |s| - j
  {
    if j < |s| {
      var next := ResolvePair(s, i, j, touch, resolve);
      assert SumVec(Positions(next)) == SumVec(Positions(s)) by {
        ResolvePairConserves(s, i, j, touch, resolve);
      }
      CollideRowCentroid(next, i, j + 1, touch, resolve);
      assert CollideRow(s, i, j, touch, resolve) == CollideRow(next, i, j + 1, touch, resolve) by {
        CollideRowStep(s, i, j, touch, resolve);
      }
    }
  }

  /** The outer loop keeps the sum of positions. */
  lemma {:induction false} CollideFromCentroid(
    s: Entries, i: nat,
    touch: (Body, Body) -> bool, resolve: (Body, Body) -> (Body, Body))
    requires Conserving(resolve)
    requires i <= |s|
    ensures SumVec(Positions(CollideFrom(s, i, touch, resolve))) == SumVec(Positions(s))
    decreases |s| - i
  {
    if i < |s| {
      var next := CollideRow(s, i, i + 1, touch, resolve);
      CollideRowCentroid(s, i, i + 1, touch, resolve);
      CollideFromCentroid(next, i + 1, touch, resolve);
      CollideFromStep(s, i, touch, resolve);
    }
  }

  /** The inner loop changes nothing when body `i` touches none of the bodies from `j` on. */
  lemma {:induction false} CollideRowNoContact(
    s: Entries, i: nat, j: nat,
    touch: (Body, Body) -> bool, resolve: (Body, Body) -> (Body, Body))
    requires Conserving(resolve)
    requires i < j <= |s|
    requires forall k :: j <= k < |s| ==> !touch(s[i].1, s[k].1)
    ensures CollideRow(s, i, j, touch, resolve) == s
    decreases |s| - j
  {
    if j < |s| {
      CollideRowNoContact(s, i, j + 1, touch, resolve);
    }
  }

  /** With no touching pair, the collision pass changes nothing. */
  lemma {:induction false} CollideFromNoContact(
    s: Entries, i: nat,
    touch: (Body, Body) -> bool, resolve: (Body, Body) -> (Body, Body))
    requires Conserving(resolve)
    requires i <= |s|
    requires forall a, b :: 0 <= a < b < |s| ==> !touch(s[a].1, s[b].1)
    ensures CollideFrom(s, i, touch, resolve) == s
    decreases |s| - i
  {
    if i < |s| {
      CollideRowNoContact(s, i, i + 1, touch, resolve);
      CollideFromNoContact(s, i + 1, touch, resolve);
    }
  }

  /**
    `updatePhysics`: the per-body phase over every entry in key order, then
    every pair `(i, j)` with `i < j` in key order, each pair seeing the
    bodies as the earlier pairs left them.
  */
  function UpdatePhysics(s: Entries, bounds: Bounds, sqrt: real -> real): (r: Entries)
    ensures SameBodies(s, r)
    ensures Keys(r) == Keys(s)
  {
    ResolverConserving(sqrt);
    CollideFrom(IntegrateAll(s, bounds, sqrt), 0, Detector(sqrt), Resolver(sqrt))
  }

  /**
    The collision phase of a tick conserves the total velocity and the sum
    of positions of what the per-body phase produced.
  */
  lemma UpdatePhysicsConserves(s: Entries, bounds: Bounds, sqrt: real -> real)
    ensures
      var moved := IntegrateAll(s, bounds, sqrt);
      var r := UpdatePhysics(s, bounds, sqrt);
      && SumVec(Velocities(r)) == SumVec(Velocities(moved))
      && SumVec(Positions(r)) == SumVec(Positions(moved))
  {
    ResolverConserving(sqrt);
    CollideFromMomentum(IntegrateAll(s, bounds, sqrt), 0, Detector(sqrt), Resolver(sqrt));
    CollideFromCentroid(IntegrateAll(s, bounds, sqrt), 0, Detector(sqrt), Resolver(sqrt));
  }

  /** No two bodies overlap: every pair is at least one diameter apart. */
  ghost predicate NoOverlap(s: Entries)
  {
    forall i, j :: 0 <= i < j < |s| ==> DistSq(s[i].1.position, s[j].1.position) >= Sq(ContactDistance)
  }

  /** A tick whose per-body phase leaves no overlap is just the per-body phase. */
  lemma UpdatePhysicsNoOverlap(s: Entries, bounds: Bounds, sqrt: real -> real)
    requires IsSqrt(sqrt)
    requires NoOverlap(IntegrateAll(s, bounds, sqrt))
    ensures UpdatePhysics(s, bounds, sqrt) == IntegrateAll(s, bounds, sqrt)
  {
    var moved := IntegrateAll(s, bounds, sqrt);
    forall a, b | 0 <= a < b < |moved|
      ensures !Detector(sqrt)(moved[a].1, moved[b].1)
    {
      CheckCollisionMeans(moved[a].1, moved[b].1, sqrt);
    }
    ResolverConserving(sqrt);
    CollideFromNoContact(moved, 0, Detector(sqrt), Resolver(sqrt));
  }

  /** After the per-body phase every speed is at most `MaxVelocity` and walls contain every centre. */
  lemma IntegrateAllBounds(s: Entries, bounds: Bounds, sqrt: real -> real, k: int)
    requires IsSqrt(sqrt)
    requires 0 <= k < |s|
    ensures NormSq(IntegrateAll(s, bounds, sqrt)[k].1.velocity) <= Sq(MaxVelocity)
    ensures ContactDistance <= bounds.width ==>
      BallRadius <= IntegrateAll(s, bounds, sqrt)[k].1.position.x <= bounds.width - BallRadius
    ensures ContactDistance <= bounds.height ==>
      BallRadius <= IntegrateAll(s, bounds, sqrt)[k].1.position.y <= bounds.height - BallRadius
  {
    IntegrateBodySpeed(s[k].1, bounds, sqrt);
  }
}

=== FILE: server.dfy ===
/**
  The session registry of server.js as a state machine: every socket event
  is a guarded transition `Step(state, conn, event)` over the registry of
  bodies, the player counter, the arena bounds, the genre list and the
  configuration file, returning the new state and the messages emitted, in
  order. `Math.random()` draws, `Date.now()` and the host's square root are
  parameters of the events that use them.
*/
module Server {
  import opened Common
  import opened Geometry
  import opened Assoc
  import opened Physics
  import opened Text
  import opened GameState

  /** Distance kept from each wall when a body spawns. */
  const SpawnMargin: real := 100.0

  /** Velocity added per unit of joystick input. */
  const Acceleration: real := 1.2

  /** Arena size until a view reports its canvas. */
  const InitialBounds: Bounds := Bounds(1920.0, 1080.0)

  datatype State = State(
    players: Entries,
    playerCounter: nat,
    bounds: Bounds,
    genres: seq<string>,
    config: ConfigFile)

  /** A socket: its id and whether it connected with `viewer=true`. */
  datatype Conn = Conn(id: string, isViewer: bool)

  /** The payload of `updateGenres`: an array of names, or anything that is not an array. */
  datatype GenresPayload = NotArray | Array(items: seq<string>)

  /**
    Socket events. `spawn` holds the two `Math.random()` draws for a new
    body's position; `now` is `Date.now()` and `suffix` is
    `Math.floor(Math.random() * 1000)` for a bot id.
  */
  datatype Event =
    | Connect(spawn: Vec)
    | SetName(name: string)
    | SetShape(shape: string)
    | MoveInput(input: Vec)
    | UpdateBounds(width: real, height: real)
    | PromptUpdate(prompt: string)
    | UpdateGenres(payload: GenresPayload)
    | UpdatePlayerPosition(playerId: string, position: Vec)
    | AddBot(now: nat, suffix: nat, spawn: Vec)
    | RemoveBot
    | ClearBots
    | Disconnect

  datatype Msg =
    | Init(id: string, position: Vec)
    | Players(players: Entries)
    | PhysicsUpdate(players: Entries)
    | GenresUpdate(genres: seq<string>)
    | BoundsUpdate(width: real, height: real)
    | PlayerDisconnected(id: string)
    | PromptBroadcast(prompt: string)

  /** `socket.emit`, `socket.broadcast.emit` and `io.emit`. */
  datatype Audience = Caller | Others | Everyone

  datatype Emit = Emit(to: Audience, msg: Msg)

  datatype Outcome = Outcome(state: State, emits: seq<Emit>)

  /** The server's state at start-up: no bodies, counter 0, default bounds, genres from the file. */
  function InitialState(config: ConfigFile): (r: State)
    ensures r.players == [] && r.playerCounter == 0
    ensures |r.genres| == GenreCount
    ensures Valid(r)
  {
    State([], 0, InitialBounds, LoadGenres(config), config)
  }

  // ---------------------------------------------------------------------
  // The registry invariant

  /**
    No id occurs twice, every body carries its own key as `id`, player
    numbers are distinct and between 1 and the counter, and there are eight
    genres.
  */
  ghost predicate Valid(s: State)
  {
    && UniqueKeys(s.players)
    && |s.genres| == GenreCount
    && (forall e :: e in s.players ==> e.1.id == e.0 && 1 <= e.1.playerNumber <= s.playerCounter)
    && (forall e1, e2 :: e1 in s.players && e2 in s.players && e1.0 != e2.0 ==>
          e1.1.playerNumber != e2.1.playerNumber)
  }

  // ---------------------------------------------------------------------
  // Creating bodies

  /** `Math.random() * (extent - 200) + 100` */
  function SpawnCoord(u: real, extent: real): real
  {
    u * (extent - 2.0 * SpawnMargin) + SpawnMargin
  }

  /** A new body's position from the two draws. */
  function SpawnPosition(bounds: Bounds, spawn: Vec): Vec
  {
    Vec(SpawnCoord(spawn.x, bounds.width), SpawnCoord(spawn.y, bounds.height))
  }

  /** A draw of `Math.random()`. */
  predicate IsDraw(u: real)
  {
    0.0 <= u < 1.0
  }

  /** With random draws in `[0, 1)` and an arena wider and taller than 200, a spawn lies 100 inside each wall. */
  lemma SpawnInside(bounds: Bounds, spawn: Vec)
    requires IsDraw(spawn.x) && IsDraw(spawn.y)
    requires bounds.width > 2.0 * SpawnMargin && bounds.height > 2.0 * SpawnMargin
    ensures SpawnMargin <= SpawnPosition(bounds, spawn).x < bounds.width - SpawnMargin
    ensures SpawnMargin <= SpawnPosition(bounds, spawn).y < bounds.height - SpawnMargin
  {
    SpawnCoordInside(spawn.x, bounds.width);
    SpawnCoordInside(spawn.y, bounds.height);
  }

  lemma SpawnCoordInside(u: real, extent: real)
    requires IsDraw(u) && extent > 2.0 * SpawnMargin
    ensures SpawnMargin <= SpawnCoord(u, extent) < extent - SpawnMargin
  {
    if u > 0.0 {
      ProductPos(u, extent - 2.0 * SpawnMargin);
    }
    ProductPos(1.0 - u, extent - 2.0 * SpawnMargin);
  }

  /** A human player's new body, numbered `n` and named `Player n`. */
  function NewPlayer(id: string, n: nat, position: Vec): Body
  {
    Body(id, n, "Player " + Decimal(n), "circle", position, Zero, false, GetRandomColor())
  }

  /** A bot's new body, numbered `n` and named `Bubble n`. */
  function NewBot(id: string, n: nat, position: Vec): Body
  {
    Body(id, n, "Bubble " + Decimal(n), "circle", position, Zero, true, GetRandomColor())
  }

  /** `` `bot-${Date.now()}-${suffix}` `` */
  function BotId(now: nat, suffix: nat): string
  {
    "bot-" + Decimal(now) + "-" + Decimal(suffix)
  }

  /** Two bot ids coincide only when both the time and the random suffix do. */
  lemma BotIdInjective(now1: nat, suffix1: nat, now2: nat, suffix2: nat)
    requires BotId(now1, suffix1) == BotId(now2, suffix2)
    ensures now1 == now2 && suffix1 == suffix2
  {
    var a := BotId(now1, suffix1);
    var d1, d2 := Decimal(now1), Decimal(now2);
    BotIdLayout(now1, suffix1);
    BotIdLayout(now2, suffix2);
    assert |d1| == |d2|;
    assert d1 == a[4..4 + |d1|];
    DecimalInjective(now1, now2);
    assert Decimal(suffix1) == a[5 + |d1|..];
    DecimalInjective(suffix1, suffix2);
  }

  /** A bot id is `bot-`, then digits up to the first dash after them, then digits. */
  lemma BotIdLayout(now: nat, suffix: nat)
    ensures
      var a, d := BotId(now, suffix), Decimal(now);
      && |a| == 5 + |d| + |Decimal(suffix)|
      && a[4 + |d|] == '-'
      && (forall k :: 4 <= k < 4 + |d| ==> IsDigit(a[k]))
      && a[4..4 + |d|] == d
      && a[5 + |d|..] == Decimal(suffix)
  {
    var a, d := BotId(now, suffix), Decimal(now);
    assert forall k :: 4 <= k < 4 + |d| ==> a[k] == d[k - 4];
  }

  /** `players[id]`, changed by `f` when present; every other key reads as before. */
  function ModifyBody(p: Entries, id: string, f: Body -> Body): (r: Entries)
    ensures Keys(r) == Keys(p)
    ensures forall k :: k != id ==> Get(r, k) == Get(p, k)
    ensures Get(p, id).Some? ==> Get(r, id) == Some(f(Get(p, id).value))
    ensures Get(p, id).None? ==> r == p
  {
    match Get(p, id)
    case Some(b) =>
      PutGetOthers(p, id, f(b));
      Put(p, id, f(b))
    case None => p
  }

  // ---------------------------------------------------------------------
  // Handlers

  /**
    `connection`: a controller gets a fresh numbered body at a random spawn,
    an `init` message, and the others hear of it; every connection then
    receives the registry and the genres.
  */
  function OnConnect(s: State, c: Conn, spawn: Vec): (r: Outcome)
    ensures c.isViewer ==> r.state == s
    ensures |r.emits| >= 2
    ensures !c.isViewer ==>
      && r.state == s.(players := r.state.players, playerCounter := s.playerCounter + 1)
      && (forall k :: k != c.id ==> Get(r.state.players, k) == Get(s.players, k))
      && Get(r.state.players, c.id).Some?
      && var b := Get(r.state.players, c.id).value;
         && b.id == c.id && b.playerNumber == r.state.playerCounter
         && b.name == "Player " + Decimal(r.state.playerCounter) && b.shape == "circle"
         && b.position == SpawnPosition(s.bounds, spawn) && b.velocity == Zero && !b.isBot
         && r.emits[0] == Emit(Caller, Init(c.id, b.position))
    ensures c.id !in Keys(s.players) && !c.isViewer ==> Keys(r.state.players) == Keys(s.players) + [c.id]
    ensures r.emits[|r.emits| - 2..] ==
      [Emit(Caller, Players(r.state.players)), Emit(Caller, GenresUpdate(s.genres))]
    ensures c.isViewer ==> |r.emits| == 2
    ensures !c.isViewer ==>
      r.emits ==
        [ Emit(Caller, Init(c.id, SpawnPosition(s.bounds, spawn))),
          Emit(Others, Players(r.state.players)),
          Emit(Caller, Players(r.state.players)),
          Emit(Caller, GenresUpdate(s.genres)) ]
  {
    if c.isViewer then
      Outcome(s, [Emit(Caller, Players(s.players)), Emit(Caller, GenresUpdate(s.genres))])
    else
      var n := s.playerCounter + 1;
      var position := SpawnPosition(s.bounds, spawn);
      var p := Put(s.players, c.id, NewPlayer(c.id, n, position));
      PutGetOthers(s.players, c.id, NewPlayer(c.id, n, position));
      Outcome(
        s.(players := p, playerCounter := n),
        [ Emit(Caller, Init(c.id, position)),
          Emit(Others, Players(p)),
          Emit(Caller, Players(p)),
          Emit(Caller, GenresUpdate(s.genres)) ])
  }

  /** `setName` and `setShape`: the caller's own body, if it has one, gets the new field; all hear the registry. */
  function OnSetField(s: State, c: Conn, f: Body -> Body): (r: Outcome)
    ensures r.state == s.(players := r.state.players)
    ensures Keys(r.state.players) == Keys(s.players)
    ensures forall k :: k != c.id ==> Get(r.state.players, k) == Get(s.players, k)
    ensures Get(s.players, c.id).Some? ==>
      && Get(r.state.players, c.id) == Some(f(Get(s.players, c.id).value))
      && r.emits == [Emit(Everyone, Players(r.state.players))]
    ensures Get(s.players, c.id).None? ==> r == Outcome(s, [])
  {
    if Get(s.players, c.id).Some? then
      var p := ModifyBody(s.players, c.id, f);
      Outcome(s.(players := p), [Emit(Everyone, Players(p))])
    else Outcome(s, [])
  }

  function Rename(name: string): Body -> Body
  {
    (b: Body) => b.(name := name)
  }

  function Reshape(shape: string): Body -> Body
  {
    (b: Body) => b.(shape := shape)
  }

  /** `moveInput`: the input, scaled by the acceleration, is added to the velocity. */
  function Push(input: Vec): Body -> Body
  {
    (b: Body) => b.(velocity := Add(b.velocity, Scale(Acceleration, input)))
  }

  /** `updatePlayerPosition`: the body is put at `position` and stopped. */
  function Place(position: Vec): Body -> Body
  {
    (b: Body) => b.(position := position, velocity := Zero)
  }

  /** `moveInput`: the caller's velocity grows by `1.2 * input`; nothing is emitted. */
  function OnMoveInput(s: State, c: Conn, input: Vec): (r: Outcome)
    ensures r.emits == []
    ensures r.state == s.(players := r.state.players)
    ensures Keys(r.state.players) == Keys(s.players)
    ensures forall k :: k != c.id ==> Get(r.state.players, k) == Get(s.players, k)
    ensures Get(s.players, c.id).Some? ==>
      var b := Get(s.players, c.id).value;
      && Get(r.state.players, c.id).Some?
      && var b' := Get(r.state.players, c.id).value;
         && b'.velocity == Add(b.velocity, Scale(Acceleration, input))
         && b' == b.(velocity := b'.velocity)
    ensures Get(s.players, c.id).None? ==> r.state == s
  {
    var p := ModifyBody(s.players, c.id, Push(input));
    Outcome(s.(players := p), [])
  }

  /** A position pulled into `[30, width - 30] x [30, height - 30]`. */
  function ClampPosition(bounds: Bounds, p: Vec): Vec
  {
    Vec(Clamp(BallRadius, bounds.width - BallRadius, p.x),
        Clamp(BallRadius, bounds.height - BallRadius, p.y))
  }

  /**
    `updateBounds`: from a view, the new bounds are stored, every centre is
    clamped into them and everyone hears the new size; from a controller,
    nothing happens.
  */
  function OnUpdateBounds(s: State, c: Conn, width: real, height: real): (r: Outcome)
    ensures !c.isViewer ==> r == Outcome(s, [])
    ensures c.isViewer ==>
      && r.state == s.(players := r.state.players, bounds := Bounds(width, height))
      && SameBodies(s.players, r.state.players)
      && (forall i :: 0 <= i < |s.players| ==>
            && r.state.players[i].1.velocity == s.players[i].1.velocity
            && r.state.players[i].1.position.x == Clamp(BallRadius, width - BallRadius, s.players[i].1.position.x)
            && r.state.players[i].1.position.y == Clamp(BallRadius, height - BallRadius, s.players[i].1.position.y)
            && (ContactDistance <= width ==>
                  BallRadius <= r.state.players[i].1.position.x <= width - BallRadius)
            && (ContactDistance <= height ==>
                  BallRadius <= r.state.players[i].1.position.y <= height - BallRadius))
      && r.emits == [Emit(Everyone, BoundsUpdate(width, height))]
  {
    if c.isViewer then
      var bounds := Bounds(width, height);
      var p := MapValues(s.players, (b: Body) => b.(position := ClampPosition(bounds, b.position)));
      Outcome(s.(players := p, bounds := bounds), [Emit(Everyone, BoundsUpdate(width, height))])
    else Outcome(s, [])
  }

  /** A body already inside the new bounds keeps its position under `updateBounds`. */
  lemma UpdateBoundsKeepsInside(s: State, c: Conn, width: real, height: real, i: int)
    requires c.isViewer
    requires 0 <= i < |s.players|
    requires BallRadius <= s.players[i].1.position.x <= width - BallRadius
    requires BallRadius <= s.players[i].1.position.y <= height - BallRadius
    ensures OnUpdateBounds(s, c, width, height).state.players[i] == s.players[i]
  {
  }

  /** `String(g).toUpperCase().trim()` */
  function NormalizeGenre(g: string): string
  {
    Trim(ToUpper(g))
  }

  /** The server's normalisation of each name, in order. */
  function NormalizeGenres(g: seq<string>): (r: seq<string>)
    ensures |r| == |g|
    ensures forall i :: 0 <= i < |g| ==> r[i] == NormalizeGenre(g[i])
  {
    seq(|g|, i requires 0 <= i < |g| => NormalizeGenre(g[i]))
  }

  /** A name is unchanged by the server's normalisation exactly when it is upper-case and trimmed. */
  lemma NormalizeGenreFixed(g: string)
    ensures NormalizeGenre(g) == g <==> ToUpper(g) == g && Trim(g) == g
    ensures NormalizeGenre(NormalizeGenre(g)) == NormalizeGenre(g)
  {
    var u := ToUpper(g);
    var n := Trim(u);
    UpperIdempotent(g);
    TrimToUpper(u);
    TrimIdempotent(u);
    assert ToUpper(n) == n;
  }

  /**
    `updateGenres`: only a view sending an array of exactly eight names has
    an effect. The names are stored upper-cased and trimmed, in order,
    saved to the configuration file and sent to everyone.
  */
  function OnUpdateGenres(s: State, c: Conn, payload: GenresPayload): (r: Outcome)
    ensures !(c.isViewer && payload.Array? && |payload.items| == GenreCount) ==> r == Outcome(s, [])
    ensures c.isViewer && payload.Array? && |payload.items| == GenreCount ==>
      && r.state == s.(genres := r.state.genres, config := SaveGenres(s.config, r.state.genres))
      && |r.state.genres| == GenreCount
      && (forall i :: 0 <= i < GenreCount ==> r.state.genres[i] == ToUpper(Trim(payload.items[i])))
      && r.emits == [Emit(Everyone, GenresUpdate(r.state.genres))]
  {
    if c.isViewer && payload.Array? && |payload.items| == GenreCount then
      var g := NormalizeGenres(payload.items);
      NormalizeGenresCommute(payload.items);
      Outcome(s.(genres := g, config := SaveGenres(s.config, g)), [Emit(Everyone, GenresUpdate(g))])
    else Outcome(s, [])
  }

  /** Upper-casing then trimming is trimming then upper-casing, name by name. */
  lemma NormalizeGenresCommute(g: seq<string>)
    ensures forall i :: 0 <= i < |g| ==> NormalizeGenres(g)[i] == ToUpper(Trim(g[i]))
  {
    forall i | 0 <= i < |g|
      ensures NormalizeGenres(g)[i] == ToUpper(Trim(g[i]))
    {
      TrimToUpper(g[i]);
    }
  }

  /**
    Every stored name is trimmed and has no lower-case ASCII letter, and a
    restart reloads the stored list from the saved file.
  */
  lemma UpdateGenresStored(s: State, c: Conn, payload: GenresPayload)
    requires c.isViewer && payload.Array? && |payload.items| == GenreCount
    requires Writable(s.config)
    ensures
      var g := OnUpdateGenres(s, c, payload).state.genres;
      && (forall i, k :: 0 <= i < |g| && 0 <= k < |g[i]| ==> !('a' <= g[i][k] <= 'z'))
      && (forall i :: 0 <= i < |g| ==> Trim(g[i]) == g[i])
      && LoadGenres(OnUpdateGenres(s, c, payload).state.config) == g
  {
    var r := OnUpdateGenres(s, c, payload);
    var g := r.state.genres;
    forall i | 0 <= i < |g|
      ensures forall k :: 0 <= k < |g[i]| ==> !('a' <= g[i][k] <= 'z')
      ensures Trim(g[i]) == g[i]
    {
      NormalizeGenreFixed(payload.items[i]);
      ToUpperProperties(Trim(payload.items[i]));
    }
    SaveThenLoad(s.config, g);
  }

  /**
    `updatePlayerPosition`: any connection may move an existing body; its
    velocity is reset to zero. An unknown id changes nothing.
  */
  function OnUpdatePlayerPosition(s: State, playerId: string, position: Vec): (r: Outcome)
    ensures r.state == s.(players := r.state.players)
    ensures Keys(r.state.players) == Keys(s.players)
    ensures forall k :: k != playerId ==> Get(r.state.players, k) == Get(s.players, k)
    ensures Get(s.players, playerId).Some? ==>
      && Get(r.state.players, playerId)
         == Some(Get(s.players, playerId).value.(position := position, velocity := Zero))
      && r.emits == [Emit(Everyone, Players(r.state.players))]
    ensures Get(s.players, playerId).None? ==> r == Outcome(s, [])
  {
    if Get(s.players, playerId).Some? then
      var p := ModifyBody(s.players, playerId, Place(position));
      Outcome(s.(players := p), [Emit(Everyone, Players(p))])
    else Outcome(s, [])
  }

  /** `addBot`: from a view, a fresh numbered bot under `bot-<now>-<suffix>`; everyone hears the registry. */
  function OnAddBot(s: State, c: Conn, now: nat, suffix: nat, spawn: Vec): (r: Outcome)
    ensures !c.isViewer ==> r == Outcome(s, [])
    ensures c.isViewer ==>
      var id := BotId(now, suffix);
      && r.state == s.(players := r.state.players, playerCounter := s.playerCounter + 1)
      && (forall k :: k != id ==> Get(r.state.players, k) == Get(s.players, k))
      && (id !in Keys(s.players) ==> Keys(r.state.players) == Keys(s.players) + [id])
      && Get(r.state.players, id).Some?
      && var b := Get(r.state.players, id).value;
         && b.isBot && b.id == id && b.playerNumber == r.state.playerCounter
         && b.name == "Bubble " + Decimal(r.state.playerCounter) && b.shape == "circle"
         && b.position == SpawnPosition(s.bounds, spawn) && b.velocity == Zero
         && r.emits == [Emit(Everyone, Players(r.state.players))]
  {
    if c.isViewer then
      var id := BotId(now, suffix);
      var n := s.playerCounter + 1;
      var b := NewBot(id, n, SpawnPosition(s.bounds, spawn));
      PutGetOthers(s.players, id, b);
      var p := Put(s.players, id, b);
      Outcome(s.(players := p, playerCounter := n), [Emit(Everyone, Players(p))])
    else Outcome(s, [])
  }

  function IsBot(b: Body): bool { b.isBot }

  function IsHuman(b: Body): bool { !b.isBot }

  /** `Object.keys(players).filter(id => players[id].isBot)` */
  function BotIds(p: Entries): (r: seq<string>)
    ensures forall k :: k in r <==> exists e :: e in p && e.0 == k && e.1.isBot
  {
    var bots := Filter(p, IsBot);
    assert forall k :: k in Keys(bots) <==> exists e :: e in bots && e.0 == k by {
      forall k | k in Keys(bots) ensures exists e :: e in bots && e.0 == k {
        var i :| 0 <= i < |bots| && Keys(bots)[i] == k;
        assert bots[i] in bots;
      }
      forall k, e | e in bots && e.0 == k ensures k in Keys(bots) {
        var i :| 0 <= i < |bots| && bots[i] == e;
        assert Keys(bots)[i] == k;
      }
    }
    Keys(bots)
  }

  /**
    `removeBot`: from a view, the bot whose key comes last in key order is
    deleted and everyone hears of it; with no bot, or from a controller,
    nothing happens.
  */
  function OnRemoveBot(s: State, c: Conn): (r: Outcome)
    ensures !c.isViewer || BotIds(s.players) == [] ==> r == Outcome(s, [])
  {
    var ids := BotIds(s.players);
    if c.isViewer && |ids| > 0 then
      var last := ids[|ids| - 1];
      var p := Remove(s.players, last);
      Outcome(s.(players := p), [Emit(Everyone, PlayerDisconnected(last)), Emit(Everyone, Players(p))])
    else Outcome(s, [])
  }

  /**
    In a valid state, a view's `removeBot` cuts out exactly the entry at
    the highest index that holds a bot, and announces that entry's id.
  */
  lemma RemoveBotLast(s: State, c: Conn) returns (i: int)
    requires Valid(s)
    requires c.isViewer
    requires exists e :: e in s.players && e.1.isBot
    ensures 0 <= i < |s.players| && s.players[i].1.isBot
    ensures forall j :: i < j < |s.players| ==> !s.players[j].1.isBot
    ensures OnRemoveBot(s, c).state == s.(players := s.players[..i] + s.players[i + 1..])
    ensures OnRemoveBot(s, c).emits ==
      [ Emit(Everyone, PlayerDisconnected(s.players[i].0)),
        Emit(Everyone, Players(s.players[..i] + s.players[i + 1..])) ]
  {
    var e :| e in s.players && e.1.isBot;
    assert e in Filter(s.players, IsBot);
    i := LastBot(s.players);
  }

  /** The last bot id names the bot at the highest index, and deleting it cuts out that entry. */
  lemma LastBot(p: Entries) returns (i: int)
    requires UniqueKeys(p)
    requires Filter(p, IsBot) != []
    ensures 0 <= i < |p| && p[i].1.isBot
    ensures forall j :: i < j < |p| ==> !p[j].1.isBot
    ensures |BotIds(p)| > 0 && BotIds(p)[|BotIds(p)| - 1] == p[i].0
    ensures Remove(p, p[i].0) == p[..i] + p[i + 1..]
  {
    var bots := Filter(p, IsBot);
    i := FilterLast(p, IsBot);
    assert BotIds(p) == Keys(bots);
    assert Keys(bots)[|bots| - 1] == bots[|bots| - 1].0;
    RemoveAt(p, i);
  }

  /**
    `clearBots`: from a view, every bot is deleted and announced, in key
    order, and then everyone hears the registry; every other body stays,
    in order.
  */
  function OnClearBots(s: State, c: Conn): (r: Outcome)
    ensures !c.isViewer ==> r == Outcome(s, [])
    ensures c.isViewer ==>
      && r.state == s.(players := r.state.players)
      && (forall e :: e in r.state.players <==> e in s.players && !e.1.isBot)
      && |r.emits| == |BotIds(s.players)| + 1
      && (forall k :: 0 <= k < |BotIds(s.players)| ==>
            r.emits[k] == Emit(Everyone, PlayerDisconnected(BotIds(s.players)[k])))
      && r.emits[|r.emits| - 1] == Emit(Everyone, Players(r.state.players))
  {
    if c.isViewer then
      var ids := BotIds(s.players);
      var p := Filter(s.players, IsHuman);
      var gone := seq(|ids|, k requires 0 <= k < |ids| => Emit(Everyone, PlayerDisconnected(ids[k])));
      Outcome(s.(players := p), gone + [Emit(Everyone, Players(p))])
    else Outcome(s, [])
  }

  /**
    `clearBots` keeps key order: the bodies left are the entries without
    the bot flag, at increasing indices, and the `playerDisconnected`
    messages name the bot entries at increasing indices, one each.
  */
  lemma ClearBotsOrder(s: State, c: Conn) returns (kept: seq<nat>, bots: seq<nat>)
    requires c.isViewer
    ensures Selects(s.players, IsHuman, kept) && Selects(s.players, IsBot, bots)
    ensures |OnClearBots(s, c).state.players| == |kept|
    ensures forall j :: 0 <= j < |kept| ==> OnClearBots(s, c).state.players[j] == s.players[kept[j]]
    ensures |OnClearBots(s, c).emits| == |bots| + 1
    ensures forall k :: 0 <= k < |bots| ==>
              OnClearBots(s, c).emits[k] == Emit(Everyone, PlayerDisconnected(s.players[bots[k]].0))
  {
    kept := FilterIndex(s.players, IsHuman);
    bots := FilterIndex(s.players, IsBot);
    assert BotIds(s.players) == Keys(Filter(s.players, IsBot));
  }

  /** `disconnect`: the caller's own body, if any, is deleted and everyone hears of it. */
  function OnDisconnect(s: State, c: Conn): (r: Outcome)
    ensures r.state == s.(players := r.state.players)
    ensures forall e :: e in r.state.players <==> e in s.players && e.0 != c.id
    ensures c.id !in Keys(r.state.players)
    ensures Get(s.players, c.id).Some? ==> r.emits == [Emit(Everyone, PlayerDisconnected(c.id))]
    ensures Get(s.players, c.id).None? ==> r == Outcome(s, [])
  {
    if Get(s.players, c.id).Some? then
      var p := Remove(s.players, c.id);
      RemoveGone(s.players, c.id);
      Outcome(s.(players := p), [Emit(Everyone, PlayerDisconnected(c.id))])
    else
      RemoveAbsent(s.players, c.id);
      RemoveGone(s.players, c.id);
      Outcome(s, [])
  }

  // ---------------------------------------------------------------------
  // Dispatch

  /**
    One socket event on connection `c`. Only `updateBounds` moves the walls,
    only `updateGenres` touches the genres and the file, and only
    `connection` and `addBot` advance the player counter, by one.
  */
  function Step(s: State, c: Conn, e: Event): (r: Outcome)
    ensures !e.UpdateBounds? ==> r.state.bounds == s.bounds
    ensures !e.UpdateGenres? ==> r.state.genres == s.genres && r.state.config == s.config
    ensures !(e.Connect? || e.AddBot?) ==> r.state.playerCounter == s.playerCounter
    ensures r.state.playerCounter == s.playerCounter || r.state.playerCounter == s.playerCounter + 1
  {
    match e
    case Connect(spawn) => OnConnect(s, c, spawn)
    case SetName(name) => OnSetField(s, c, Rename(name))
    case SetShape(shape) => OnSetField(s, c, Reshape(shape))
    case MoveInput(input) => OnMoveInput(s, c, input)
    case UpdateBounds(width, height) => OnUpdateBounds(s, c, width, height)
    case PromptUpdate(prompt) => Outcome(s, [Emit(Everyone, PromptBroadcast(prompt))])
    case UpdateGenres(payload) => OnUpdateGenres(s, c, payload)
    case UpdatePlayerPosition(playerId, position) => OnUpdatePlayerPosition(s, playerId, position)
    case AddBot(now, suffix, spawn) => OnAddBot(s, c, now, suffix, spawn)
    case RemoveBot => OnRemoveBot(s, c)
    case ClearBots => OnClearBots(s, c)
    case Disconnect => OnDisconnect(s, c)
  }

  /** `runPhysicsLoop`: one physics tick, then everyone receives the registry. */
  function RunPhysicsLoop(s: State, sqrt: real -> real): (r: Outcome)
    ensures r.state == s.(players := r.state.players)
    ensures SameBodies(s.players, r.state.players)
    ensures r.emits == [Emit(Everyone, PhysicsUpdate(r.state.players))]
  {
    var p := UpdatePhysics(s.players, s.bounds, sqrt);
    Outcome(s.(players := p), [Emit(Everyone, PhysicsUpdate(p))])
  }

  // ---------------------------------------------------------------------
  // Properties of the whole machine

  /** Every event keeps the registry invariant. */
  lemma StepValid(s: State, c: Conn, e: Event)
    requires Valid(s)
    ensures Valid(Step(s, c, e).state)
  {
    match e
    case Connect(spawn) =>
      PlayerDispatch(s, c, e);
      ConnectValid(s, c, spawn);
    case SetName(name) =>
      PlayerDispatch(s, c, e);
      SetFieldValid(s, c, Rename(name));
    case SetShape(shape) =>
      PlayerDispatch(s, c, e);
      SetFieldValid(s, c, Reshape(shape));
    case MoveInput(input) =>
      PlayerDispatch(s, c, e);
      MoveInputValid(s, c, input);
    case UpdateBounds(width, height) =>
      ViewerDispatch(s, c, e);
      UpdateBoundsValid(s, c, width, height);
    case PromptUpdate(prompt) =>
      ViewerDispatch(s, c, e);
    case UpdateGenres(payload) =>
      ViewerDispatch(s, c, e);
      UpdateGenresValid(s, c, payload);
    case UpdatePlayerPosition(playerId, position) =>
      ViewerDispatch(s, c, e);
      UpdatePlayerPositionValid(s, playerId, position);
    case AddBot(now, suffix, spawn) =>
      BotDispatch(s, c, e);
      AddBotValid(s, c, now, suffix, spawn);
    case RemoveBot =>
      BotDispatch(s, c, e);
      RemoveBotValid(s, c);
    case ClearBots =>
      BotDispatch(s, c, e);
      ClearBotsValid(s, c);
    case Disconnect =>
      BotDispatch(s, c, e);
      DisconnectValid(s, c);
  }

  /** The handler each controller event reaches. */
  lemma PlayerDispatch(s: State, c: Conn, e: Event)
    ensures e.Connect? ==> Step(s, c, e) == OnConnect(s, c, e.spawn)
    ensures e.SetName? ==> Step(s, c, e) == OnSetField(s, c, Rename(e.name))
    ensures e.SetShape? ==> Step(s, c, e) == OnSetField(s, c, Reshape(e.shape))
    ensures e.MoveInput? ==> Step(s, c, e) == OnMoveInput(s, c, e.input)
  {
  }

  /** The handler each size, genre or drag event reaches, and that a prompt leaves the state alone. */
  lemma ViewerDispatch(s: State, c: Conn, e: Event)
    ensures e.UpdateBounds? ==> Step(s, c, e) == OnUpdateBounds(s, c, e.width, e.height)
    ensures e.PromptUpdate? ==> Step(s, c, e).state == s
    ensures e.UpdateGenres? ==> Step(s, c, e) == OnUpdateGenres(s, c, e.payload)
    ensures e.UpdatePlayerPosition? ==> Step(s, c, e) == OnUpdatePlayerPosition(s, e.playerId, e.position)
  {
  }

  /** The handler each bot event and a disconnect reach. */
  lemma BotDispatch(s: State, c: Conn, e: Event)
    ensures e.AddBot? ==> Step(s, c, e) == OnAddBot(s, c, e.now, e.suffix, e.spawn)
    ensures e.RemoveBot? ==> Step(s, c, e) == OnRemoveBot(s, c)
    ensures e.ClearBots? ==> Step(s, c, e) == OnClearBots(s, c)
    ensures e.Disconnect? ==> Step(s, c, e) == OnDisconnect(s, c)
  {
  }

  lemma ConnectValid(s: State, c: Conn, spawn: Vec)
    requires Valid(s)
    ensures Valid(OnConnect(s, c, spawn).state)
  {
    if !c.isViewer {
      var n := s.playerCounter + 1;
      var b := NewPlayer(c.id, n, SpawnPosition(s.bounds, spawn));
      ConnectState(s, c, spawn);
      NextNumberKeepsValid(s, c.id, b);
    }
  }

  lemma SetFieldValid(s: State, c: Conn, f: Body -> Body)
    requires Valid(s)
    requires forall b :: f(b).id == b.id && f(b).playerNumber == b.playerNumber
    ensures Valid(OnSetField(s, c, f).state)
  {
    ModifyKeepsValid(s, c.id, f);
  }

  lemma MoveInputValid(s: State, c: Conn, input: Vec)
    requires Valid(s)
    ensures Valid(OnMoveInput(s, c, input).state)
  {
    ModifyKeepsValid(s, c.id, Push(input));
  }

  lemma UpdateBoundsValid(s: State, c: Conn, width: real, height: real)
    requires Valid(s)
    ensures Valid(OnUpdateBounds(s, c, width, height).state)
  {
    if c.isViewer {
      SameBodiesValid(s.(bounds := Bounds(width, height)), OnUpdateBounds(s, c, width, height).state.players);
    }
  }

  lemma DisconnectValid(s: State, c: Conn)
    requires Valid(s)
    ensures Valid(OnDisconnect(s, c).state)
  {
    RemoveKeepsValid(s, c.id);
  }

  lemma UpdateGenresValid(s: State, c: Conn, payload: GenresPayload)
    requires Valid(s)
    ensures Valid(OnUpdateGenres(s, c, payload).state)
  {
  }

  lemma UpdatePlayerPositionValid(s: State, playerId: string, position: Vec)
    requires Valid(s)
    ensures Valid(OnUpdatePlayerPosition(s, playerId, position).state)
  {
    ModifyKeepsValid(s, playerId, Place(position));
  }

  lemma AddBotValid(s: State, c: Conn, now: nat, suffix: nat, spawn: Vec)
    requires Valid(s)
    ensures Valid(OnAddBot(s, c, now, suffix, spawn).state)
  {
    if c.isViewer {
      var n := s.playerCounter + 1;
      var id := BotId(now, suffix);
      var b := NewBot(id, n, SpawnPosition(s.bounds, spawn));
      AddBotState(s, c, now, suffix, spawn);
      NextNumberKeepsValid(s, id, b);
    }
  }

  /** A controller's `connection` stores a fresh body under the next player number. */
  lemma ConnectState(s: State, c: Conn, spawn: Vec)
    requires !c.isViewer
    ensures OnConnect(s, c, spawn).state ==
      s.(players := Put(s.players, c.id, NewPlayer(c.id, s.playerCounter + 1, SpawnPosition(s.bounds, spawn))),
         playerCounter := s.playerCounter + 1)
  {
  }

  /** A viewer's `addBot` stores a fresh bot under the next player number. */
  lemma AddBotState(s: State, c: Conn, now: nat, suffix: nat, spawn: Vec)
    requires c.isViewer
    ensures OnAddBot(s, c, now, suffix, spawn).state ==
      s.(players := Put(s.players, BotId(now, suffix), NewBot(BotId(now, suffix), s.playerCounter + 1, SpawnPosition(s.bounds, spawn))),
         playerCounter := s.playerCounter + 1)
  {
  }

  lemma RemoveBotValid(s: State, c: Conn)
    requires Valid(s)
    ensures Valid(OnRemoveBot(s, c).state)
  {
    var ids := BotIds(s.players);
    if c.isViewer && |ids| > 0 {
      RemoveKeepsValid(s, ids[|ids| - 1]);
    }
  }

  lemma ClearBotsValid(s: State, c: Conn)
    requires Valid(s)
    ensures Valid(OnClearBots(s, c).state)
  {
    if c.isViewer {
      FilterUnique(s.players, IsHuman);
    }
  }

  /** A physics tick keeps the registry invariant. */
  lemma RunPhysicsLoopValid(s: State, sqrt: real -> real)
    requires Valid(s)
    ensures Valid(RunPhysicsLoop(s, sqrt).state)
  {
    SameBodiesValid(s, RunPhysicsLoop(s, sqrt).state.players);
  }

  /** Storing a body under its own id, with a number no other entry has, keeps the invariant. */
  lemma PutKeepsValid(s: State, k: string, b: Body, counter: nat)
    requires Valid(s)
    requires b.id == k && 1 <= b.playerNumber <= counter && s.playerCounter <= counter
    requires forall e :: e in s.players && e.0 != k ==> e.1.playerNumber != b.playerNumber
    ensures Valid(s.(players := Put(s.players, k, b), playerCounter := counter))
  {
    PutUnique(s.players, k, b);
    PutMembers(s.players, k, b);
  }

  /** Storing a body under the next player number keeps the invariant. */
  lemma NextNumberKeepsValid(s: State, k: string, b: Body)
    requires Valid(s)
    requires b.id == k && b.playerNumber == s.playerCounter + 1
    ensures Valid(s.(players := Put(s.players, k, b), playerCounter := s.playerCounter + 1))
  {
    forall e | e in s.players && e.0 != k
      ensures e.1.playerNumber != b.playerNumber
    {
      assert e.1.playerNumber <= s.playerCounter;
    }
    PutKeepsValid(s, k, b, s.playerCounter + 1);
  }

  /** Changing a body without touching its id or number keeps the invariant. */
  lemma ModifyKeepsValid(s: State, id: string, f: Body -> Body)
    requires Valid(s)
    requires forall b :: f(b).id == b.id && f(b).playerNumber == b.playerNumber
    ensures Valid(s.(players := ModifyBody(s.players, id, f)))
  {
    match Get(s.players, id)
    case Some(b) =>
      assert (id, b) in s.players;
      PutKeepsValid(s, id, f(b), s.playerCounter);
    case None =>
  }

  /** Deleting a key keeps the invariant. */
  lemma RemoveKeepsValid(s: State, k: string)
    requires Valid(s)
    ensures Valid(s.(players := Remove(s.players, k)))
  {
    RemoveUnique(s.players, k);
  }

  /** Replacing positions and velocities only, key by key, keeps the invariant. */
  lemma SameBodiesValid(s: State, p: Entries)
    requires Valid(s)
    requires SameBodies(s.players, p)
    ensures Valid(s.(players := p))
  {
    forall e | e in p
      ensures exists i :: 0 <= i < |s.players| && e.0 == s.players[i].0 && SameIdentity(s.players[i].1, e.1)
    {
      var i :| 0 <= i < |p| && p[i] == e;
    }
    forall e | e in p
      ensures e.1.id == e.0 && 1 <= e.1.playerNumber <= s.playerCounter
    {
      var i :| 0 <= i < |s.players| && e.0 == s.players[i].0 && SameIdentity(s.players[i].1, e.1);
      assert s.players[i] in s.players;
    }
    forall e1, e2 | e1 in p && e2 in p && e1.0 != e2.0
      ensures e1.1.playerNumber != e2.1.playerNumber
    {
      var i :| 0 <= i < |s.players| && e1.0 == s.players[i].0 && SameIdentity(s.players[i].1, e1.1);
      var j :| 0 <= j < |s.players| && e2.0 == s.players[j].0 && SameIdentity(s.players[j].1, e2.1);
      assert s.players[i] in s.players && s.players[j] in s.players;
    }
  }

  /** The view-only events do nothing at all when a controller sends them. */
  lemma ViewOnlyEvents(s: State, c: Conn, e: Event)
    requires !c.isViewer
    requires e.UpdateBounds? || e.UpdateGenres? || e.AddBot? || e.RemoveBot? || e.ClearBots?
    ensures Step(s, c, e) == Outcome(s, [])
  {
  }

  /**
    `updatePlayerPosition` and `promptUpdate` behave the same whoever sends
    them: neither checks that the sender is a view.
  */
  lemma UnguardedEvents(s: State, c1: Conn, c2: Conn, e: Event)
    requires e.UpdatePlayerPosition? || e.PromptUpdate?
    ensures Step(s, c1, e) == Step(s, c2, e)
    ensures e.PromptUpdate? ==> Step(s, c1, e) == Outcome(s, [Emit(Everyone, PromptBroadcast(e.prompt))])
  {
  }
}

=== FILE: serverview.dfy ===
/**
  The server view (server-view.js) as a state machine over what it keeps
  locally: the registry as it last saw it (less its own id), the canvas
  size, the genre names, the body being dragged and the zone percentages
  with their history. Also the genre form it submits to the server.
*/
module ServerView {
  import opened Common
  import opened Geometry
  import opened Assoc
  import opened Text
  import opened Physics
  import opened Zones
  import StatsView
  import Server

  /** A dragged centre stays this far inside the canvas. */
  const DragMargin: real := 30.0

  datatype View = View(
    players: Entries,
    canvas: Bounds,
    genres: seq<string>,
    dragged: Option<string>,
    dragOffset: Vec,
    currentPercentages: seq<real>,
    history: seq<seq<real>>)

  /** The view's own socket id; `None` while it has none, when no key equals it. */
  type SelfId = Option<string>

  predicate IsSelf(self: SelfId, k: string)
  {
    self.Some? && k == self.value
  }

  // ---------------------------------------------------------------------
  // Snapshots

  /** The snapshot's entries under every key but the view's own, in snapshot order. */
  function Others(snapshot: Entries, self: SelfId): (r: Entries)
    ensures forall e :: e in r <==> e in snapshot && !IsSelf(self, e.0)
  {
    if |snapshot| == 0 then []
    else
      var rest := Others(snapshot[1..], self);
      assert forall e :: e in snapshot <==> e == snapshot[0] || e in snapshot[1..];
      if IsSelf(self, snapshot[0].0) then rest else [snapshot[0]] + rest
  }

  /** Filtering out the own id is deleting it, as `delete` would. */
  lemma {:induction false} OthersIsRemove(snapshot: Entries, self: SelfId)
    ensures self.None? ==> Others(snapshot, self) == snapshot
    ensures self.Some? ==> Others(snapshot, self) == Remove(snapshot, self.value)
  {
    if |snapshot| > 0 {
      OthersIsRemove(snapshot[1..], self);
    }
  }

  /** Reading a key of the filtered snapshot reads the snapshot, except for the own id. */
  lemma {:induction false} GetOthers(snapshot: Entries, self: SelfId, k: string)
    ensures Get(Others(snapshot, self), k) == if IsSelf(self, k) then None else Get(snapshot, k)
  {
    if |snapshot| > 0 {
      GetOthers(snapshot[1..], self, k);
      if IsSelf(self, k) {
        assert k !in Keys(Others(snapshot, self)) by {
          var o := Others(snapshot, self);
          forall i | 0 <= i < |o| ensures Keys(o)[i] != k {
            assert o[i] in o;
          }
        }
      }
    }
  }

  /** `updateStats`: the zone percentages of every local body on the current canvas. */
  function UpdateStats(v: View): (r: View)
    ensures r == v.(currentPercentages := r.currentPercentages)
    ensures |r.currentPercentages| == ZoneCount
    ensures forall z :: 0 <= z < ZoneCount ==>
      r.currentPercentages[z]
        == Percentage(CountZone(v.players, None, v.canvas.width, v.canvas.height, z),
                      CountAll(v.players, None, v.canvas.width, v.canvas.height))
  {
    v.(currentPercentages := ZoneStats(v.players, None, v.canvas.width, v.canvas.height))
  }

  /** The percentages `updateStats` leaves: all 0 with no body on the canvas, otherwise summing to 100. */
  lemma UpdateStatsSum(v: View)
    ensures
      var p := UpdateStats(v).currentPercentages;
      && (CountAll(v.players, None, v.canvas.width, v.canvas.height) == 0 ==> forall i :: 0 <= i < ZoneCount ==> p[i] == 0.0)
      && (CountAll(v.players, None, v.canvas.width, v.canvas.height) > 0 ==> SumReal(p) == 100.0)
      && (forall i :: 0 <= i < ZoneCount ==> 0.0 <= p[i] <= 100.0)
  {
    ZoneStatsSum(v.players, None, v.canvas.width, v.canvas.height);
  }

  /** `players`: the local registry becomes the snapshot without the view's own id. */
  function OnPlayers(v: View, snapshot: Entries, self: SelfId): (r: View)
    ensures r == UpdateStats(v.(players := r.players))
    ensures forall k :: Get(r.players, k) == if IsSelf(self, k) then None else Get(snapshot, k)
    ensures self.Some? ==> Keys(r.players) == Keys(Remove(snapshot, self.value))
    ensures self.None? ==> r.players == snapshot
  {
    var p := Others(snapshot, self);
    forall k ensures Get(p, k) == if IsSelf(self, k) then None else Get(snapshot, k) {
      GetOthers(snapshot, self, k);
    }
    OthersIsRemove(snapshot, self);
    UpdateStats(v.(players := p))
  }

  /** The dragged id, when it is set and the snapshot keeps it. */
  predicate HoldsDragged(v: View, kept: Entries)
  {
    v.dragged.Some? && v.dragged.value in Keys(kept)
  }

  /**
    `physicsUpdate`: like `players`, except that the body being dragged
    keeps its local value. When the dragged id has no local body the
    handler stores `undefined` and `updateStats` then fails on it; that
    outcome is `None`.
  */
  function OnPhysicsUpdate(v: View, snapshot: Entries, self: SelfId): (r: Option<View>)
    ensures r.None? <==> HoldsDragged(v, Others(snapshot, self)) && Get(v.players, v.dragged.value).None?
    ensures r.Some? ==>
      && r.value == UpdateStats(v.(players := r.value.players))
      && Keys(r.value.players) == Keys(Others(snapshot, self))
      && (forall k :: !(v.dragged.Some? && k == v.dragged.value) ==>
            Get(r.value.players, k) == if IsSelf(self, k) then None else Get(snapshot, k))
      && (HoldsDragged(v, Others(snapshot, self)) ==>
            Get(r.value.players, v.dragged.value) == Get(v.players, v.dragged.value))
  {
    var kept := Others(snapshot, self);
    forall k ensures Get(kept, k) == if IsSelf(self, k) then None else Get(snapshot, k) {
      GetOthers(snapshot, self, k);
    }
    if HoldsDragged(v, kept) then
      var d := v.dragged.value;
      match Get(v.players, d)
      case None => None
      case Some(b) =>
        PutGetOthers(kept, d, b);
        Some(UpdateStats(v.(players := Put(kept, d, b))))
    else Some(UpdateStats(v.(players := kept)))
  }

  /** `playerDisconnected`: the id's local body is deleted and nothing else. */
  function OnPlayerDisconnected(v: View, id: string): (r: View)
    ensures r == v.(players := r.players)
    ensures id !in Keys(r.players)
    ensures forall e :: e in r.players <==> e in v.players && e.0 != id
  {
    RemoveGone(v.players, id);
    v.(players := Remove(v.players, id))
  }

  /** `genresUpdate`: the names used for prompts and the form are replaced. */
  function OnGenresUpdate(v: View, genres: seq<string>): (r: View)
    ensures r.genres == genres && r == v.(genres := r.genres)
  {
    v.(genres := genres)
  }

  /** The once-a-second history loop: every line gets its zone's current percentage. */
  function HistoryTick(v: View): (r: View)
    requires |v.history| <= |v.currentPercentages|
    ensures r == v.(history := r.history)
    ensures |r.history| == |v.history|
    ensures forall i :: 0 <= i < |v.history| ==>
      r.history[i] == StatsView.PushPoint(v.history[i], v.currentPercentages[i])
  {
    v.(history := StatsView.UpdateHistoryChart(v.history, v.currentPercentages))
  }

  // ---------------------------------------------------------------------
  // Dragging

  /** The first body, in key order, whose centre is less than `radius` from `mouse`. */
  function Pick(p: Entries, mouse: Vec, radius: real, sqrt: real -> real): (r: Option<nat>)
    ensures r.Some? ==> r.value < |p|
    ensures r.Some? ==> sqrt(NormSq(Sub(mouse, p[r.value].1.position))) < radius
    ensures r.Some? ==> forall j :: 0 <= j < r.value ==> sqrt(NormSq(Sub(mouse, p[j].1.position))) >= radius
    ensures r.None? ==> forall j :: 0 <= j < |p| ==> sqrt(NormSq(Sub(mouse, p[j].1.position))) >= radius
  {
    if |p| == 0 then None
    else if sqrt(NormSq(Sub(mouse, p[0].1.position))) < radius then Some(0)
    else
      match Pick(p[1..], mouse, radius, sqrt)
      case Some(i) => Some(i + 1)
      case None => None
  }

  /**
    With a true square root, the picked body is the first whose centre
    lies within `radius` of the mouse: it is, and no earlier one is.
  */
  lemma {:induction false} PickMeaning(p: Entries, mouse: Vec, radius: real, sqrt: real -> real)
    requires IsSqrt(sqrt) && radius >= 0.0
    ensures Pick(p, mouse, radius, sqrt).Some? ==>
      var i := Pick(p, mouse, radius, sqrt).value;
      && DistSq(p[i].1.position, mouse) < Sq(radius)
      && forall j :: 0 <= j < i ==> DistSq(p[j].1.position, mouse) >= Sq(radius)
    ensures Pick(p, mouse, radius, sqrt).None? ==>
      forall j :: 0 <= j < |p| ==> DistSq(p[j].1.position, mouse) >= Sq(radius)
  {
    if |p| > 0 {
      SqrtCompare(sqrt, NormSq(Sub(mouse, p[0].1.position)), radius);
      PickMeaning(p[1..], mouse, radius, sqrt);
      forall j | 1 <= j < |p| ensures p[j] == p[1..][j - 1] {
      }
    }
  }

  /** `mousedown`: the first body under the pointer becomes the dragged one, with the pointer's offset from its centre. */
  function MouseDown(v: View, mouse: Vec, radius: real, sqrt: real -> real): (r: View)
    ensures Pick(v.players, mouse, radius, sqrt).None? ==> r == v
    ensures Pick(v.players, mouse, radius, sqrt).Some? ==>
      var i := Pick(v.players, mouse, radius, sqrt).value;
      && r == v.(dragged := Some(v.players[i].0), dragOffset := r.dragOffset)
      && Add(v.players[i].1.position, r.dragOffset) == mouse
  {
    match Pick(v.players, mouse, radius, sqrt)
    case None => v
    case Some(i) => v.(dragged := Some(v.players[i].0), dragOffset := Sub(mouse, v.players[i].1.position))
  }

  /** `if (draggedPlayer)`: set and not the empty string. */
  predicate Dragging(v: View)
  {
    v.dragged.Some? && v.dragged.value != ""
  }

  /** Where the dragged centre goes: pointer less offset, pulled into `[30, W - 30] x [30, H - 30]`. */
  function DragTarget(canvas: Bounds, mouse: Vec, offset: Vec): (r: Vec)
    ensures DragMargin <= canvas.width - DragMargin ==> DragMargin <= r.x <= canvas.width - DragMargin
    ensures DragMargin <= canvas.height - DragMargin ==> DragMargin <= r.y <= canvas.height - DragMargin
    ensures DragMargin <= mouse.x - offset.x <= canvas.width - DragMargin ==> r.x == mouse.x - offset.x
    ensures DragMargin <= mouse.y - offset.y <= canvas.height - DragMargin ==> r.y == mouse.y - offset.y
    ensures r.x == Clamp(DragMargin, canvas.width - DragMargin, mouse.x - offset.x)
    ensures r.y == Clamp(DragMargin, canvas.height - DragMargin, mouse.y - offset.y)
  {
    Vec(Clamp(DragMargin, canvas.width - DragMargin, mouse.x - offset.x),
        Clamp(DragMargin, canvas.height - DragMargin, mouse.y - offset.y))
  }

  /**
    `mousemove` while dragging: the dragged body, if it is still known,
    moves with the pointer inside the canvas margins; nothing else changes.
  */
  function DragMove(v: View, mouse: Vec): (r: View)
    ensures r == v.(players := r.players)
    ensures Keys(r.players) == Keys(v.players)
    ensures forall k :: !(Dragging(v) && k == v.dragged.value) ==> Get(r.players, k) == Get(v.players, k)
    ensures Dragging(v) && Get(v.players, v.dragged.value).Some? ==>
      Get(r.players, v.dragged.value)
        == Some(Get(v.players, v.dragged.value).value.(position := DragTarget(v.canvas, mouse, v.dragOffset)))
  {
    if Dragging(v) && Get(v.players, v.dragged.value).Some? then
      var target := DragTarget(v.canvas, mouse, v.dragOffset);
      v.(players := Server.ModifyBody(v.players, v.dragged.value, (b: Body) => b.(position := target)))
    else v
  }

  /**
    `mouseup`: the drag ends; if a known body was being dragged, its
    position is sent as `updatePlayerPosition`.
  */
  function MouseUp(v: View): (r: (View, Option<Server.Event>))
    ensures r.0 == v.(dragged := None)
    ensures r.1.Some? <==> Dragging(v) && Get(v.players, v.dragged.value).Some?
    ensures r.1.Some? ==>
      r.1.value == Server.UpdatePlayerPosition(v.dragged.value, Get(v.players, v.dragged.value).value.position)
  {
    if Dragging(v) && Get(v.players, v.dragged.value).Some? then
      (v.(dragged := None), Some(Server.UpdatePlayerPosition(v.dragged.value, Get(v.players, v.dragged.value).value.position)))
    else (v.(dragged := None), None)
  }

  /**
    A drag followed by a release puts the server's body, when it has one
    under that id, inside the view's canvas margins and at rest.
  */
  lemma DragThenRelease(v: View, mouse: Vec, s: Server.State, c: Server.Conn)
    requires Dragging(v) && Get(v.players, v.dragged.value).Some?
    requires 2.0 * DragMargin <= v.canvas.width && 2.0 * DragMargin <= v.canvas.height
    requires Get(s.players, v.dragged.value).Some?
    ensures MouseUp(DragMove(v, mouse)).1.Some?
    ensures
      var b := Get(Server.Step(s, c, MouseUp(DragMove(v, mouse)).1.value).state.players, v.dragged.value).value;
      && DragMargin <= b.position.x <= v.canvas.width - DragMargin
      && DragMargin <= b.position.y <= v.canvas.height - DragMargin
      && b.velocity == Zero
  {
  }

  // ---------------------------------------------------------------------
  // The genre form

  /** A name trimmed and upper-cased is unchanged by trimming and upper-casing again. */
  lemma SentNameFixed(x: string)
    ensures ToUpper(Trim(ToUpper(Trim(x)))) == ToUpper(Trim(x))
  {
    var t := Trim(x);
    TrimToUpper(t);
    TrimIdempotent(x);
    ToUpperProperties(t);
  }

  /** The value `applyGenres` reads from one field: `input.value.trim().toUpperCase()`. */
  function FieldValue(x: string): (r: string)
    ensures |r| == 0 <==> Trim(x) == []
  {
    ToUpper(Trim(x))
  }

  /**
    The loop of `applyGenres` with `read` for the field value: the values
    that are not empty, and whether none was.
  */
  function Collect(inputs: seq<string>, read: string -> string): (r: (seq<string>, bool))
    ensures |r.0| <= |inputs|
  {
    if |inputs| == 0 then ([], true)
    else
      var (values, filled) := Collect(inputs[..|inputs| - 1], read);
      var value := read(inputs[|inputs| - 1]);
      if |value| == 0 then (values, false) else (values + [value], filled)
  }

  /**
    The loop reports every field filled exactly when no value is empty,
    and then it has collected every field's value, in order.
  */
  lemma {:induction false} CollectMeaning(inputs: seq<string>, read: string -> string)
    ensures Collect(inputs, read).1 <==> forall i :: 0 <= i < |inputs| ==> |read(inputs[i])| != 0
    ensures Collect(inputs, read).1 ==>
      && |Collect(inputs, read).0| == |inputs|
      && forall i :: 0 <= i < |inputs| ==> Collect(inputs, read).0[i] == read(inputs[i])
  {
    if |inputs| > 0 {
      var n := |inputs| - 1;
      var init := inputs[..n];
      CollectMeaning(init, read);
      assert forall i :: 0 <= i < n ==> init[i] == inputs[i];
    }
  }

  /** `applyGenres`: the list sent to the server, if any. */
  function ApplyGenres(inputs: seq<string>): (r: Option<seq<string>>)
    ensures r.Some? ==> |r.value| == 8
    ensures r.Some? ==> |inputs| == 8 && forall i :: 0 <= i < 8 ==> r.value[i] == ToUpper(Trim(inputs[i]))
  {
    CollectMeaning(inputs, FieldValue);
    var (values, filled) := Collect(inputs, FieldValue);
    if !filled || |values| != 8 then None else Some(values)
  }

  /**
    The list is sent exactly when there are eight fields and none is blank
    after trimming, and it holds each field trimmed and upper-cased, in
    field order.
  */
  lemma ApplyGenresMeaning(inputs: seq<string>)
    ensures ApplyGenres(inputs).Some? <==> |inputs| == 8 && forall i :: 0 <= i < |inputs| ==> Trim(inputs[i]) != []
    ensures ApplyGenres(inputs).Some? ==>
      forall i :: 0 <= i < 8 ==> ApplyGenres(inputs).value[i] == ToUpper(Trim(inputs[i]))
  {
    CollectMeaning(inputs, FieldValue);
  }

  /**
    The server stores a list the form sent exactly as sent: its own
    normalisation changes none of the names.
  */
  lemma ApplyGenresAccepted(s: Server.State, c: Server.Conn, inputs: seq<string>)
    requires c.isViewer && ApplyGenres(inputs).Some?
    ensures Server.Step(s, c, Server.UpdateGenres(Server.Array(ApplyGenres(inputs).value))).state.genres
         == ApplyGenres(inputs).value
  {
    var g := ApplyGenres(inputs).value;
    ApplyGenresMeaning(inputs);
    forall i | 0 <= i < 8 ensures ToUpper(Trim(g[i])) == g[i] {
      SentNameFixed(inputs[i]);
    }
    StoredAsSent(s, c, g);
  }

  /** A list of eight names that trimming and upper-casing leave alone is stored as it is. */
  lemma StoredAsSent(s: Server.State, c: Server.Conn, g: seq<string>)
    requires c.isViewer && |g| == 8
    requires forall i :: 0 <= i < 8 ==> ToUpper(Trim(g[i])) == g[i]
    ensures Server.Step(s, c, Server.UpdateGenres(Server.Array(g))).state.genres == g
  {
    Server.ViewerDispatch(s, c, Server.UpdateGenres(Server.Array(g)));
    var o := Server.OnUpdateGenres(s, c, Server.Array(g));
    assert o.state.genres == g;
  }
}

=== FILE: statsview.dfy ===
/**
  The stats dashboard (stats-view.js): the player count and zone
  percentages it shows for each registry snapshot, the rolling history of
  those percentages, the `mm:ss` uptime and the genre keys it derives from
  the server's genre names.
*/
module StatsView {
  import opened Common
  import opened Assoc
  import opened Text
  import opened Physics
  import opened Zones

  /** Points kept per history line: three minutes at one point per second. */
  const MaxDataPoints: nat := 180

  /** The dashboard's own socket id; `None` while it has none. */
  type SelfId = Option<string>

  /** `for (const id in players) if (id !== socket.id) count++` */
  function PlayerCount(p: Entries, self: SelfId): nat
  {
    if |p| == 0 then 0
    else PlayerCount(p[..|p| - 1], self) + (if self.Some? && p[|p| - 1].0 == self.value then 0 else 1)
  }

  /** The count is the number of entries, less one when the dashboard's own id is among them. */
  lemma {:induction false} PlayerCountMeaning(p: Entries, self: SelfId)
    requires UniqueKeys(p)
    ensures self.Some? && self.value in Keys(p) ==> PlayerCount(p, self) == |p| - 1
    ensures self.None? || self.value !in Keys(p) ==> PlayerCount(p, self) == |p|
  {
    if |p| > 0 {
      var q := p[..|p| - 1];
      assert Keys(p) == Keys(q) + [p[|p| - 1].0];
      assert UniqueKeys(q);
      PlayerCountMeaning(q, self);
      if self.Some? && p[|p| - 1].0 == self.value {
        assert self.value !in Keys(q) by {
          forall i | 0 <= i < |q| ensures Keys(q)[i] != self.value {
            assert q[i] == p[i];
          }
        }
      }
    }
  }

  // ---------------------------------------------------------------------
  // Genre keys

  /** `g.toLowerCase().replace(/\s+/g, '')` */
  function GenreKey(g: string): string
  {
    RemoveSpaces(ToLower(g))
  }

  /** The keys of the `genresUpdate` handler: one per name, in order. */
  function GenreKeys(names: seq<string>): (r: seq<string>)
    ensures |r| == |names|
    ensures forall i :: 0 <= i < |names| ==> r[i] == GenreKey(names[i])
  {
    seq(|names|, i requires 0 <= i < |names| => GenreKey(names[i]))
  }

  /**
    A key has no white space and no upper-case ASCII letter, holds every
    other character of the name, and is its own key.
  */
  lemma GenreKeyProperties(g: string)
    ensures forall k :: 0 <= k < |GenreKey(g)| ==> !IsSpace(GenreKey(g)[k]) && !('A' <= GenreKey(g)[k] <= 'Z')
    ensures forall c :: c in g && !IsSpace(c) ==> LowerChar(c) in GenreKey(g)
    ensures GenreKey(GenreKey(g)) == GenreKey(g)
  {
    var r := GenreKey(g);
    var l := ToLower(g);
    forall k | 0 <= k < |r| ensures !('A' <= r[k] <= 'Z') {
      assert r[k] in l;
    }
    forall c | c in g && !IsSpace(c) ensures LowerChar(c) in r {
      var i :| 0 <= i < |g| && g[i] == c;
      assert l[i] == LowerChar(c);
      assert !IsSpace(LowerChar(c));
    }
    assert ToLower(r) == r;
    RemoveSpacesNone(r);
  }

  /**
    A key is the name's characters other than white space, lower-cased,
    in their order and with their repeats.
  */
  lemma GenreKeyOrder(g: string) returns (idx: seq<nat>)
    ensures NonSpaceIndices(g, idx)
    ensures |GenreKey(g)| == |idx|
    ensures forall j :: 0 <= j < |idx| ==> GenreKey(g)[j] == LowerChar(g[idx[j]])
  {
    var l := ToLower(g);
    idx := RemoveSpacesIndex(l);
    forall i | 0 <= i < |g| ensures IsSpace(l[i]) == IsSpace(g[i]) {
      LowerKeepsSpace(g[i]);
    }
  }

  // ---------------------------------------------------------------------
  // Uptime

  /** `Math.floor(elapsed / 60000)` and `Math.floor((elapsed % 60000) / 1000)`. */
  function UptimeParts(elapsed: nat): (r: (nat, nat))
    ensures r.1 < 60
    ensures r.0 * 60000 + r.1 * 1000 <= elapsed < r.0 * 60000 + (r.1 + 1) * 1000
  {
    (elapsed / 60000, (elapsed % 60000) / 1000)
  }

  /** `updateUptime`'s text: minutes and seconds, each padded to two digits, joined by `:`. */
  function FormatUptime(elapsed: nat): (r: string)
    ensures |r| >= 5 && r[|r| - 3] == ':'
    ensures forall k :: 0 <= k < |r| && k != |r| - 3 ==> IsDigit(r[k])
  {
    var (minutes, seconds) := UptimeParts(elapsed);
    PadKeepsValue(Decimal(minutes));
    PadKeepsValue(Decimal(seconds));
    DecimalShort(seconds);
    Joined(PadStart2(Decimal(minutes)), PadStart2(Decimal(seconds)));
    PadStart2(Decimal(minutes)) + ":" + PadStart2(Decimal(seconds))
  }

  /**
    The text reads back as the two parts: at least two digits of minutes,
    a colon, exactly two digits of seconds.
  */
  lemma FormatUptimeReadsBack(elapsed: nat)
    ensures
      var r := FormatUptime(elapsed);
      && |r| >= 5 && r[|r| - 3] == ':'
      && (forall k :: 0 <= k < |r| && k != |r| - 3 ==> IsDigit(r[k]))
      && DecimalValue(r[..|r| - 3]) == UptimeParts(elapsed).0
      && DecimalValue(r[|r| - 2..]) == UptimeParts(elapsed).1
  {
    var minutes, seconds := UptimeParts(elapsed).0, UptimeParts(elapsed).1;
    PadKeepsValue(Decimal(minutes));
    PadKeepsValue(Decimal(seconds));
    DecimalRoundTrip(minutes);
    DecimalRoundTrip(seconds);
    DecimalShort(seconds);
    Joined(PadStart2(Decimal(minutes)), PadStart2(Decimal(seconds)));
  }

  /** The two halves of `m + ":" + s` can be read back from the ends. */
  lemma Joined(m: string, s: string)
    requires |m| >= 2 && |s| == 2
    requires forall k :: 0 <= k < |m| ==> IsDigit(m[k])
    requires forall k :: 0 <= k < |s| ==> IsDigit(s[k])
    ensures
      var r := m + ":" + s;
      && |r| >= 5 && r[|r| - 3] == ':'
      && (forall k :: 0 <= k < |r| && k != |r| - 3 ==> IsDigit(r[k]))
      && r[..|r| - 3] == m && r[|r| - 2..] == s
  {
    var r := m + ":" + s;
    assert r[..|r| - 3] == m;
    assert r[|r| - 2..] == s;
  }

  /** Numbers below 100 have at most two digits. */
  lemma DecimalShort(n: nat)
    requires n < 100
    ensures |Decimal(n)| <= 2
  {
    if n >= 10 {
      assert Decimal(n / 10) == [DigitChar(n / 10)];
    }
  }

  /** Zero padding keeps a string of digits a string of digits with the same value. */
  lemma PadKeepsValue(d: string)
    requires forall k :: 0 <= k < |d| ==> IsDigit(d[k])
    ensures forall k :: 0 <= k < |PadStart2(d)| ==> IsDigit(PadStart2(d)[k])
    ensures DecimalValue(PadStart2(d)) == DecimalValue(d)
  {
    if |d| == 1 {
      LeadingZero(d);
    } else if |d| == 0 {
      LeadingZero("0");
      LeadingZero([]);
    }
  }

  /** A leading zero does not change the value of a string of digits. */
  lemma {:induction false} LeadingZero(d: string)
    requires forall k :: 0 <= k < |d| ==> IsDigit(d[k])
    ensures DecimalValue(['0'] + d) == DecimalValue(d)
  {
    if |d| > 0 {
      var t := ['0'] + d;
      assert t[..|t| - 1] == ['0'] + d[..|d| - 1];
      LeadingZero(d[..|d| - 1]);
    }
  }

  // ---------------------------------------------------------------------
  // History

  /** `data.shift(); data.push(v)`: the oldest point leaves, the new one comes last. */
  function PushPoint(data: seq<real>, v: real): (r: seq<real>)
    ensures |r| >= 1
    ensures |data| > 0 ==> |r| == |data|
    ensures r[|r| - 1] == v
    ensures r[..|r| - 1] == if |data| > 0 then data[1..] else []
  {
    if |data| > 0 then data[1..] + [v] else [v]
  }

  /** Pushing a run of points one after another. */
  function PushAll(data: seq<real>, vs: seq<real>): seq<real>
    decreases |vs|
  {
    if |vs| == 0 then data else PushAll(PushPoint(data, vs[0]), vs[1..])
  }

  /**
    A non-empty history is a sliding window: after any run of points it
    holds the most recent `|data|` values of the old contents followed by
    the run.
  */
  lemma {:induction false} HistoryWindow(data: seq<real>, vs: seq<real>)
    requires |data| > 0
    ensures PushAll(data, vs) == (data + vs)[|vs|..]
    decreases |vs|
  {
    if |vs| > 0 {
      var next := PushPoint(data, vs[0]);
      assert next == data[1..] + [vs[0]];
      HistoryWindow(next, vs[1..]);
      SlideOnce(data, vs);
    }
  }

  /** The history as it starts: eight lines of 180 zeros. */
  function InitialHistory(): (r: seq<seq<real>>)
    ensures |r| == ZoneCount
    ensures forall i :: 0 <= i < |r| ==> |r[i]| == MaxDataPoints
  {
    seq(ZoneCount, _ => seq(MaxDataPoints, _ => 0.0))
  }

  /** `updateHistoryChart`: every line gets its zone's new percentage. */
  function UpdateHistoryChart(datasets: seq<seq<real>>, percentages: seq<real>): (r: seq<seq<real>>)
    requires |datasets| <= |percentages|
    ensures |r| == |datasets|
    ensures forall i :: 0 <= i < |datasets| ==> r[i] == PushPoint(datasets[i], percentages[i])
  {
    seq(|datasets|, i requires 0 <= i < |datasets| => PushPoint(datasets[i], percentages[i]))
  }

  /** Every line keeps its length and ends with its zone's latest percentage. */
  lemma HistoryKeepsShape(datasets: seq<seq<real>>, percentages: seq<real>)
    requires |datasets| <= |percentages|
    requires forall i :: 0 <= i < |datasets| ==> |datasets[i]| == MaxDataPoints
    ensures forall i :: 0 <= i < |datasets| ==>
      && |UpdateHistoryChart(datasets, percentages)[i]| == MaxDataPoints
      && UpdateHistoryChart(datasets, percentages)[i][MaxDataPoints - 1] == percentages[i]
      && UpdateHistoryChart(datasets, percentages)[i][..MaxDataPoints - 1] == datasets[i][1..]
  {
  }

  // ---------------------------------------------------------------------
  // Snapshot handling

  /** What the dashboard keeps between messages. */
  datatype Dashboard = Dashboard(
    canvas: Bounds,
    displayNames: seq<string>,
    keys: seq<string>,
    history: seq<seq<real>>,
    playerCount: nat,
    percentages: seq<real>)

  /**
    The dashboard before any message: a 1920 x 1080 canvas, the page's
    initial names and keys, and eight history lines of 180 zeros.
  */
  function InitialDashboard(): Dashboard
  {
    Dashboard(
      Bounds(1920.0, 1080.0),
      ["TECHNO", "ELECTRO", "JAZZ", "HIP HOP", "CLASSICAL", "HOUSE", "AMBIENT", "DRUM & BASS"],
      ["techno", "electro", "jazz", "hiphop", "classical", "house", "ambient", "drumandbass"],
      InitialHistory(), 0, seq(ZoneCount, _ => 0.0))
  }

  /**
    The `players` and `physicsUpdate` handlers: count the other ids, work
    out the zone percentages on the current canvas, and append them to the
    history.
  */
  function OnSnapshot(d: Dashboard, p: Entries, self: SelfId): (r: Dashboard)
    requires |d.history| <= ZoneCount
    ensures r == d.(playerCount := r.playerCount, percentages := r.percentages, history := r.history)
    ensures r.playerCount == PlayerCount(p, self)
    ensures |r.percentages| == ZoneCount
    ensures forall z :: 0 <= z < ZoneCount ==>
      r.percentages[z]
        == Percentage(CountZone(p, self, d.canvas.width, d.canvas.height, z), CountAll(p, self, d.canvas.width, d.canvas.height))
    ensures forall i :: 0 <= i < ZoneCount ==> 0.0 <= r.percentages[i] <= 100.0
    ensures CountAll(p, self, d.canvas.width, d.canvas.height) > 0 ==> SumReal(r.percentages) == 100.0
    ensures CountAll(p, self, d.canvas.width, d.canvas.height) == 0 ==>
      forall i :: 0 <= i < ZoneCount ==> r.percentages[i] == 0.0
    ensures r.history == UpdateHistoryChart(d.history, r.percentages)
  {
    var pct := ZoneStats(p, self, d.canvas.width, d.canvas.height);
    ZoneStatsSum(p, self, d.canvas.width, d.canvas.height);
    d.(playerCount := PlayerCount(p, self), percentages := pct, history := UpdateHistoryChart(d.history, pct))
  }

  /** `genresUpdate`: the names are shown as sent and their keys are recomputed. */
  function OnGenresUpdate(d: Dashboard, names: seq<string>): (r: Dashboard)
    ensures r == d.(displayNames := names, keys := r.keys)
    ensures |r.keys| == |names|
    ensures forall i :: 0 <= i < |names| ==> r.keys[i] == GenreKey(names[i])
  {
    d.(displayNames := names, keys := GenreKeys(names))
  }

  /** `boundsUpdate`: later zone percentages use the new canvas size. */
  function OnBoundsUpdate(d: Dashboard, width: real, height: real): (r: Dashboard)
    ensures r.canvas == Bounds(width, height)
    ensures r == d.(canvas := r.canvas)
  {
    d.(canvas := Bounds(width, height))
  }
}

=== FILE: text.dfy ===
/**
  The string operations the core uses: `trim`, ASCII case mapping, removing
  whitespace, decimal digits of a natural number and `padStart`.
  Characters are Unicode scalar values; surrogate pairs are not modelled.
*/
module Text {
  import Common

  /**
    JavaScript's white space and line terminators, the characters `trim`
    removes and `\s` matches.
  */
  predicate IsSpace(c: char)
  {
    || ('\U{9}' <= c <= '\U{D}')
    || c == '\U{20}' || c == '\U{A0}' || c == '\U{1680}'
    || ('\U{2000}' <= c <= '\U{200A}')
    || c == '\U{2028}' || c == '\U{2029}' || c == '\U{202F}' || c == '\U{205F}'
    || c == '\U{3000}' || c == '\U{FEFF}'
  }

  /** Every character of `s` is white space (also true of the empty string). */
  predicate AllSpace(s: string)
  {
    forall k :: 0 <= k < |s| ==> IsSpace(s[k])
  }

  /** The index of the first character at or after `i` that is not white space, or `|s|`. */
  function SkipStart(s: string, i: nat): (n: nat)
    requires i <= |s|
    ensures i <= n <= |s|
    ensures forall k :: i <= k < n ==> IsSpace(s[k])
    ensures n == |s| || !IsSpace(s[n])
    decreases |s| - i
  {
    if i < |s| && IsSpace(s[i]) then SkipStart(s, i + 1) else i
  }

  /**
    The index just after the last character before `j` that is not white
    space, stopping at `lo`.
  */
  function SkipEnd(s: string, lo: nat, j: nat): (n: nat)
    requires lo <= j <= |s|
    ensures lo <= n <= j
    ensures forall k :: n <= k < j ==> IsSpace(s[k])
    ensures n == lo || !IsSpace(s[n - 1])
    decreases j
  {
    if lo < j && IsSpace(s[j - 1]) then SkipEnd(s, lo, j - 1) else j
  }

  /**
    `r` is `s` with the white space at both ends removed, the kept part
    starting at index `i`.
  */
  ghost predicate TrimmedAt(s: string, i: int, r: string)
  {
    && 0 <= i && i + |r| <= |s|
    && r == s[i..i + |r|]
    && (forall k :: 0 <= k < i ==> IsSpace(s[k]))
    && (forall k :: i + |r| <= k < |s| ==> IsSpace(s[k]))
    && (r == [] || (!IsSpace(r[0]) && !IsSpace(r[|r| - 1])))
  }

  /** `String.prototype.trim`. */
  function Trim(s: string): (r: string)
    ensures exists i :: TrimmedAt(s, i, r)
  {
    var a := SkipStart(s, 0);
    var b := SkipEnd(s, a, |s|);
    assert TrimmedAt(s, a, s[a..b]);
    s[a..b]
  }

  /** The trimmed string is empty exactly when `s` is all white space. */
  lemma TrimEmpty(s: string)
    ensures Trim(s) == [] <==> AllSpace(s)
  {
    var t := Trim(s);
    var i :| TrimmedAt(s, i, t);
    if t != [] {
      assert s[i] == t[0];
    }
  }

  /** Trimming is idempotent. */
  lemma TrimIdempotent(s: string)
    ensures Trim(Trim(s)) == Trim(s)
  {
    var t := Trim(s);
    var j :| TrimmedAt(t, j, Trim(t));
  }

  function UpperChar(c: char): char
  {
    if 'a' <= c <= 'z' then (c as int - 32) as char else c
  }

  function LowerChar(c: char): char
  {
    if 'A' <= c <= 'Z' then (c as int + 32) as char else c
  }

  /** `toUpperCase` on the ASCII letters; every other character is kept. */
  function ToUpper(s: string): (r: string)
    ensures |r| == |s| && forall k :: 0 <= k < |s| ==> r[k] == UpperChar(s[k])
  {
    seq(|s|, k requires 0 <= k < |s| => UpperChar(s[k]))
  }

  /** `toLowerCase` on the ASCII letters; every other character is kept. */
  function ToLower(s: string): (r: string)
    ensures |r| == |s| && forall k :: 0 <= k < |s| ==> r[k] == LowerChar(s[k])
  {
    seq(|s|, k requires 0 <= k < |s| => LowerChar(s[k]))
  }

  /** Upper-casing leaves no lower-case ASCII letter and is idempotent. */
  lemma ToUpperProperties(s: string)
    ensures forall k :: 0 <= k < |s| ==> !('a' <= ToUpper(s)[k] <= 'z')
    ensures ToUpper(ToUpper(s)) == ToUpper(s)
  {
  }

  /** Upper-casing twice is upper-casing once. */
  lemma UpperIdempotent(s: string)
    ensures ToUpper(ToUpper(s)) == ToUpper(s)
  {
    ToUpperProperties(s);
  }

  /** Case mapping keeps white space where it is, so it commutes with trimming. */
  lemma TrimToUpper(s: string)
    ensures Trim(ToUpper(s)) == ToUpper(Trim(s))
  {
    var a := SkipStart(s, 0);
    SkipStartUpper(s, 0);
    SkipEndUpper(s, a, |s|);
    UpperSlice(s, a, SkipEnd(s, a, |s|));
  }

  lemma UpperSlice(s: string, a: int, b: int)
    requires 0 <= a <= b <= |s|
    ensures ToUpper(s)[a..b] == ToUpper(s[a..b])
  {
  }

  lemma {:induction false} SkipStartUpper(s: string, i: nat)
    requires i <= |s|
    ensures SkipStart(ToUpper(s), i) == SkipStart(s, i)
    decreases |s| - i
  {
    if i < |s| {
      UpperKeepsSpace(s[i]);
      SkipStartUpper(s, i + 1);
    }
  }

  lemma {:induction false} SkipEndUpper(s: string, lo: nat, j: nat)
    requires lo <= j <= |s|
    ensures SkipEnd(ToUpper(s), lo, j) == SkipEnd(s, lo, j)
    decreases j
  {
    if lo < j {
      UpperKeepsSpace(s[j - 1]);
      SkipEndUpper(s, lo, j - 1);
    }
  }

  lemma UpperKeepsSpace(c: char)
    ensures IsSpace(UpperChar(c)) == IsSpace(c)
  {
  }

  lemma LowerKeepsSpace(c: char)
    ensures IsSpace(LowerChar(c)) == IsSpace(c)
  {
  }

  /** `replace(/\s+/g, '')`: the characters of `s` that are not white space, in order. */
  function RemoveSpaces(s: string): (r: string)
    ensures |r| <= |s|
    ensures forall k :: 0 <= k < |r| ==> !IsSpace(r[k])
    ensures forall c :: c in r <==> c in s && !IsSpace(c)
  {
    if |s| == 0 then []
    else
      var rest := RemoveSpaces(s[1..]);
      assert forall c :: c in s <==> c == s[0] || c in s[1..];
      if IsSpace(s[0]) then rest else [s[0]] + rest
  }

  /** A character that `\s` does not match. */
  predicate NotSpace(c: char)
  {
    !IsSpace(c)
  }

  /** `idx` lists, in increasing order, exactly the indices of `s` that do not hold white space. */
  ghost predicate NonSpaceIndices(s: string, idx: seq<nat>)
  {
    Common.Kept(s, NotSpace, idx)
  }

  /**
    `RemoveSpaces` keeps order and multiplicity: its result is the
    characters at the non-white-space indices, in increasing index order.
  */
  lemma {:induction false} RemoveSpacesIndex(s: string) returns (idx: seq<nat>)
    ensures NonSpaceIndices(s, idx)
    ensures |idx| == |RemoveSpaces(s)|
    ensures forall j :: 0 <= j < |idx| ==> RemoveSpaces(s)[j] == s[idx[j]]
  {
    if |s| == 0 {
      idx := [];
    } else {
      var rest := RemoveSpacesIndex(s[1..]);
      var t := RemoveSpaces(s[1..]);
      assert RemoveSpaces(s) == if NotSpace(s[0]) then [s[0]] + t else t;
      idx := Common.KeptCons(s, NotSpace, t, rest);
    }
  }

  /** Removing white space from a string that has none changes nothing. */
  lemma {:induction false} RemoveSpacesNone(s: string)
    requires forall k :: 0 <= k < |s| ==> !IsSpace(s[k])
    ensures RemoveSpaces(s) == s
  {
    if |s| > 0 {
      RemoveSpacesNone(s[1..]);
    }
  }

  function DigitChar(d: nat): char
    requires d < 10
  {
    ('0' as int + d) as char
  }

  predicate IsDigit(c: char)
  {
    '0' <= c <= '9'
  }

  /** A hexadecimal digit of either case. */
  predicate IsHexDigit(c: char)
  {
    '0' <= c <= '9' || 'a' <= c <= 'f' || 'A' <= c <= 'F'
  }

  function DigitValue(c: char): nat
    requires IsDigit(c)
  {
    c as int - '0' as int
  }

  /** `String(n)` for a natural number: its decimal digits, most significant first. */
  function Decimal(n: nat): (r: string)
    ensures |r| >= 1
    ensures forall k :: 0 <= k < |r| ==> IsDigit(r[k])
    ensures |r| > 1 ==> r[0] != '0'
    decreases n
  {
    if n < 10 then [DigitChar(n)]
    else
      var prefix := Decimal(n / 10);
      prefix + [DigitChar(n % 10)]
  }

  /** The value of a string of decimal digits. */
  function DecimalValue(s: string): nat
    requires forall k :: 0 <= k < |s| ==> IsDigit(s[k])
  {
    if |s| == 0 then 0 else 10 * DecimalValue(s[..|s| - 1]) + DigitValue(s[|s| - 1])
  }

  /** Reading back the digits of `n` gives `n`. */
  lemma {:induction false} DecimalRoundTrip(n: nat)
    ensures DecimalValue(Decimal(n)) == n
    decreases n
  {
    if n >= 10 {
      var r := Decimal(n);
      assert r[..|r| - 1] == Decimal(n / 10);
      DecimalRoundTrip(n / 10);
    }
  }

  /** Different numbers have different decimal strings. */
  lemma DecimalInjective(m: nat, n: nat)
    requires Decimal(m) == Decimal(n)
    ensures m == n
  {
    DecimalRoundTrip(m);
    DecimalRoundTrip(n);
  }

  /** `padStart(2, '0')`: a string shorter than two characters gets leading zeros. */
  function PadStart2(s: string): (r: string)
    ensures |r| == if |s| >= 2 then |s| else 2
    ensures r[|r| - |s|..] == s
    ensures forall k :: 0 <= k < |r| - |s| ==> r[k] == '0'
  {
    if |s| >= 2 then s
    else if |s| == 1 then ['0'] + s
    else "00"
  }
}

=== FILE: zones.dfy ===
/**
  The genre zones shared by the stats dashboard and the server view: the
  arena is cut into a 4 x 2 grid, zone `row * 4 + col`, and each view counts
  the bodies per zone and turns the counts into percentages.
*/
module Zones {
  import opened Common
  import opened Geometry
  import opened Assoc
  import opened Physics

  const Cols: nat := 4
  const Rows: nat := 2
  const ZoneCount: nat := 8

  /**
    `Math.floor(v / (extent / n))`: the index of the band of width
    `extent / n` holding `v`. A zero extent makes the quotient infinite or
    NaN, which every range check rejects; -1 stands for it.
  */
  function Band(v: real, extent: real, n: nat): int
    requires n > 0
  {
    if extent == 0.0 then -1 else (v / (extent / n as real)).Floor
  }

  /** `getPlayerGenre`: the zone holding `(x, y)` on a `width x height` canvas, or -1. */
  function GetPlayerGenre(x: real, y: real, width: real, height: real): (r: int)
    ensures r == -1 || 0 <= r < ZoneCount
  {
    var col := Band(x, width, Cols);
    var row := Band(y, height, Rows);
    if 0 <= col < Cols && 0 <= row < Rows then row * Cols + col else -1
  }

  /**
    On a canvas of positive size, a point has a zone exactly when it lies
    on the canvas; the zone is in the top row exactly when the point is in
    the top half, and the zone's column and row are the bands holding the
    point.
  */
  lemma GetPlayerGenreMeaning(x: real, y: real, width: real, height: real)
    requires width > 0.0 && height > 0.0
    ensures GetPlayerGenre(x, y, width, height) >= 0 <==> 0.0 <= x < width && 0.0 <= y < height
    ensures GetPlayerGenre(x, y, width, height) >= 0 ==>
      (GetPlayerGenre(x, y, width, height) < Cols <==> y < height / 2.0)
    ensures GetPlayerGenre(x, y, width, height) >= 0 ==>
      var z := GetPlayerGenre(x, y, width, height);
      && InBand(x, width, Cols, z % Cols)
      && InBand(y, height, Rows, z / Cols)
  {
    BandMeaning(x, width, Cols);
    BandMeaning(y, height, Rows);
    var col := Band(x, width, Cols);
    var row := Band(y, height, Rows);
    if 0 <= col < Cols && 0 <= row < Rows {
      ZoneParts(row, col);
      TopHalf(y, height, row);
    }
  }

  /** The zone `row * 4 + col` gives back its column and row. */
  lemma ZoneParts(row: int, col: int)
    requires 0 <= col < Cols && 0 <= row < Rows
    ensures (row * Cols + col) % Cols == col && (row * Cols + col) / Cols == row
    ensures row * Cols + col < Cols <==> row == 0
  {
  }

  /** The first of two rows holds exactly the upper half. */
  lemma TopHalf(y: real, height: real, row: int)
    requires height > 0.0 && 0 <= row < Rows
    requires InBand(y, height, Rows, row)
    ensures row == 0 <==> y < height / 2.0
  {
  }

  /** `v` lies in band `k` of `n` equal bands of `[0, extent)`. */
  ghost predicate InBand(v: real, extent: real, n: nat, k: int)
    requires n > 0
  {
    k as real * (extent / n as real) <= v < (k as real + 1.0) * (extent / n as real)
  }

  /** The band index brackets `v`, and lies in `0 .. n - 1` exactly when `v` is in `[0, extent)`. */
  lemma BandMeaning(v: real, extent: real, n: nat)
    requires n > 0 && extent > 0.0
    ensures InBand(v, extent, n, Band(v, extent, n))
    ensures 0 <= Band(v, extent, n) < n <==> 0.0 <= v < extent
  {
    var d := extent / n as real;
    var k := Band(v, extent, n);
    FloorBracket(v, d);
    BracketRange(v, extent, n, d, k);
  }

  /** `floor(v / d) * d <= v < (floor(v / d) + 1) * d` for a positive width `d`. */
  lemma FloorBracket(v: real, d: real)
    requires d > 0.0
    ensures (v / d).Floor as real * d <= v < ((v / d).Floor as real + 1.0) * d
  {
    QuotientBracket(v / d, d, v);
  }

  lemma QuotientBracket(q: real, d: real, v: real)
    requires d > 0.0 && q * d == v
    ensures q.Floor as real * d <= v < (q.Floor as real + 1.0) * d
  {
    MulMonotone(q.Floor as real, q, d);
    MulMonotone(q, q.Floor as real + 1.0, d);
  }

  /** A band bracketing `v` is one of the `n` bands of `[0, extent)` exactly when `v` is in that interval. */
  lemma BracketRange(v: real, extent: real, n: nat, d: real, k: int)
    requires d > 0.0 && n > 0 && n as real * d == extent
    requires k as real * d <= v < (k as real + 1.0) * d
    ensures 0 <= k < n <==> 0.0 <= v < extent
  {
    if 0.0 <= v < extent {
      BandInRange(v, extent, n, d, k);
    }
    if 0 <= k < n {
      MulMonotone(0.0, k as real, d);
      MulMonotone(k as real + 1.0, n as real, d);
      assert 0.0 * d == 0.0;
    }
  }

  lemma BandInRange(v: real, extent: real, n: nat, d: real, k: int)
    requires d > 0.0 && n > 0 && n as real * d == extent
    requires k as real * d <= v < (k as real + 1.0) * d
    requires 0.0 <= v < extent
    ensures 0 <= k < n
  {
    if k < 0 {
      MulMonotone(k as real + 1.0, 0.0, d);
      assert false;
    }
    if k >= n {
      MulMonotone(n as real, k as real, d);
      assert false;
    }
  }

  lemma MulMonotone(a: real, b: real, d: real)
    requires a <= b && d > 0.0
    ensures a * d <= b * d
    ensures a < b ==> a * d < b * d
  {
    assert b * d - a * d == (b - a) * d;
    if a < b {
      ProductPos(b - a, d);
    }
  }

  // ---------------------------------------------------------------------
  // Counting

  /** The zone of a body's centre. */
  function ZoneOf(b: Body, width: real, height: real): int
  {
    GetPlayerGenre(b.position.x, b.position.y, width, height)
  }

  /** The entry is counted: it is not the viewing socket's own id, and it has a zone. */
  predicate Counted(e: (string, Body), self: Option<string>, width: real, height: real)
  {
    && (self.None? || e.0 != self.value)
    && ZoneOf(e.1, width, height) >= 0
  }

  /**
    The counting loop of `updateGenreStats` (and of `updateStats`, which
    skips no id): eight zone counts and their total, the entries visited
    in key order.
  */
  function Tally(p: Entries, self: Option<string>, width: real, height: real): (r: (seq<nat>, nat))
    ensures |r.0| == ZoneCount
  {
    if |p| == 0 then (seq(ZoneCount, _ => 0), 0)
    else
      var (counts, total) := Tally(p[..|p| - 1], self, width, height);
      var e := p[|p| - 1];
      if Counted(e, self, width, height) then
        var z := ZoneOf(e.1, width, height);
        (counts[z := counts[z] + 1], total + 1)
      else (counts, total)
  }

  /** The number of counted entries whose zone is `z`. */
  function CountZone(p: Entries, self: Option<string>, width: real, height: real, z: int): nat
  {
    if |p| == 0 then 0
    else
      var e := p[|p| - 1];
      CountZone(p[..|p| - 1], self, width, height, z)
        + (if Counted(e, self, width, height) && ZoneOf(e.1, width, height) == z then 1 else 0)
  }

  /** The number of counted entries. */
  function CountAll(p: Entries, self: Option<string>, width: real, height: real): nat
  {
    if |p| == 0 then 0
    else CountAll(p[..|p| - 1], self, width, height) + (if Counted(p[|p| - 1], self, width, height) then 1 else 0)
  }

  /**
    Each zone count is the number of counted entries in that zone, the
    total is the number of counted entries, and the counts add up to the
    total.
  */
  lemma {:induction false} TallyMeaning(p: Entries, self: Option<string>, width: real, height: real)
    ensures forall z :: 0 <= z < ZoneCount ==> Tally(p, self, width, height).0[z] == CountZone(p, self, width, height, z)
    ensures Tally(p, self, width, height).1 == CountAll(p, self, width, height)
    ensures SumNat(Tally(p, self, width, height).0) == Tally(p, self, width, height).1
  {
    if |p| == 0 {
      SumNatZeros(seq(ZoneCount, _ => 0));
    } else {
      var q := p[..|p| - 1];
      TallyMeaning(q, self, width, height);
      var e := p[|p| - 1];
      var counts := Tally(q, self, width, height).0;
      if Counted(e, self, width, height) {
        var z := ZoneOf(e.1, width, height);
        SumNatIncrement(counts, z);
      }
    }
  }

  lemma {:induction false} SumNatZeros(s: seq<nat>)
    requires forall i :: 0 <= i < |s| ==> s[i] == 0
    ensures SumNat(s) == 0
  {
    if |s| > 0 {
      SumNatZeros(s[..|s| - 1]);
    }
  }

  /** Adding one to an element adds one to the sum. */
  lemma {:induction false} SumNatIncrement(s: seq<nat>, i: int)
    requires 0 <= i < |s|
    ensures SumNat(s[i := s[i] + 1]) == SumNat(s) + 1
  {
    var t := s[i := s[i] + 1];
    if i < |s| - 1 {
      assert t[..|t| - 1] == s[..|s| - 1][i := s[i] + 1];
      SumNatIncrement(s[..|s| - 1], i);
    } else {
      assert t[..|t| - 1] == s[..|s| - 1];
    }
  }

  /** Every element is at most the sum. */
  lemma {:induction false} ElementBelowSum(s: seq<nat>, i: int)
    requires 0 <= i < |s|
    ensures s[i] <= SumNat(s)
  {
    if i < |s| - 1 {
      ElementBelowSum(s[..|s| - 1], i);
    }
  }

  // ---------------------------------------------------------------------
  // Percentages

  /** `totalPlayers > 0 ? (count / totalPlayers) * 100 : 0` for each zone. */
  function Percentages(counts: seq<nat>, total: nat): (r: seq<real>)
    ensures |r| == |counts|
    ensures forall i :: 0 <= i < |counts| ==> r[i] == Percentage(counts[i], total)
  {
    seq(|counts|, i requires 0 <= i < |counts| => Percentage(counts[i], total))
  }

  function Percentage(count: nat, total: nat): real
  {
    if total > 0 then (count as real / total as real) * 100.0 else 0.0
  }

  /**
    With no counted body every percentage is 0; otherwise each lies in
    `[0, 100]` and together they add up to 100.
  */
  lemma PercentagesSum(counts: seq<nat>, total: nat)
    requires SumNat(counts) == total
    ensures total == 0 ==> forall i :: 0 <= i < |counts| ==> Percentages(counts, total)[i] == 0.0
    ensures total > 0 ==> SumReal(Percentages(counts, total)) == 100.0
    ensures forall i :: 0 <= i < |counts| ==> 0.0 <= Percentages(counts, total)[i] <= 100.0
  {
    if total > 0 {
      PercentagesScale(counts, total);
      WholeShare(total);
      PercentageBounds(counts, total);
    }
  }

  lemma WholeShare(t: nat)
    requires t > 0
    ensures (t as real / t as real) * 100.0 == 100.0
  {
  }

  /** Each zone's share of a positive total that its counts add up to lies in `[0, 100]`. */
  lemma PercentageBounds(counts: seq<nat>, total: nat)
    requires total > 0 && SumNat(counts) == total
    ensures forall i :: 0 <= i < |counts| ==> 0.0 <= Percentages(counts, total)[i] <= 100.0
  {
    forall i | 0 <= i < |counts|
      ensures 0.0 <= Percentage(counts[i], total) <= 100.0
    {
      ElementBelowSum(counts, i);
      FractionBelowOne(counts[i], total);
    }
  }

  lemma FractionBelowOne(c: nat, t: nat)
    requires 0 < t && c <= t
    ensures 0.0 <= (c as real / t as real) * 100.0 <= 100.0
  {
    var f := c as real / t as real;
    assert f * t as real == c as real;
    if f > 1.0 {
      MulMonotone(1.0, f, t as real);
    }
    if f < 0.0 {
      MulMonotone(f, 0.0, t as real);
    }
  }

  /** The percentages add up to the share of the counted total in `total`. */
  lemma {:induction false} PercentagesScale(counts: seq<nat>, total: nat)
    requires total > 0
    ensures SumReal(Percentages(counts, total)) == (SumNat(counts) as real / total as real) * 100.0
  {
    if |counts| > 0 {
      var init := counts[..|counts| - 1];
      assert Percentages(counts, total)[..|counts| - 1] == Percentages(init, total);
      PercentagesScale(init, total);
      AddShares(SumNat(init) as real, counts[|counts| - 1] as real, total as real);
    }
  }

  /** Two shares of the same total add up to the share of their sum. */
  lemma AddShares(a: real, b: real, t: real)
    requires t > 0.0
    ensures (a / t) * 100.0 + (b / t) * 100.0 == ((a + b) / t) * 100.0
  {
  }

  /**
    The percentages per zone: the share of counted bodies that lie in each
    zone, times 100.
  */
  function ZoneStats(p: Entries, self: Option<string>, width: real, height: real): (r: seq<real>)
    ensures |r| == ZoneCount
    ensures forall z :: 0 <= z < ZoneCount ==>
      r[z] == Percentage(CountZone(p, self, width, height, z), CountAll(p, self, width, height))
    ensures forall i :: 0 <= i < ZoneCount ==> 0.0 <= r[i] <= 100.0
  {
    TallyMeaning(p, self, width, height);
    var (counts, total) := Tally(p, self, width, height);
    PercentagesSum(counts, total);
    Percentages(counts, total)
  }

  /**
    The percentages a view shows: all 0 when no body is on the canvas,
    otherwise each in `[0, 100]`, adding up to 100.
  */
  lemma ZoneStatsSum(p: Entries, self: Option<string>, width: real, height: real)
    ensures CountAll(p, self, width, height) == 0 ==>
      forall i :: 0 <= i < ZoneCount ==> ZoneStats(p, self, width, height)[i] == 0.0
    ensures CountAll(p, self, width, height) > 0 ==> SumReal(ZoneStats(p, self, width, height)) == 100.0
    ensures forall i :: 0 <= i < ZoneCount ==> 0.0 <= ZoneStats(p, self, width, height)[i] <= 100.0
  {
    TallyMeaning(p, self, width, height);
    var (counts, total) := Tally(p, self, width, height);
    PercentagesSum(counts, total);
  }
}
